=== FILE: README.md ===
# Smart air-quality and fire-safety dashboard, modelled in Dafny

This project models the page logic of a browser dashboard for indoor air quality and fire
safety. Every page keeps its state in memory or in browser storage and simulates its sensors
with `Math.random()`. The model covers:

- the login form and the session guard;
- the main dashboard's random-walk tick with its classifiers, insights and alert feed;
- the analytics page's sliding chart series;
- the alert centre: catalogue, active list, acknowledgement, history table and counts;
- the historical-data page: the hourly generator, range filter, summary cards and pager;
- the smart-rules automation engine with its presets and simulated ticks;
- the task scheduler: safety rule, time order, simulated clock and once-per-minute check;
- the report generator: labels, mock trends, summary cards, insights and history;
- the data-export page: mock records, severity filter, CSV and spreadsheet text, export history;
- the real-time packet stream: generator, bounded buffer and table, CSV export;
- the system-control page: saved configuration overlay, slider rule, hold-to-shutdown and reset;
- the device-control panel: purifier controls, confirmation modal, fire-alarm lockout and long press.

Conventions of the model:

- Random draws are parameters: real numbers in [0, 1).
- Clock readings are integers in milliseconds. Locale-formatted times are parameters.
- `localStorage` values are `Option` inputs; `sessionStorage` is a `map<string, string>`.
- `confirm()` answers are booleans.
- Timers become explicit steps: one call per tick, or a hold given by its duration.
- DOM updates are modelled as the state the page would draw.

`Common` holds the shared text and sequence helpers: trimming (over the white space and line
terminators that `String.prototype.trim` removes), case mapping of the ASCII letters, splitting
and joining, decimal digits, and a counting filter that keeps order. `Bounded` holds the capped newest-first and
oldest-first lists that several pages share.

## Model

| member | source | states |
|---|---|---|
| Login.Submit | script.js:20-42 | The form is refused as missing exactly when a trimmed field is empty. Login succeeds exactly for the trimmed pair admin/admin123. A failed check clears only the password. Success adds `isLoggedIn = "true"` and `userRole = "admin"` and keeps every other session key. |
| Login.Check | script.js:26-41 | On the trimmed fields, "missing input" comes exactly when either is empty. Login succeeds exactly for admin/admin123. Any other pair is invalid. |
| Login.SessionAfter | script.js:69-79 | Only a successful login writes to the session. It sets `isLoggedIn` to "true" and `userRole` to "admin" and keeps every other key and value. |
| Login.LoginOpensDashboard | script.js:69-85 | After a successful login the dashboard guard lets the visitor in. After a failure the guard decides as before. A confirmed logout brings the guard back. |
| Login.TrimmedFormSameOutcome | script.js:23-24 | Trimming the fields beforehand never changes the outcome or the session. |
| Login.MissingIffBlank | script.js:27-30 | "Missing input" is reported exactly when one field consists only of blanks. |
| Dashboard.Logout | dashboard.js:39-45 | Without confirmation nothing changes. With it both session flags are gone, every other key stays with its value unchanged, and the guard redirects. |
| Dashboard.Clamp | dashboard.js:258 | The result lies in [lo, hi]. It is the input when the input is already inside, otherwise the nearer bound. |
| Dashboard.ClampMonotone | dashboard.js:258 | A larger input never clamps to a smaller value. |
| Dashboard.ClassifyAqi | dashboard.js:77-80 | Good below 50, Moderate from 50 below 100, Unhealthy from 100, each as an iff. |
| Dashboard.ClassifyFire | dashboard.js:89-92 | HIGH above 50, Elevated above 20 up to 50, Low otherwise, each as an iff. |
| Dashboard.ClassifiersMonotone | dashboard.js:77-92 | A worse reading never gets a milder label. Emergency risk (above 60) always reads HIGH. |
| Dashboard.AddAlert | dashboard.js:166-170 | The new alert is first and the older ones follow in order. A list of at most 20 stays at most 20. |
| Dashboard.FeedRows | dashboard.js:154-162 | Nothing is drawn for an empty list. Otherwise the five newest are shown, each prepended in turn, so the oldest of the five is on top. |
| Dashboard.Insights | dashboard.js:95-118 | Each insight appears exactly under its condition (iff): thermal anomaly on a risk rise, turbo above AQI 100, eco otherwise, rising above +10, improved below -5. |
| Dashboard.Tick | dashboard.js:50-67 | AQI stays in [20, 150]. Fire risk rises by 25 (capped at 100) on a fire draw and otherwise falls by 1 (floored at 0). The chart window keeps its length, shifts every older point one place left and ends with the new AQI. The insights are those for the new AQI against the oldest charted point and the previous fire risk. An alert is added only in an emergency with an alert draw above 0.8. |
| Dashboard.InitialInv | dashboard.js:14-24 | The initial state satisfies the reachability invariant. |
| Dashboard.TickKeepsInv | dashboard.js:50-67 | Every tick keeps AQI in [20, 150], risk in [0, 100], at most 20 alerts and the 20-point window. |
| Dashboard.ThermalIffFireEvent | dashboard.js:56-60 | From a reachable state the thermal insight shows exactly on a fire draw while the risk is below 100. |
| Dashboard.RunKeepsInv | dashboard.js:33 | Any run of ticks keeps the invariant. |
| Dashboard.QuietRunLowersRisk | dashboard.js:58-59 | After n ticks without a fire draw the risk is max(0, risk - n). |
| Analytics.SmokeReading | analytics.js:188 | Smoke lies in [0, 40). Above 20 it needs a spike draw above 0.9; without a spike it is below 10. |
| Analytics.GaugeRisk | analytics.js:228-231 | The gauge lies in [0, 100] and equals the risk formula whenever the formula is inside. |
| Analytics.Gauge | analytics.js:228-231 | The two doughnut slices add to 100 and lie in [0, 100]. The first slice is red exactly above 50. |
| Analytics.KpiRisk | analytics.js:246-253 | The KPI is never negative. It is the rounded formula when that is non-negative, and 0 below -0.5. |
| Analytics.Step | analytics.js:180-213 | Each of the five series gets the new sample pushed, and the oldest is shifted out once the chart holds 21. The correlation point is appended. A smoke alert is prepended exactly when smoke is above 20 and the alert draw is above 0.8. |
| Analytics.StepKeepsInv | analytics.js:219-244 | The five series keep one common length of at most 21. Correlation stays at most 31 points and alerts at most the cap. |
| Analytics.RunLength | analytics.js:180-213 | After n steps the series hold min(m + n, 21) samples. |
| Analytics.AlertNeedsSpike | analytics.js:271-275 | An alert appears only on a step with a smoke spike draw above 0.9 and an alert draw above 0.8. |
| Alerts.Templates | alert.js:15-28 | Each category has four templates. |
| Alerts.StatusOf | alert.js:113-145 | EMERGENCY exactly when a critical alert is active. WARNING exactly when there is a warning and no critical. SAFE exactly when all are info. |
| Alerts.TriggerAlert | alert.js:89-111 | The new alert from the template is first and the older ones follow. The list grows by one up to 50. The history is unchanged. The fire flag is set by a critical fire template. |
| Alerts.CriticalTriggerMeansEmergency | alert.js:89-145 | Triggering a critical template always puts the page into EMERGENCY. |
| Alerts.RandomTrigger | alert.js:77-83 | Nothing happens with a pick draw of at most 0.7. Otherwise the alert built from template ⌊4 × index draw⌋ of the drawn category goes first: Fire exactly for a category draw above 0.8. The older alerts follow in order, the oldest dropping past 50, and history is kept. |
| Alerts.EveryTemplateDrawn | alert.js:79-81 | Every template of both categories is reachable: the index draw k/4 picks template k, and the result is exactly `TriggerAlert` with that category and index. |
| Alerts.Acknowledge | alert.js:199-217 | An unknown id changes nothing. Otherwise that alert leaves the active list and enters the history first, acknowledged. The total of active and history is preserved. |
| Alerts.SeverityCounts | alert.js:340-353 | The three doughnut counts add up to the size of active plus history. |
| Alerts.CountsCoverAll | alert.js:340-353 | Every alert has exactly one of the three severities. |
| Alerts.CountWithout | alert.js:199-217 | Removing an element removes exactly its own contribution to a severity count. |
| Alerts.AcknowledgeKeepsCounts | alert.js:199-217 | Acknowledgement leaves the three doughnut counts unchanged. |
| Alerts.ActiveFiltered | alert.js:151-154 | "all" keeps the list. Any other filter keeps exactly the alerts of that category name, and only alerts from the list, in list order, as many as the list holds. |
| Alerts.HistoryTable | alert.js:276-305 | The first ten matches in history order, or all of them when fewer match: every row matches the search and the severity choice, the count is the smaller of ten and the number of matches, and the rows are the leading part of the ordered matches. |
| Alerts.UnfilteredHistoryTable | alert.js:284-293 | An empty search with "all" shows the first ten history entries unchanged. |
| Alerts.SearchIgnoresCase | alert.js:284-286 | Upper-casing the search term changes no row. |
| Alerts.SeverityFiltersNest | alert.js:287-290 | Rows shown for "critical" are also admitted by "warning". |
| Alerts.ActionText | alert.js:300 | A recorded action is shown as is; no action reads "Manual Reset". |
| Alerts.TimeAgoReadsBack | alert.js:189-197 | "Just now" exactly below a minute. Otherwise the number in the text parses back as the elapsed whole minutes (1 to 59) or hours. |
| Alerts.CardTimeText | alert.js:166-167 | The first drawing reads "Just now" exactly below a minute. From a minute on it is always minutes: a whole number of minutes, at least 1, that reads back as the elapsed minutes rounded down, then "m ago". Below an hour it agrees with the refreshed text. |
| History.RoundHalfUp | history.js:81 | `Math.round`: the result is within half of the input, with halves going up. |
| History.RoundedMean | history.js:226 | The average card is the integer nearest the mean, with halves going up. |
| History.HourRow | history.js:19-84 | Hour i is stamped now - i hours. Its status is Emergency on a fire draw, Warning on a spike draw, and Normal otherwise. PM2.5 is at least 2 and AQI at least 7; a spike raises them to at least 52 and 157. |
| History.HourEvents | history.js:45-71 | An hour adds one event per spike and per fire draw, all at that hour's time. |
| History.GenerateHistoryData | history.js:13-92 | There are days × 24 rows, oldest first. The events come newest first, and their number is the count of spike draws plus fire draws. |
| History.GenerateHours | history.js:19-91 | The rows are one hour apart, oldest first, ending at now. Every event falls inside the generated span. |
| History.GenerateRows | history.js:19-88 | Row `k` is the reading drawn for hour `n - 1 - k` before now. So the rows come oldest first and the first lies `n - 1` hours back. |
| History.GenerateEvents | history.js:45-71 | The events are newest first, one per spike or fire draw, and all inside the span. |
| History.FilterRange | history.js:194-210 | An unparseable start or end keeps nothing. Otherwise exactly the rows whose time lies in the range are kept, in order. |
| History.RangeFilterOrderAndWidening | history.js:203-206 | The filtered rows stay oldest first. A wider range keeps every row of a narrower one. |
| History.MaxTemp | history.js:230 | The maximum is at least every temperature and is one of them. |
| History.SummaryCards | history.js:221-239 | An empty selection draws nothing. Otherwise the cards show the rounded mean AQI, the maximum temperature, and the number of events between the first and last row's time. |
| History.AlertCardCountsSpan | history.js:233-238 | When all events lie within the selection's span, the alert card counts them all. |
| History.TotalPages | history.js:413 | Zero pages exactly for zero rows. Otherwise the least page count whose ten-row pages hold all rows. |
| History.ChangePage | history.js:420-427 | The page moves by delta exactly when the new page exists; otherwise it stays. |
| History.PageRows | history.js:377-409 | A page holds at most ten rows, taken consecutively from its start. An existing page is non-empty, a page past the end is empty, and a page before the last is full. |
| History.PagesCoverData | history.js:383-385 | Every row appears on its page, at its offset. |
| History.SearchRows | history.js:166-173 | Exactly the rows whose lower-cased status or action contains the lower-cased term are kept, only rows of the input, in input order, as many as the input holds. |
| History.EmptySearchKeepsAll | history.js:166-173 | An empty search keeps every row. |
| History.PaginationControls | history.js:411-418 | As written: a zero total falls back to the filtered length. "prev" is disabled exactly on page 1, "next" exactly on the last page. |
| History.ControlsMatchChangePage | history.js:411-427 | On an existing page each button is disabled exactly when clicking it would not move. |
| History.EmptySelectionNextEnabled | history.js:411-418 | As written, an empty selection shows page 1 of 0 with "next" enabled. |
| History.PaginationControlsFixed | history.js:411-418 | Corrected: "next" is disabled on or past the last page, and "prev" on or before the first. |
| History.FixedControlsMatchChangePage | history.js:411-427 | With the correction, for every selection (empty included) the buttons are disabled exactly when clicking would not move. |
| History.UpdateDashboard | history.js:212-219 | As written: the table is drawn for the old current page, and only then is the page reset to 1. |
| History.UpdateDashboardShowsStalePage | history.js:212-219 | As written, from page 3 a new five-row selection shows an empty table under "Page 1 of 1". |
| History.UpdateDashboardFixed | history.js:212-219 | Corrected: the page is reset before drawing. |
| History.FixedUpdateShowsFirstPage | history.js:212-219 | With the correction the table shows the first ten rows of the new selection. |
| Automation.ModeByName | automation.js:19-34 | A found preset carries the name asked for. An unknown name matches no preset. |
| Automation.EvaluateFrom | automation.js:152-172 | For the rules from i on: each call names a satisfied rule with its own action, in rule order, and every satisfied rule is called. |
| Automation.Evaluate | automation.js:152-172 | Exactly one handler call per satisfied rule (an iff over positions), in rule order, each with that rule's action. |
| Automation.BooleanRuleIgnoresOperator | automation.js:158-164 | A smoke or gas rule ignores its operator. It holds exactly when its threshold is 'detected' and the flag is set. |
| Automation.NumericRuleOperators | automation.js:165-169 | A numeric rule holds for `>`, `<` and `=` by that comparison. Any other operator never fires. |
| Automation.FireSafetyAlarmIff | automation.js:19-34 | The fire-safety preset calls the alarm exactly when smoke is detected or the temperature is above its threshold, in rule order. |
| Automation.NightModeNeverFires | automation.js:19-34 | The night preset compares a clock text numerically and never fires. |
| Automation.LoadRules | automation.js:54-64 | The saved list when present; otherwise the two-rule smart-air preset. |
| Automation.ResetRules | automation.js:119-125 | Without confirmation nothing changes. With it the default preset is back. |
| Automation.ActivateMode | automation.js:230-239 | An unknown name is an error. Otherwise the list becomes exactly that preset's rules. |
| Automation.AddNewRule | automation.js:86-103 | Smoke and gas rules get the 'detected' threshold. A numeric rule without a threshold is refused. The new rule is appended and the others are kept. |
| Automation.DeleteRule | automation.js:105-108 | An index in range removes exactly that rule and keeps the order. An index at or past the end changes nothing. |
| Automation.SimTick | automation.js:129-150 | Disabled or locked: nothing happens. While smoke is set the readings stay as they are. Otherwise AQI stays non-negative and temperature within [15, 40]. Only those two readings change. The rules are then evaluated on the new readings. |
| Automation.SimulateEvent | automation.js:192-212 | Each event kind sets its readings and nothing else on the page, an unknown kind changes nothing, and the rules are evaluated at once. |
| Automation.FireEventUnderFireSafety | automation.js:192-212 | A fire under the fire-safety preset calls the alarm for both rules, in order. |
| Schedule.LoadTasks | schedule.js:27-39 | The saved list when present; otherwise the two default tasks at 08:00 and 22:00. |
| Schedule.AddTask | schedule.js:41-73 | An empty name or time is refused. Switching the fire alarm off is refused for safety. Anything else is added (an iff), and a safe schedule stays safe. |
| Schedule.DeleteTask | schedule.js:75-88 | An unknown id changes nothing. A critical task stays without confirmation. Otherwise exactly that task goes. Safety is kept. |
| Schedule.LexLeqTotal | schedule.js:114 | The time comparison is total. |
| Schedule.LexLeqTrans | schedule.js:114 | The time comparison is transitive. |
| Schedule.InsertByTime | schedule.js:114 | Inserting into a time-sorted list keeps it sorted and adds exactly the one task. |
| Schedule.SortByTime | schedule.js:114 | The rendered order is sorted by time and is a permutation of the list. |
| Schedule.SortKeepsSafe | schedule.js:114 | Sorting never brings in an unsafe task. |
| Schedule.FormatHm | schedule.js:167-169 | The clock text has five characters with ':' in the middle. |
| Schedule.ParseFormatHm | schedule.js:141-143 | Splitting a formatted minute at ':' gives back its hour and minute. |
| Schedule.FormatHmInjective | schedule.js:179 | Two different minutes never share a clock text. |
| Schedule.MarkerPercent | schedule.js:141-143 | A valid hour and minute place the marker in [0, 100). |
| Schedule.FormattedTimeMarkerOnTrack | schedule.js:141-143 | A stored clock-format time places its marker on the track. |
| Schedule.ToggleSim | schedule.js:206-219 | Time travel switches simulation on and adds exactly one hour. |
| Schedule.ToggleTimesOffset | schedule.js:206-219 | n presses add exactly n hours; the offset never falls. |
| Schedule.LocalMinute | schedule.js:167-169 | The local minute of the day lies in [0, 1440). |
| Schedule.PauseAll | schedule.js:94-106 | Only the pause switch flips. |
| Schedule.DueAt | schedule.js:181-188 | The due tasks are exactly the tasks with that time, as many as there are, in list order. |
| Schedule.DueAtInsert | schedule.js:114 | Inserting a task into the sorted list puts it in front of the tasks already due at its minute and changes no other minute. |
| Schedule.SortKeepsDue | schedule.js:114 | The render sort keeps, for every minute, the same due tasks (the tasks `DueAt` selects) in the same order, so the in-place sort never changes what a check runs. |
| Schedule.CheckSchedule | schedule.js:172-189 | Paused, or a key already checked: nothing runs. Otherwise the due tasks run and the key is recorded. Tasks and the pause state are kept, and checked keys are never dropped. |
| Schedule.Tick | schedule.js:160-189 | The key is the local "HH:MM" of the simulated time. |
| Schedule.RunChecksAtMostOnce | schedule.js:172-189 | Over any run of checks, each key runs at most once per session. |
| Schedule.DailyTaskSkipsNextDay | schedule.js:179 | As written, a daily 22:00 task that ran does not run at 22:00 the next day. |
| Schedule.CheckScheduleDated | schedule.js:172-189 | Corrected: the key includes the day, with the same guarantees. |
| Schedule.DatedRunsEveryDayOncePerMinute | schedule.js:172-189 | With the correction, a task runs at its time on every day, once per day and minute. |
| Reports.Labels | reports.js:73-76 | "today" gives 24 labels "k:00". Any other range gives the seven weekdays. |
| Reports.HourLabelsReadBack | reports.js:73-76 | Each hourly label reads back as its hour, so the labels are distinct. |
| Reports.Trend | reports.js:83-97 | Air and full reports draw AQI values from 40 to 89. Fire reports draw 1 exactly for a draw above 0.8. Other kinds have no trend. |
| Reports.FireTrendSum | reports.js:91-97 | The incident count equals the number of draws above 0.8 and is at most the number of labels. |
| Reports.AirStats | reports.js:86-89 | The average card is the floor of the mean; the peak card is the maximum and is one of the values. |
| Reports.FireStats | reports.js:94-97 | Incidents is the sum of the trend, repeated as smoke events. |
| Reports.FetchMockData | reports.js:71-107 | The labels come from the range and the trend has one value per label. An air report's cards are bounded by the trend. A fire report's incidents are the count of high draws. A full report adds zero fire incidents. An unknown kind has no cards. |
| Reports.AirCardsInRange | reports.js:83-89 | An air report's cards satisfy 40 ≤ average ≤ peak ≤ 89. |
| Reports.EventPool | reports.js:109-124 | Each kind has a pool of four events. |
| Reports.GenerateMockLogs | reports.js:109-124 | One row per draw pair, stamped at hours 10, 11, …. Each row takes its event from the kind's pool, has a value below 100 and status OK. |
| Reports.TypeLabel | reports.js:240-244 | air, fire and anything else map to their three labels, each as an iff. |
| Reports.InsightFor | reports.js:140-154 | An air report is Good exactly below average 50 and Moderate otherwise. Fire reads Secure; anything else Stable. |
| Reports.AirInsightFromTrend | reports.js:140-147 | An air report reads Good exactly when the trend's sum is below 50 per label. |
| Reports.AddToHistory | reports.js:205-212 | The new item is first and the older ones follow. At most five are kept. |
| Reports.LoadHistory | reports.js:214-218 | The saved list when present, else empty. |
| Reports.HistoryKeepsNewest | reports.js:205-212 | After any number of reports the list holds the five newest, newest first. |
| Export.CandidateCount | export.js:48-87 | 50 to 249 candidates. |
| Export.StatusOf | export.js:68-73 | Critical above 0.95, Warning above 0.8, Normal otherwise, each as an iff. |
| Export.Pool | export.js:59-64 | All nine events for "all", the category's three for fire or ops, and air's three otherwise. |
| Export.CategoryLabel | export.js:78 | "System" for "all"; otherwise the category in upper case: as long, equal to it up to case, and with no lower-case letter. |
| Export.Candidate | export.js:65-84 | A candidate keeps its index as id, has the status of its draw and the category's label, and an event from the pool with a value below 100. |
| Export.Candidates | export.js:65-84 | One candidate per draw set, in loop order. |
| Export.GenerateMockData | export.js:48-87 | Exactly the admitted candidates, newest first, with strictly decreasing ids. |
| Export.GeneratedRecords | export.js:48-87 | Every generated record passes the severity filter and carries the category's label, a pool event and a value below 100. |
| Export.AllSeveritiesKeepEverything | export.js:80-82 | The severity "all" keeps every candidate. |
| Export.SeverityCaseIgnored | export.js:80-82 | The severity filter ignores letter case. |
| Export.PreviewRows | export.js:24-36 | The preview is the first min(50, n) records. |
| Export.RowCountText | export.js:24-36 | The counter reads "a of b Recs". |
| Export.IntText | export.js:169-179 | A number's text reads back as itself and holds no separator. |
| Export.CsvRoundTrip | export.js:169-173 | With plain fields, the CSV splits at newlines into the header and one line per record. Each line splits at commas into that record's fields. |
| Export.XlsRoundTrip | export.js:179 | The spreadsheet text splits into the header and one line per record. Each line splits at tabs into time, event and value. An empty selection gives the header and a newline. |
| Export.FormatOf | export.js:164-191 | "csv" and "json" select their formats; anything else gives the spreadsheet. |
| Export.DownloadFile | export.js:164-191 | CSV and the spreadsheet download their text with their MIME type; JSON downloads the records. |
| Export.AddHistoryItem | export.js:203-217 | The new entry is first, with id "EXP-n" (n below 1000) and format and category in upper case. The older entries follow, capped at five. |
| Export.ClearHistory | export.js:252-256 | The history is empty. |
| Export.LoadHistory | export.js:219-223 | The saved list when present, else the current one. |
| Export.StartExport | export.js:114-162 | Refused exactly for an empty selection. Otherwise the download for the format and a history entry. |
| Export.ExportHistoryGrowth | export.js:144-162 | A refused export keeps the history. An accepted one adds one entry, up to five. |
| Export.StatusColour | export.js:106-110 | Red for Critical, amber for Warning, green otherwise, each as an iff. |
| Export.ColourFollowsDraw | export.js:68-73 | A record's colour follows the band of its status draw. |
| Realtime.OneDecimal | realtime.js:36-49 | One-decimal rounding: the tenths are within half of the exact value. |
| Realtime.Reading | realtime.js:36-59 | PM2.5 is at most 50.0 and warns exactly above 35.0. CO2 is 400 to 1199 and warns exactly above 1000. Temperature is 20.0 to 30.0. Smoke is at most 4, or 45 exactly on a spike, and critical exactly above 20. VOC is below 300. |
| Realtime.SensorId | realtime.js:32 | "SENS-" and three digits reading a number below 100. |
| Realtime.ReplaceFirst | realtime.js:63 | The length is kept; a text without the pattern is unchanged. |
| Realtime.StampOfIso | realtime.js:63 | An ISO time shows as its date, a space and its time of day. |
| Realtime.GeneratePacket | realtime.js:27-70 | The packet has the kind of its draw, that kind's unit and reading, and a generated id. Only smoke goes critical, and only PM2.5 and CO2 warn. |
| Realtime.StreamCycle | realtime.js:14-25 | Paused: nothing changes. Otherwise the packet is appended to the buffer, capped at 500, and prepended to the table, capped at 50. |
| Realtime.ToggleStream | realtime.js:111-125 | Only the switch flips. |
| Realtime.ToggleTwice | realtime.js:111-125 | Pausing and resuming gives back the same page. |
| Realtime.ClearTable | realtime.js:127-131 | The buffer and table are emptied; the switch is kept. |
| Realtime.CyclesKeepNewest | realtime.js:19-20 | While streaming, the buffer holds the 500 newest packets oldest first, and the table the 50 newest newest first. |
| Realtime.PausedCyclesChangeNothing | realtime.js:16 | While paused no number of cycles changes anything. |
| Realtime.ValueText | realtime.js:143-145 | A value's text has no separator, and a whole value reads back as itself. |
| Realtime.CsvLines | realtime.js:143-145 | One comma-joined line per packet. |
| Realtime.ExportCsv | realtime.js:133-155 | Refused exactly for an empty buffer. Otherwise the text starts with the data-URI prefix. |
| Realtime.ExportCsvRoundTrip | realtime.js:140-145 | After the prefix the text splits into the header, one line per packet and a final empty line. Each line splits back into its six fields. |
| Realtime.ClassOf | realtime.js:77-78 | Each status has its own class (iff). |
| Control.Merge | control.js:30-37 | Every saved key wins and every other key keeps its value. |
| Control.LoadConfig | control.js:30-37 | Nothing stored gives the defaults; a stored configuration is laid over the defaults key by key. |
| Control.SaveLoadRoundTrip | control.js:112-135 | A saved configuration loads back unchanged. An empty overlay changes nothing. |
| Control.Init | control.js:39-58 | After load the configuration is the loaded one (defaults overlaid with the stored keys). The slider rule holds, the mode buttons are enabled, the status is Normal and nothing is pending. The power switch shows the configuration and is enabled. |
| Control.TrackChange | control.js:107-110 | The counter grows by one; nothing else changes. |
| Control.ModeClick | control.js:83-91 | A disabled mode button changes nothing. Otherwise the mode is set, the change counted and the slider rule re-established. |
| Control.PowerChange | control.js:94-100 | As written: a disabled switch does nothing. Otherwise the stored power flips with the switch, the rest of the configuration, the status and the switch's disabled state stay, and the slider and mode buttons follow only the power, whatever the mode. |
| Control.PowerOnInAutoBreaksSliderRule | control.js:94-100 | As written, turning the power on in auto mode enables the slider that auto mode keeps disabled. |
| Control.PowerChangeFixed | control.js:94-100 | Corrected: the slider follows the rule of `updateUI` (auto mode or power off). The stored power flips with the switch; the rest of the configuration, the status and the switch's disabled state stay. |
| Control.PowerChangeFixedKeepsSliderRule | control.js:47 | The corrected handler keeps the slider rule in every mode. |
| Control.SaveConfiguration | control.js:112-135 | The sliders are taken into the configuration and the counter is reset; the rest of the page is unchanged. The stored keys load back as the new configuration. |
| Control.TrackManyCounts | control.js:107-110 | The counter counts exactly the tracked changes. |
| Control.EmergencyShutdown | control.js:159-174 | EMERGENCY, with the power switch unchecked and disabled. The configuration and the rest of the page are kept. |
| Control.Hold | control.js:145-157 | In EMERGENCY nothing happens. A hold of three seconds shuts down; a shorter one does nothing. |
| Control.ResetSystem | control.js:176-187 | Only a confirmed reset from EMERGENCY restores Normal with the switch checked and enabled; the rest of the page is kept. |
| Control.StepsKeepLockout | control.js:159-187 | Every step keeps the switch disabled exactly in EMERGENCY. |
| Control.EmergencyHoldsUntilReset | control.js:176-187 | In EMERGENCY power, hold and a refused reset change nothing. A confirmed reset ends it. |
| Control.ShutdownThenReset | control.js:145-187 | A shutdown followed by a confirmed reset leaves the switch checked and enabled and the status Normal. |
| Devices.AirUiFor | devices.js:52-71 | Power off disables both controls and clears OPERATIONAL. Power on enables the auto toggle, and the slider is disabled exactly in auto mode. |
| Devices.InitialPanel | devices.js:3-9 | The initial panel has the power off, auto on, fan 0, no alarm and nothing pending, with the controls drawn to match. |
| Devices.PowerChange | devices.js:30-34 | The power follows the checkbox and the controls are redrawn to match; the modal, the pending action, the lock banner and the extraction button are unchanged. |
| Devices.AutoChange | devices.js:37-41 | A disabled toggle changes nothing. Otherwise auto mode follows the checkbox and the controls are redrawn to match; nothing else changes. |
| Devices.FanInput | devices.js:44-47 | Only the fan speed changes; the rest of the page state is unchanged. |
| Devices.ConfirmAction | devices.js:89-101 | The modal opens. The two known actions become pending; any other keeps what was pending. Nothing else changes. |
| Devices.CloseModal | devices.js:103-106 | The modal closes and nothing is pending. Nothing else changes. |
| Devices.TriggerFireAlarm | devices.js:108-135 | As written: the alarm is on, the power is forced off and unchecked and the lock shows. The controls are not redrawn, and nothing else changes. |
| Devices.TriggerFireAlarmFixed | devices.js:129-135 | Corrected: the controls are redrawn with the power off. Otherwise it changes the same fields as the as-written alarm and nothing else. |
| Devices.EnableSmokeExtraction | devices.js:119-127 | The extraction shows active; the whole page state is otherwise unchanged. |
| Devices.ModalConfirm | devices.js:82-85 | The pending action runs, then the modal closes. The alarm runs as written and leaves the controls as drawn. Nothing pending changes nothing but the modal. Each branch changes exactly the fields of its action plus the modal and the pending action. |
| Devices.ModalConfirmFixed | devices.js:129-135 | Corrected: confirming the alarm redraws the controls powered off, and otherwise changes the same fields as the as-written confirm. Every other confirm is as written. |
| Devices.AlarmLeavesControlsEnabled | devices.js:129-135 | As written, an alarm confirmed in manual mode leaves the slider enabled and the status OPERATIONAL with the power off. |
| Devices.StepsKeepUiAgreement | devices.js:30-135 | With the corrected alarm (in `ModalConfirmFixed`) every step keeps the drawn controls in agreement with the state. |
| Devices.ConfirmRunsOnlyPending | devices.js:82-106 | An action runs only after it was asked for and confirmed. |
| Devices.Progress | devices.js:165-174 | The ring is in [0, 1], full exactly from three seconds, and proportional before that. |
| Devices.ProgressMonotone | devices.js:165-174 | The progress never falls while held. |
| Devices.EmergencyShutdown | devices.js:188-201 | Emergency mode is set; the model's panel state is otherwise unchanged. |
| Devices.LongPress | devices.js:178-181 | The shutdown fires only for a hold of three seconds. |

## Left out

- navbar-loader.js: it only fetches and injects shared markup; no logic of the pages depends on it.
- Chart drawing, toasts, sounds, icons, colours and CSS: presentation only. The state they draw is modelled.
- Timers (`setInterval`, `setTimeout`) and animation frames are explicit steps. Their timing, overlap and cancellation are not modelled.
- `Date`, `toLocaleTimeString` and `toLocaleDateString` are parameters. The scheduler's "HH:MM" text is modelled for a fixed zone offset.
- Floating-point arithmetic is exact real arithmetic. `toFixed(1)` is rounding half up to tenths; binary rounding of halves may differ.
- Export.DownloadFile: the JSON download holds the records themselves; `JSON.stringify` is not modelled.
- The export progress bar (ten timed ticks) is reduced to the final step.
- history.js's table sort and `exportData` stub, the alert modal and fire-panel visuals, and control.js's evacuation and test-alarm dialogs: they change only what is drawn.
- Control.SaveConfiguration: the source stores the slider values as strings; the model stores the numbers they read back as.
- Export.Pool: a category naming an `Object.prototype` key (such as "constructor") would select a non-list in the source; the model gives such names the air pool.
- Control.SaveConfiguration: the 800 ms save delay is one step, so a change tracked during the delay is not modelled.
- Control.TrackChange: a range input fires once per movement; the model counts each event as one change.
- Devices.FanInput: the slider is disabled by a CSS class only, so the source accepts input even while it is drawn disabled. The model follows the source and does not block it.
- Devices.EmergencyShutdown: the source replaces the whole page with the "SYSTEM HALTED" screen, so no panel handler can fire afterwards. The model keeps the panel live and does not block later events.
- Control.EmergencyShutdown: the shutdown leaves `config.masterPower` as it was, as in the source.
- Realtime.ExportCsv: the model returns the CSV text with its data-URI prefix; the `encodeURI` escaping of the link is not modelled, since the downloaded file holds the unescaped text.
- Console and action logs (`logAction`, `logConsole`) are not modelled; they only append text to the page.
- Alerts.SearchIgnoresCase: `Lower` and `Upper` map the ASCII letters only. JavaScript's full Unicode case mapping is not modelled, and for a term it changes in length (such as "ß" upper-casing to "SS") the source's search can differ between the term and its upper case.
- History.SearchRows: matches under the same ASCII case mapping, so rows and terms with non-ASCII letters that change case may match differently in the source.
- History.HourRow: the temperature is the constant 22.0 instead of the drawn 22 + 2u + 3·cycle, and PM2.5 is kept unrounded where the source stores it rounded to tenths. PM10, CO2, VOC and humidity are not generated, because no modelled operation reads them.
- Reports.AirStats: the "Purifier Runtime" (a random draw) and "Energy Saved" (the constant "12%") cards are not modelled, because they are not derived from the trend.
- Reports.FireStats: the "Avg Temp" ("24°C") and "System Health" ("98%") cards are constant texts and are not modelled.

## Findings

| source | as written | input that shows it | evidently intended | confidence | as-written member | corrected member |
|---|---|---|---|---|---|---|
| schedule.js:179 | The key recording that a minute was checked is only "HH:MM". | A daily task at 22:00 runs once and is never run again at 22:00 on later days of the same session. | A task runs every day at its time, once per day and minute. | not executed | Schedule.DailyTaskSkipsNextDay | Schedule.DatedRunsEveryDayOncePerMinute |
| history.js:212-219 | `updateDashboard` draws the table for the old page and resets the page afterwards. | From page 3, applying a range of five rows shows an empty table under "Page 1 of 1". | The new selection is shown from page 1. | not executed | History.UpdateDashboardShowsStalePage | History.FixedUpdateShowsFirstPage |
| history.js:411-418 | "next" is disabled only when the page equals the page count. | An empty selection: "Page 1 of 0" with "next" enabled. | "next" is disabled when no later page exists. | not executed | History.EmptySelectionNextEnabled | History.FixedControlsMatchChangePage |
| control.js:94-100 | The power handler enables the slider whenever the power is on, ignoring auto mode. | Load with masterPower false and mode auto, then switch the power on: the slider is enabled in auto mode. | The slider rule of `updateUI`: disabled in auto mode or with the power off. | not executed | Control.PowerOnInAutoBreaksSliderRule | Control.PowerChangeFixedKeepsSliderRule |
| devices.js:129-135 | The fire-alarm lockout turns the power off without redrawing the purifier controls. | Power on, auto off, confirm "activateAlarm": the slider stays enabled and the status OPERATIONAL with the power off. | The controls are redrawn as for power off. | not executed | Devices.AlarmLeavesControlsEnabled | Devices.ModalConfirmFixed |

=== FILE: alert.dfy ===
/** The alert and emergency monitoring page: a newest-first list of active
    alerts capped at 50, the global status derived from their severities, the
    acknowledge step that moves an alert to history, the fire panel, the
    category and history filters, the "time ago" texts and the severity counts. */
module Alerts {
  import opened Common
  import opened Bounded

  datatype Severity = Critical | Warning | Info
  datatype Category = Fire | Air
  datatype Status = Active | Acknowledged | Resolved

  /** One entry of the built-in alert catalogue. */
  datatype Template = Template(kind: string, msg: string, severity: Severity)

  datatype Alert = Alert(id: string, kind: string, msg: string, severity: Severity, timestamp: int,
                         category: Category, status: Status, ackTime: Option<int>, action: Option<string>)

  /** The page's state: active alerts (newest first), history (newest first), and
      whether the fire panel shows a detection. */
  datatype AlertPage = AlertPage(active: seq<Alert>, history: seq<Alert>, fireDetected: bool)

  datatype SystemStatus = Safe | WarningStatus | Emergency

  const MaxActive: nat := 50
  const HistoryRows: nat := 10

  const FireTemplates: seq<Template> :=
    [Template("Smoke Detected", "Smoke sensor triggered in Zone 1 (Kitchen)", Critical),
     Template("Flame Detected", "UV Flame sensor positive in Zone 4 (Server Room)", Critical),
     Template("Heat Warning", "Rapid temperature rise (+5°C/min) in East Wing", Warning),
     Template("Gas Leak", "Combustible gas limit exceeded (LPG)", Critical)]

  const AirTemplates: seq<Template> :=
    [Template("High PM2.5", "PM2.5 exceeded safe limits (150 µg/m³)", Warning),
     Template("VOC Spike", "Volatile Compounds high detected near production", Warning),
     Template("CO2 Warning", "Poor Ventilation: CO2 > 1000ppm", Info),
     Template("Filter Life", "HEPA Filter efficiency dropped below 80%", Info)]

  /** The catalogue, four templates per category. */
  function Templates(c: Category): (r: seq<Template>)
    ensures |r| == 4
  {
    match c
    case Fire => FireTemplates
    case Air => AirTemplates
  }

  /** The lower-case category name stored on an alert. */
  function CategoryName(c: Category): string
  {
    match c
    case Fire => "fire"
    case Air => "air"
  }

  predicate IsFireCritical(a: Alert)
  {
    a.category == Fire && a.severity == Critical
  }

  predicate HasSeverity(xs: seq<Alert>, s: Severity)
  {
    exists k :: 0 <= k < |xs| && xs[k].severity == s
  }

  predicate HasFireCritical(xs: seq<Alert>)
  {
    exists k :: 0 <= k < |xs| && IsFireCritical(xs[k])
  }

  /** `updateSystemStatus`: the worst severity among the active alerts decides. */
  function StatusOf(active: seq<Alert>): (r: SystemStatus)
    ensures r == Emergency <==> HasSeverity(active, Critical)
    ensures r == WarningStatus <==> !HasSeverity(active, Critical) && HasSeverity(active, Warning)
    ensures r == Safe <==> forall k :: 0 <= k < |active| ==> active[k].severity == Info
  {
    if HasSeverity(active, Critical) then Emergency
    else if HasSeverity(active, Warning) then WarningStatus
    else
      assert forall k :: 0 <= k < |active| ==> active[k].severity == Info by {
        forall k | 0 <= k < |active| ensures active[k].severity == Info {
          assert active[k].severity != Critical && active[k].severity != Warning;
        }
      }
      Safe
  }

  /** `triggerAlert(category, index)` at time `now`: the alert built from the template is
      put first with status active, the oldest is dropped past 50, and a critical fire
      alert lights the fire panel.  History is untouched. */
  function TriggerAlert(p: AlertPage, c: Category, index: nat, id: string, now: int): (r: AlertPage)
    requires index < 4
    ensures |r.active| > 0
    ensures var t := Templates(c)[index];
            r.active[0] == Alert(id, t.kind, t.msg, t.severity, now, c, Active, None, None)
    ensures |r.active| == if |p.active| >= MaxActive then |p.active| else |p.active| + 1
    ensures |p.active| <= MaxActive ==> |r.active| <= MaxActive
    ensures forall k :: 1 <= k < |r.active| ==> r.active[k] == p.active[k - 1]
    ensures r.history == p.history
    ensures r.fireDetected == (p.fireDetected || (c == Fire && Templates(c)[index].severity == Critical))
  {
    var t := Templates(c)[index];
    var a := Alert(id, t.kind, t.msg, t.severity, now, c, Active, None, None);
    var critical := a.severity == Critical && c == Fire;
    AlertPage(PrependCapped(p.active, a, MaxActive), p.history, p.fireDetected || critical)
  }

  /** A just-triggered critical alert always puts the page into EMERGENCY. */
  lemma CriticalTriggerMeansEmergency(p: AlertPage, c: Category, index: nat, id: string, now: int)
    requires index < 4 && Templates(c)[index].severity == Critical
    ensures StatusOf(TriggerAlert(p, c, index, id, now).active) == Emergency
  {
    var r := TriggerAlert(p, c, index, id, now);
    assert r.active[0].severity == Critical;
  }

  /** The background generator: a 30% chance per check, fire one time in five, and a
      template index drawn uniformly; draws lie in [0, 1). */
  function RandomTrigger(p: AlertPage, fireDraw: real, pickDraw: real, indexDraw: real,
                         id: string, now: int): (r: AlertPage)
    requires 0.0 <= indexDraw < 1.0
    ensures pickDraw <= 0.7 ==> r == p
    ensures pickDraw > 0.7 ==> |r.active| >= 1 && r.active[0].category == (if fireDraw > 0.8 then Fire else Air)
    ensures pickDraw > 0.7 ==>
              var c := if fireDraw > 0.8 then Fire else Air;
              var i := (indexDraw * 4.0).Floor;
              0 <= i < 4 && i as real <= indexDraw * 4.0
              && var t := Templates(c)[i];
                 r.active[0] == Alert(id, t.kind, t.msg, t.severity, now, c, Active, None, None)
    ensures pickDraw > 0.7 ==>
              |r.active| == (if |p.active| >= MaxActive then |p.active| else |p.active| + 1)
              && (forall k :: 1 <= k < |r.active| ==> r.active[k] == p.active[k - 1])
              && r.history == p.history
  {
    if pickDraw > 0.7 then
      var c := if fireDraw > 0.8 then Fire else Air;
      var index := (indexDraw * 4.0).Floor;
      TriggerAlert(p, c, index, id, now)
    else p
  }

  /** Every template of both categories can be drawn: the index draw k/4 picks template k. */
  lemma EveryTemplateDrawn(p: AlertPage, k: nat, id: string, now: int)
    requires k < 4
    ensures RandomTrigger(p, 0.9, 0.8, k as real / 4.0, id, now) == TriggerAlert(p, Fire, k, id, now)
    ensures RandomTrigger(p, 0.0, 0.8, k as real / 4.0, id, now) == TriggerAlert(p, Air, k, id, now)
  {
    assert (k as real / 4.0 * 4.0).Floor == k;
  }

  /** `acknowledgeAlert(id)` at time `now`.  An unknown id changes nothing.  Otherwise the
      first alert with that id leaves the active list, is marked acknowledged with its
      acknowledgement time and goes to the top of history; the fire panel is cleared when no
      critical fire alert is left active, and otherwise kept as it was. */
  function Acknowledge(p: AlertPage, id: string, now: int): (r: AlertPage)
    ensures (forall k :: 0 <= k < |p.active| ==> p.active[k].id != id) ==> r == p
    ensures var i := FindIndex(p.active, (a: Alert) => a.id == id);
            i >= 0 ==>
              r.active == p.active[..i] + p.active[i+1..]
              && r.history == [p.active[i].(status := Acknowledged, ackTime := Some(now))] + p.history
              && (r.fireDetected <==> p.fireDetected && HasFireCritical(r.active))
    ensures |r.active| + |r.history| == |p.active| + |p.history|
  {
    var i := FindIndex(p.active, (a: Alert) => a.id == id);
    if i == -1 then p
    else
      var acked := p.active[i].(status := Acknowledged, ackTime := Some(now));
      var rest := SpliceOne(p.active, i);
      AlertPage(rest, [acked] + p.history, if HasFireCritical(rest) then p.fireDetected else false)
  }

  // ---------------------------------------------------------------------------
  // Severity counts over active ++ history (`updateCharts`)

  function CountSeverity(xs: seq<Alert>, s: Severity): nat
  {
    CountWhere(xs, (a: Alert) => a.severity == s)
  }

  /** The three doughnut numbers: critical, warning and info alerts among active ++ history. */
  function SeverityCounts(p: AlertPage): (r: (nat, nat, nat))
    ensures r.0 + r.1 + r.2 == |p.active| + |p.history|
  {
    var all := p.active + p.history;
    CountsCoverAll(all);
    (CountSeverity(all, Critical), CountSeverity(all, Warning), CountSeverity(all, Info))
  }

  /** Every alert has exactly one of the three severities. */
  lemma {:induction false} CountsCoverAll(xs: seq<Alert>)
    ensures CountSeverity(xs, Critical) + CountSeverity(xs, Warning) + CountSeverity(xs, Info) == |xs|
  {
    if |xs| > 0 {
      CountsCoverAll(xs[1..]);
    }
  }

  /** Removing the element at `i` removes exactly its own contribution to a count. */
  lemma CountWithout(xs: seq<Alert>, i: nat, s: Severity)
    requires i < |xs|
    ensures CountSeverity(xs, s) == CountSeverity(xs[..i] + xs[i+1..], s) + (if xs[i].severity == s then 1 else 0)
  {
    var p := (a: Alert) => a.severity == s;
    assert xs == xs[..i] + ([xs[i]] + xs[i+1..]);
    CountWhereAppend(xs[..i], [xs[i]] + xs[i+1..], p);
    CountWhereAppend([xs[i]], xs[i+1..], p);
    CountWhereAppend(xs[..i], xs[i+1..], p);
    assert CountWhere([xs[i]], p) == if xs[i].severity == s then 1 else 0 by {
      assert [xs[i]][1..] == [];
    }
  }

  /** Acknowledging moves an alert without changing its severity, so the three counts the
      chart shows are unchanged. */
  lemma AcknowledgeKeepsCounts(p: AlertPage, id: string, now: int)
    ensures SeverityCounts(Acknowledge(p, id, now)) == SeverityCounts(p)
  {
    var i := FindIndex(p.active, (a: Alert) => a.id == id);
    if i >= 0 {
      var r := Acknowledge(p, id, now);
      var acked := p.active[i].(status := Acknowledged, ackTime := Some(now));
      var rest := p.active[..i] + p.active[i+1..];
      forall s: Severity
        ensures CountSeverity(r.active + r.history, s) == CountSeverity(p.active + p.history, s)
      {
        var q := (a: Alert) => a.severity == s;
        CountWhereAppend(rest, [acked] + p.history, q);
        CountWhereAppend([acked], p.history, q);
        CountWhereAppend(p.active, p.history, q);
        CountWithout(p.active, i, s);
        assert [acked][1..] == [];
        assert r.active + r.history == rest + ([acked] + p.history);
      }
    }
  }

  // ---------------------------------------------------------------------------
  // Filters

  /** The pill filter's test: "all" admits every alert, a category name its own alerts. */
  function InCategory(filter: string): Alert -> bool
  {
    (a: Alert) => filter == "all" || CategoryName(a.category) == filter
  }

  /** The active-list pill filter: "all" or a lower-case category name. */
  function ActiveFiltered(active: seq<Alert>, filter: string): (r: seq<Alert>)
    ensures filter == "all" ==> r == active
    ensures forall k :: 0 <= k < |r| ==> r[k] in active && (filter == "all" || CategoryName(r[k].category) == filter)
    ensures forall k :: 0 <= k < |active| && CategoryName(active[k].category) == filter ==> active[k] in r
    ensures Subseq(r, active)
    ensures |r| == CountWhere(active, InCategory(filter))
  {
    var keep := InCategory(filter);
    FilterIsSubseq(active, keep);
    FilterMembers(active, keep);
    if filter == "all" then
      FilterKeepsAll(active, keep);
      Filter(active, keep)
    else Filter(active, keep)
  }

  /** The severity drop-down: "warning" also admits critical alerts, "critical" only
      critical ones, "all" everything, any other value nothing. */
  predicate SeverityAdmits(filter: string, s: Severity)
  {
    filter == "all" || (filter == "critical" && s == Critical)
    || (filter == "warning" && (s == Warning || s == Critical))
  }

  /** The search box: the lower-cased term occurs in the lower-cased type or message. */
  predicate SearchMatches(a: Alert, term: string)
  {
    Contains(Lower(a.kind), Lower(term)) || Contains(Lower(a.msg), Lower(term))
  }

  /** The test a history row must pass to be listed. */
  function Listed(term: string, severity: string): Alert -> bool
  {
    (a: Alert) => SearchMatches(a, term) && SeverityAdmits(severity, a.severity)
  }

  /** The history table: the first ten matching alerts, in history order (all of them when
      fewer match). */
  function HistoryTable(history: seq<Alert>, term: string, severity: string): (r: seq<Alert>)
    ensures |r| <= HistoryRows
    ensures forall k :: 0 <= k < |r| ==>
              r[k] in history && SearchMatches(r[k], term) && SeverityAdmits(severity, r[k].severity)
    ensures |r| == Min(CountWhere(history, Listed(term, severity)), HistoryRows)
    ensures Subseq(r, history)
    ensures var matches := Filter(history, Listed(term, severity));
            |r| <= |matches| && r == matches[..|r|]
  {
    var matches := Filter(history, Listed(term, severity));
    FilterIsSubseq(history, Listed(term, severity));
    FilterMembers(history, Listed(term, severity));
    PrefixSubseq(matches, history, Min(|matches|, HistoryRows));
    Slice(matches, 0, HistoryRows)
  }

  /** An empty search with severity "all" shows the first ten history entries as they are. */
  lemma {:induction false} UnfilteredHistoryTable(history: seq<Alert>)
    ensures HistoryTable(history, "", "all") == history[..Min(|history|, HistoryRows)]
  {
    var q := Listed("", "all");
    forall k | 0 <= k < |history| ensures q(history[k]) {
      EmptyNeedleAlwaysContained(Lower(history[k].kind));
    }
    FilterKeepsAll(history, q);
  }

  /** The search ignores letter case: upper-casing the term changes no row. */
  lemma SearchIgnoresCase(history: seq<Alert>, term: string, severity: string)
    ensures HistoryTable(history, Upper(term), severity) == HistoryTable(history, term, severity)
  {
    LowerOfUpper(term);
    FilterSameTest(history, Listed(Upper(term), severity), Listed(term, severity));
  }

  /** A stricter severity choice never admits more: critical-only rows all pass "warning",
      which all pass "all". */
  lemma SeverityFiltersNest(history: seq<Alert>, term: string)
    ensures var c := HistoryTable(history, term, "critical");
            var w := HistoryTable(history, term, "warning");
            (forall k :: 0 <= k < |c| ==> SeverityAdmits("warning", c[k].severity))
            && (forall k :: 0 <= k < |w| ==> SeverityAdmits("all", w[k].severity))
            && (forall k :: 0 <= k < |w| ==> w[k].severity != Info)
  {
  }

  /** The source of a history row: the recorded automatic action, or "Manual Reset". */
  function ActionText(a: Alert): (r: string)
    ensures a.action.Some? && a.action.value != "" ==> r == a.action.value
    ensures a.action.None? ==> r == "Manual Reset"
  {
    match a.action
    case Some(t) => if t == "" then "Manual Reset" else t
    case None => "Manual Reset"
  }

  // ---------------------------------------------------------------------------
  // Relative times

  /** `updateTimes`: the text for an alert `diff` whole seconds old. */
  function TimeAgo(diff: int): (r: string)
  {
    if diff < 60 then "Just now"
    else if diff < 3600 then NatToString(diff / 60) + "m ago"
    else NatToString(diff / 3600) + "h ago"
  }

  /** The number in a "time ago" text reads back as the elapsed whole minutes (1 to 59) or
      whole hours, and "Just now" is shown exactly for the first minute. */
  lemma {:induction false} TimeAgoReadsBack(diff: int)
    ensures TimeAgo(diff) == "Just now" <==> diff < 60
    ensures 60 <= diff < 3600 ==>
              var r := TimeAgo(diff);
              var n := r[..|r| - 5];
              r[|r| - 5..] == "m ago" && (forall k :: 0 <= k < |n| ==> IsDigit(n[k]))
              && 1 <= ParseNat(n) <= 59 && ParseNat(n) * 60 <= diff < (ParseNat(n) + 1) * 60
    ensures diff >= 3600 ==>
              var r := TimeAgo(diff);
              var n := r[..|r| - 5];
              r[|r| - 5..] == "h ago" && (forall k :: 0 <= k < |n| ==> IsDigit(n[k]))
              && 1 <= ParseNat(n) && ParseNat(n) * 3600 <= diff < (ParseNat(n) + 1) * 3600
  {
    if 60 <= diff < 3600 {
      var r := TimeAgo(diff);
      assert r[..|r| - 5] == NatToString(diff / 60);
      ParseNatToString(diff / 60);
    } else if diff >= 3600 {
      var r := TimeAgo(diff);
      assert r[..|r| - 5] == NatToString(diff / 3600);
      ParseNatToString(diff / 3600);
    } else if diff >= 60 {
    } else {
      assert TimeAgo(diff) == "Just now";
    }
    assert diff >= 60 ==> TimeAgo(diff)[|TimeAgo(diff)| - 5] == 'm' || TimeAgo(diff)[|TimeAgo(diff)| - 5] == 'h';
  }

  /** The text drawn with a card before the first refresh has only two buckets, so an
      alert over an hour old still reads in minutes: the number before "m ago" reads back as
      the whole minutes elapsed, however many there are. */
  function CardTimeText(diff: int): (r: string)
    ensures diff < 60 <==> r == "Just now"
    ensures 60 <= diff < 3600 ==> r == TimeAgo(diff)
    ensures diff >= 60 ==>
              |r| > 5 && r[|r| - 5..] == "m ago"
              && var n := r[..|r| - 5];
                 (forall k :: 0 <= k < |n| ==> IsDigit(n[k]))
                 && 1 <= ParseNat(n) && ParseNat(n) * 60 <= diff < (ParseNat(n) + 1) * 60
  {
    if diff < 60 then "Just now"
    else
      var m := diff / 60;
      var r := NatToString(m) + "m ago";
      assert IsDigit(r[0]);
      assert r[..|r| - 5] == NatToString(m);
      ParseNatToString(m);
      r
  }

  /** Two hours on a card still read in minutes. */
  lemma CardTwoHoursInMinutes()
    ensures CardTimeText(7200) == "120m ago"
  {
  }
}

=== FILE: analytics.dfy ===
/** The analytics page: five parallel sliding series that shift together,
    the fire-risk gauge, the smoke/PM2.5 correlation points, the KPI risk and
    the short list of smoke alerts. */
module Analytics {
  import opened Common
  import opened Bounded

  const MaxDataPoints: nat := 20
  const MaxCorrelation: nat := 30
  const MaxAlerts: nat := 5

  /** One sample of the simulated sensors. */
  datatype Reading = Reading(pm25: real, co2: real, smoke: real, temp: real, humidity: real)

  datatype Page = Page(timestamps: seq<string>, pm25: seq<real>, co2: seq<real>, temp: seq<real>,
                       humidity: seq<real>, correlation: seq<(real, real)>, alerts: seq<string>)

  const Empty: Page := Page([], [], [], [], [], [], [])

  /** The smoke sample from its two draws in [0, 1): a base up to 10 ppm plus, one time in
      ten, a 30 ppm spike. */
  function SmokeReading(base: real, spike: real): (r: real)
    requires 0.0 <= base < 1.0
    ensures 0.0 <= r < 40.0
    ensures r > 20.0 ==> spike > 0.9
    ensures spike <= 0.9 ==> r < 10.0
  {
    var v := base * 10.0 + (if spike > 0.9 then 30.0 else 0.0);
    if v >= 0.0 then v else 0.0
  }

  /** The gauge value: the risk formula clamped to [0, 100]. */
  function GaugeRisk(smoke: real, temp: real): (r: real)
    ensures 0.0 <= r <= 100.0
    ensures 0.0 <= smoke * 1.5 + (temp - 30.0) * 5.0 <= 100.0 ==> r == smoke * 1.5 + (temp - 30.0) * 5.0
  {
    var x := smoke * 1.5 + (temp - 30.0) * 5.0;
    var lo := if x >= 0.0 then x else 0.0;
    if lo <= 100.0 then lo else 100.0
  }

  /** The two doughnut slices and whether the first is drawn red. */
  function Gauge(smoke: real, temp: real): (r: (real, real, bool))
    ensures r.0 + r.1 == 100.0
    ensures 0.0 <= r.0 <= 100.0 && 0.0 <= r.1 <= 100.0
    ensures r.2 <==> r.0 > 50.0
  {
    var risk := GaugeRisk(smoke, temp);
    (risk, 100.0 - risk, risk > 50.0)
  }

  /** The KPI tile: `Math.max(0, Math.round(x))`. */
  function KpiRisk(smoke: real, temp: real): (r: int)
    ensures r >= 0
    ensures var x := smoke * 1.5 + (temp - 30.0) * 5.0;
            x >= 0.0 ==> r as real - 0.5 <= x < r as real + 0.5
    ensures smoke * 1.5 + (temp - 30.0) * 5.0 < -0.5 ==> r == 0
  {
    var x := smoke * 1.5 + (temp - 30.0) * 5.0;
    var rounded := (x + 0.5).Floor;
    if rounded >= 0 then rounded else 0
  }

  /** One simulation step with clock text `stamp` and alert draw `alertDraw`: every series
      drops its oldest entry first when it already holds more than 20, then takes the new
      sample; the correlation chart does the same past 30; a smoke reading above 20 raises an
      alert one time in five, the list keeping the five newest. */
  function Step(p: Page, stamp: string, x: Reading, alertDraw: real): (r: Page)
    ensures r.timestamps == ShiftThenPush(p.timestamps, stamp, MaxDataPoints)
    ensures r.pm25 == ShiftThenPush(p.pm25, x.pm25, MaxDataPoints)
    ensures r.co2 == ShiftThenPush(p.co2, x.co2, MaxDataPoints)
    ensures r.temp == ShiftThenPush(p.temp, x.temp, MaxDataPoints)
    ensures r.humidity == ShiftThenPush(p.humidity, x.humidity, MaxDataPoints)
    ensures |r.correlation| > 0 && r.correlation[|r.correlation| - 1] == (x.smoke, x.pm25 + x.smoke * 0.5)
    ensures |p.correlation| <= MaxCorrelation + 1 ==> |r.correlation| <= MaxCorrelation + 1
    ensures x.smoke > 20.0 && alertDraw > 0.8 ==> r.alerts == PrependCapped(p.alerts, "Smoke Detected", MaxAlerts)
    ensures !(x.smoke > 20.0 && alertDraw > 0.8) ==> r.alerts == p.alerts
  {
    Page(ShiftThenPush(p.timestamps, stamp, MaxDataPoints),
         ShiftThenPush(p.pm25, x.pm25, MaxDataPoints),
         ShiftThenPush(p.co2, x.co2, MaxDataPoints),
         ShiftThenPush(p.temp, x.temp, MaxDataPoints),
         ShiftThenPush(p.humidity, x.humidity, MaxDataPoints),
         ShiftThenPush(p.correlation, (x.smoke, x.pm25 + x.smoke * 0.5), MaxCorrelation),
         if x.smoke > 20.0 && alertDraw > 0.8 then PrependCapped(p.alerts, "Smoke Detected", MaxAlerts) else p.alerts)
  }

  /** The five series have one common length, at most 21; at most 31 correlation points and
      at most five alerts. */
  predicate Inv(p: Page)
  {
    |p.pm25| == |p.timestamps| && |p.co2| == |p.timestamps| && |p.temp| == |p.timestamps|
    && |p.humidity| == |p.timestamps| && |p.timestamps| <= MaxDataPoints + 1
    && |p.correlation| <= MaxCorrelation + 1 && |p.alerts| <= MaxAlerts
  }

  /** The series shift on one shared test, so a step keeps them the same length and within
      their caps. */
  lemma StepKeepsInv(p: Page, stamp: string, x: Reading, alertDraw: real)
    requires Inv(p)
    ensures Inv(Step(p, stamp, x, alertDraw))
  {
  }

  /** A run of steps. */
  function Run(p: Page, labels: seq<string>, xs: seq<Reading>, draws: seq<real>): Page
    requires |labels| == |xs| == |draws|
    decreases |xs|
  {
    if |xs| == 0 then p
    else Run(Step(p, labels[0], xs[0], draws[0]), labels[1..], xs[1..], draws[1..])
  }

  /** After `n` steps the series hold `min(m + n, 21)` samples (`m` held before, so `min(n, 21)`
      from an empty page), still the same length, and the last sample is the newest. */
  lemma {:induction false} RunLength(p: Page, labels: seq<string>, xs: seq<Reading>, draws: seq<real>)
    requires |labels| == |xs| == |draws|
    requires Inv(p)
    ensures var r := Run(p, labels, xs, draws);
            Inv(r) && |r.timestamps| == Min(|p.timestamps| + |xs|, MaxDataPoints + 1)
            && (|xs| > 0 ==> r.pm25[|r.pm25| - 1] == xs[|xs| - 1].pm25)
    decreases |xs|
  {
    if |xs| > 0 {
      var q := Step(p, labels[0], xs[0], draws[0]);
      StepKeepsInv(p, labels[0], xs[0], draws[0]);
      StepGrows(p, labels[0], xs[0], draws[0]);
      assert Run(p, labels, xs, draws) == Run(q, labels[1..], xs[1..], draws[1..]);
      RunLength(q, labels[1..], xs[1..], draws[1..]);
      if |xs| > 1 {
        LastOfTail(xs);
      }
    }
  }

  lemma LastOfTail<T>(xs: seq<T>)
    requires |xs| > 1
    ensures xs[1..][|xs| - 2] == xs[|xs| - 1]
  {
  }

  /** One step adds a sample until the series hold 21, and its pm2.5 sample ends the series. */
  lemma StepGrows(p: Page, stamp: string, x: Reading, alertDraw: real)
    requires Inv(p)
    ensures var q := Step(p, stamp, x, alertDraw);
            |q.timestamps| == Min(|p.timestamps| + 1, MaxDataPoints + 1)
            && q.pm25[|q.pm25| - 1] == x.pm25
  {
  }

  /** An alert can only appear on a step whose smoke sample came with a spike draw. */
  lemma AlertNeedsSpike(p: Page, stamp: string, base: real, spike: real, x: Reading, alertDraw: real)
    requires 0.0 <= base < 1.0 && x.smoke == SmokeReading(base, spike)
    requires Step(p, stamp, x, alertDraw).alerts != p.alerts
    ensures spike > 0.9 && alertDraw > 0.8
  {
  }
}

=== FILE: automation.dfy ===
/** The smart-rules engine of the automation page: condition / operator /
    threshold / action rules, four named presets, validated rule creation,
    deletion by position, and level-triggered evaluation against the simulated
    sensor readings. */
module Automation {
  import opened Common

  /** The sensor a rule reads.  `Time` holds an "HH:MM" text, never a number. */
  datatype Condition = Aqi | Temp | Smoke | Gas | Time

  /** The comparison chosen in the rule form; `OtherOp` stands for any other text. */
  datatype Operator = Gt | Lt | Eq | OtherOp

  /** A stored threshold: the sentinel 'detected', a number, or a clock text such as "22:00". */
  datatype Threshold = Detected | Number(value: real) | ClockText(text: string)

  datatype Action = PurifierOn | PurifierMax | PurifierOff | PurifierSilent | AlarmOn

  datatype Rule = Rule(id: string, cond: Condition, op: Operator, val: Threshold, action: Action)

  /** The live sensor snapshot. */
  datatype Sensors = Sensors(aqi: real, temp: real, smoke: bool, gas: bool, time: string)

  const InitialSensors: Sensors := Sensors(45.0, 24.0, false, false, "12:00")

  /** One call of the action handler: the rule's action and the rule's position. */
  datatype Firing = Firing(action: Action, index: nat)

  datatype RuleError = MissingThreshold | UnknownMode

  // ---------------------------------------------------------------------------
  // Presets

  datatype Mode = SmartAir | FireSafety | NightMode | EnergySave

  function ModeName(m: Mode): string
  {
    match m
    case SmartAir => "smart-air"
    case FireSafety => "fire-safety"
    case NightMode => "night-mode"
    case EnergySave => "energy-save"
  }

  /** Looking a preset up by its name; unknown names have no preset. */
  function ModeByName(name: string): (r: Option<Mode>)
    ensures r.Some? ==> ModeName(r.value) == name
    ensures r.None? ==> forall m: Mode :: ModeName(m) != name
  {
    if name == "smart-air" then Some(SmartAir)
    else if name == "fire-safety" then Some(FireSafety)
    else if name == "night-mode" then Some(NightMode)
    else if name == "energy-save" then Some(EnergySave)
    else None
  }

  /** The preset rule lists. */
  function ModeRules(m: Mode): seq<Rule>
  {
    match m
    case SmartAir =>
      [Rule("mode-1", Aqi, Gt, Number(100.0), PurifierOn),
       Rule("mode-2", Aqi, Gt, Number(200.0), PurifierMax)]
    case FireSafety =>
      [Rule("mode-3", Smoke, Eq, Detected, AlarmOn),
       Rule("mode-4", Temp, Gt, Number(50.0), AlarmOn)]
    case NightMode =>
      [Rule("mode-5", Time, Gt, ClockText("22:00"), PurifierSilent)]
    case EnergySave =>
      [Rule("mode-6", Aqi, Lt, Number(50.0), PurifierOff)]
  }

  // ---------------------------------------------------------------------------
  // Evaluation

  predicate IsBooleanCondition(c: Condition)
  {
    c == Smoke || c == Gas
  }

  /** The reading a numeric comparison sees; the time text compares as NaN, so it has none. */
  function NumericReading(s: Sensors, c: Condition): Option<real>
  {
    match c
    case Aqi => Some(s.aqi)
    case Temp => Some(s.temp)
    case _ => None
  }

  /** `parseFloat` of a stored threshold, where it matters: the sentinel is NaN.  A clock
      text is only ever compared with the time reading, which is NaN itself. */
  function NumericThreshold(t: Threshold): Option<real>
  {
    match t
    case Number(v) => Some(v)
    case _ => None
  }

  /** The numeric comparison an operator stands for; any other operator is never true. */
  predicate Compare(op: Operator, v: real, t: real)
  {
    (op == Gt && v > t) || (op == Lt && v < t) || (op == Eq && v == t)
  }

  /** Whether one rule holds against the snapshot. */
  predicate Triggered(r: Rule, s: Sensors)
  {
    if IsBooleanCondition(r.cond) then
      r.val == Detected && (if r.cond == Smoke then s.smoke else s.gas)
    else
      var v := NumericReading(s, r.cond);
      var t := NumericThreshold(r.val);
      v.Some? && t.Some? && Compare(r.op, v.value, t.value)
  }

  /** The rule positions named by a list of handler calls. */
  function FiredIndices(r: seq<Firing>): set<nat>
  {
    set k | 0 <= k < |r| :: r[k].index
  }

  /** Positions strictly increase along the list: rule order, and no rule twice. */
  predicate InRuleOrder(r: seq<Firing>)
  {
    forall k, l :: 0 <= k < l < |r| ==> r[k].index < r[l].index
  }

  lemma FiredIndicesPrepend(f: Firing, rest: seq<Firing>)
    ensures FiredIndices([f] + rest) == {f.index} + FiredIndices(rest)
  {
    var r := [f] + rest;
    forall x | x in FiredIndices(rest) ensures x in FiredIndices(r) {
      var k :| 0 <= k < |rest| && rest[k].index == x;
      assert r[k + 1] == rest[k];
    }
    forall x | x in FiredIndices(r) ensures x == f.index || x in FiredIndices(rest) {
      var k :| 0 <= k < |r| && r[k].index == x;
      if k > 0 { assert rest[k - 1] == r[k]; }
    }
    assert r[0] == f;
  }

  lemma PrependInRuleOrder(f: Firing, rest: seq<Firing>)
    requires InRuleOrder(rest)
    requires forall k :: 0 <= k < |rest| ==> f.index < rest[k].index
    ensures InRuleOrder([f] + rest)
  {
    var r := [f] + rest;
    forall k, l | 0 <= k < l < |r| ensures r[k].index < r[l].index {
      assert r[l] == rest[l - 1];
      if k > 0 { assert r[k] == rest[k - 1]; }
    }
  }

  /** The action-handler calls made for rules `i..` in one evaluation pass. */
  function EvaluateFrom(rules: seq<Rule>, s: Sensors, i: nat): (r: seq<Firing>)
    requires i <= |rules|
    ensures forall k :: 0 <= k < |r| ==>
              i <= r[k].index < |rules| && Triggered(rules[r[k].index], s)
              && r[k].action == rules[r[k].index].action
    ensures InRuleOrder(r)
    ensures forall j :: i <= j < |rules| && Triggered(rules[j], s) ==> j in FiredIndices(r)
    decreases |rules| - i
  {
    if i == |rules| then []
    else
      var rest := EvaluateFrom(rules, s, i + 1);
      if Triggered(rules[i], s) then
        var f := Firing(rules[i].action, i);
        FiredIndicesPrepend(f, rest);
        PrependInRuleOrder(f, rest);
        [f] + rest
      else rest
  }

  /** `evaluateRules`: exactly one handler call per satisfied rule and none for the
      others, in rule order, each carrying that rule's position and action. */
  function Evaluate(rules: seq<Rule>, s: Sensors): (r: seq<Firing>)
    ensures forall k :: 0 <= k < |r| ==>
              r[k].index < |rules| && Triggered(rules[r[k].index], s)
              && r[k].action == rules[r[k].index].action
    ensures InRuleOrder(r)
    ensures forall j :: 0 <= j < |rules| ==> (j in FiredIndices(r) <==> Triggered(rules[j], s))
  {
    EvaluateFrom(rules, s, 0)
  }

  /** A smoke or gas rule ignores its operator: it holds exactly when its threshold
      is the sentinel and the sensor reads true. */
  lemma BooleanRuleIgnoresOperator(r: Rule, s: Sensors, o: Operator)
    requires IsBooleanCondition(r.cond)
    ensures Triggered(r, s) == Triggered(r.(op := o), s)
    ensures Triggered(r, s) <==> r.val == Detected && (if r.cond == Smoke then s.smoke else s.gas)
  {
  }

  /** A numeric rule holds only for `>`, `<` and `=`; any other operator never fires. */
  lemma NumericRuleOperators(r: Rule, s: Sensors)
    requires r.cond == Aqi || r.cond == Temp
    requires r.val.Number?
    ensures var v := if r.cond == Aqi then s.aqi else s.temp;
            Triggered(r, s) <==>
              (r.op == Gt && v > r.val.value) || (r.op == Lt && v < r.val.value)
              || (r.op == Eq && v == r.val.value)
  {
  }

  /** The fire-safety preset sounds the alarm exactly when smoke is detected or the
      temperature exceeds 50, and it never does anything else. */
  lemma {:induction false} FireSafetyAlarmIff(s: Sensors)
    ensures var f := Evaluate(ModeRules(FireSafety), s);
            (|f| > 0 <==> s.smoke || s.temp > 50.0)
            && forall k :: 0 <= k < |f| ==> f[k].action == AlarmOn
  {
    var rules := ModeRules(FireSafety);
    var f1 := if s.temp > 50.0 then [Firing(AlarmOn, 1)] else [];
    var f0 := if s.smoke then [Firing(AlarmOn, 0)] else [];
    assert Triggered(rules[0], s) <==> s.smoke;
    assert Triggered(rules[1], s) <==> s.temp > 50.0;
    assert EvaluateFrom(rules, s, 2) == [];
    assert EvaluateFrom(rules, s, 1) == f1;
    assert Evaluate(rules, s) == f0 + f1;
  }

  /** The night-mode preset compares the clock text numerically and so never fires. */
  lemma NightModeNeverFires(s: Sensors)
    ensures Evaluate(ModeRules(NightMode), s) == []
  {
    var rules := ModeRules(NightMode);
    assert !Triggered(rules[0], s);
    assert EvaluateFrom(rules, s, 1) == [];
  }

  // ---------------------------------------------------------------------------
  // Rule management

  /** `loadRules`: the saved list when there is one, otherwise the smart-air preset. */
  function LoadRules(saved: Option<seq<Rule>>): (r: seq<Rule>)
    ensures saved.Some? ==> r == saved.value
    ensures saved.None? ==> |r| == 2 && r[0].cond == Aqi && r[1].cond == Aqi
                            && r[0].val == Number(100.0) && r[1].val == Number(200.0)
                            && r[0].action == PurifierOn && r[1].action == PurifierMax
                            && r[0].op == Gt && r[1].op == Gt
  {
    match saved
    case Some(rs) => rs
    case None => ModeRules(SmartAir)
  }

  /** `resetRules`: after confirmation the stored list is dropped and the default reloaded. */
  function ResetRules(rules: seq<Rule>, confirmed: bool): (r: seq<Rule>)
    ensures !confirmed ==> r == rules
    ensures confirmed ==> r == LoadRules(None)
  {
    if confirmed then LoadRules(None) else rules
  }

  /** `activateMode`: the whole list is replaced by a copy of the named preset; a name
      with no preset fails (the source throws on spreading an undefined preset). */
  function ActivateMode(name: string): (r: Result<seq<Rule>, RuleError>)
    ensures r.Err? <==> forall m: Mode :: ModeName(m) != name
    ensures r.Ok? ==> exists m: Mode :: ModeName(m) == name && r.value == ModeRules(m)
  {
    match ModeByName(name)
    case None => Err(UnknownMode)
    case Some(m) => Ok(ModeRules(m))
  }

  /** `addNewRule`: smoke and gas rules get the 'detected' threshold whatever was typed
      and keep the chosen operator; any other condition needs a threshold (an empty
      field is rejected, zero is accepted).  On success exactly one rule is appended. */
  function AddNewRule(rules: seq<Rule>, id: string, cond: Condition, op: Operator,
                      threshold: Option<real>, action: Action): (r: Result<seq<Rule>, RuleError>)
    ensures r.Err? <==> !IsBooleanCondition(cond) && threshold.None?
    ensures r.Err? ==> r.error == MissingThreshold
    ensures r.Ok? ==>
              |r.value| == |rules| + 1 && r.value[..|rules|] == rules
              && var added := r.value[|rules|];
                 added.id == id && added.cond == cond && added.op == op && added.action == action
                 && (IsBooleanCondition(cond) ==> added.val == Detected)
                 && (!IsBooleanCondition(cond) ==> added.val == Number(threshold.value))
  {
    if IsBooleanCondition(cond) then Ok(rules + [Rule(id, cond, op, Detected, action)])
    else match threshold
      case None => Err(MissingThreshold)
      case Some(v) => Ok(rules + [Rule(id, cond, op, Number(v), action)])
  }

  /** `deleteRule(index)`, i.e. `rules.splice(index, 1)`: an index in range removes exactly
      that rule and keeps the rest in order; an index past the end changes nothing. */
  function DeleteRule(rules: seq<Rule>, index: int): (r: seq<Rule>)
    ensures 0 <= index < |rules| ==>
              |r| == |rules| - 1
              && (forall k :: 0 <= k < index ==> r[k] == rules[k])
              && (forall k :: index <= k < |r| ==> r[k] == rules[k + 1])
    ensures index >= |rules| ==> r == rules
  {
    SpliceOne(rules, index)
  }

  // ---------------------------------------------------------------------------
  // The simulation loop

  /** Page state: rules, sensors, the master enable switch and the lock flag. */
  datatype Page = Page(rules: seq<Rule>, sensors: Sensors, enabled: bool, locked: bool)

  /** One two-second tick.  `aqiDraw` and `tempDraw` are the two `Math.random()` values.
      The tick does nothing while disabled or locked; otherwise, unless smoke is set, it
      jitters AQI (floored at 0) and temperature (kept in [15, 40]) and then evaluates. */
  function SimTick(p: Page, aqiDraw: real, tempDraw: real): (r: (Page, seq<Firing>))
    ensures !p.enabled || p.locked ==> r.0 == p && r.1 == []
    ensures r.0.rules == p.rules && r.0.enabled == p.enabled && r.0.locked == p.locked
    ensures p.sensors.smoke ==> r.0.sensors == p.sensors
    ensures p.enabled && !p.locked && !p.sensors.smoke ==>
              r.0.sensors.aqi >= 0.0 && 15.0 <= r.0.sensors.temp <= 40.0
              && r.0.sensors.smoke == p.sensors.smoke && r.0.sensors.gas == p.sensors.gas
    ensures p.enabled && !p.locked ==> r.1 == Evaluate(p.rules, r.0.sensors)
    ensures r.0 == p.(sensors := p.sensors.(aqi := r.0.sensors.aqi, temp := r.0.sensors.temp))
  {
    if !p.enabled || p.locked then (p, [])
    else
      var s := p.sensors;
      var s' := if !s.smoke then
                  s.(aqi := Max0(s.aqi + (aqiDraw * 10.0 - 5.0)),
                     temp := RealMax(15.0, RealMin(40.0, s.temp + (tempDraw * 2.0 - 1.0))))
                else s;
      (p.(sensors := s'), Evaluate(p.rules, s'))
  }

  function Max0(x: real): real { if x >= 0.0 then x else 0.0 }
  function RealMax(a: real, b: real): real { if a >= b then a else b }
  function RealMin(a: real, b: real): real { if a <= b then a else b }

  /** `simulateEvent`: inject a reading and evaluate at once, whether or not automation
      is enabled.  Unknown event names leave the sensors alone. */
  function SimulateEvent(p: Page, kind: string): (r: (Page, seq<Firing>))
    ensures r.0.rules == p.rules
    ensures kind == "high_aqi" ==> r.0 == p.(sensors := p.sensors.(aqi := 250.0))
    ensures kind == "fire" ==> r.0 == p.(sensors := p.sensors.(smoke := true, temp := 65.0))
    ensures kind == "normal" ==> r.0 == p.(sensors := p.sensors.(aqi := 45.0, temp := 24.0, smoke := false))
    ensures kind != "high_aqi" && kind != "fire" && kind != "normal" ==> r.0 == p
    ensures r.1 == Evaluate(p.rules, r.0.sensors)
  {
    var s := p.sensors;
    var s' := if kind == "high_aqi" then s.(aqi := 250.0)
              else if kind == "fire" then s.(smoke := true, temp := 65.0)
              else if kind == "normal" then s.(aqi := 45.0, temp := 24.0, smoke := false)
              else s;
    (p.(sensors := s'), Evaluate(p.rules, s'))
  }

  /** Injecting a fire under the fire-safety preset calls the alarm for both rules, in order. */
  lemma {:induction false} FireEventUnderFireSafety(p: Page)
    requires p.rules == ModeRules(FireSafety)
    ensures SimulateEvent(p, "fire").1 == [Firing(AlarmOn, 0), Firing(AlarmOn, 1)]
  {
    var s := SimulateEvent(p, "fire").0.sensors;
    var rules := p.rules;
    assert Triggered(rules[0], s) && Triggered(rules[1], s);
    assert EvaluateFrom(rules, s, 2) == [];
    assert EvaluateFrom(rules, s, 1) == [Firing(AlarmOn, 1)];
  }
}

=== FILE: bounded.dfy ===
/** Bounded histories shared by the pages: newest-first lists capped by a
    pop after `unshift`, oldest-first buffers capped by a `shift` after `push`,
    and fixed-length sliding windows. */
module Bounded {

  /** `xs.unshift(x); if (xs.length > cap) xs.pop();` */
  function PrependCapped<T>(xs: seq<T>, x: T, cap: nat): (r: seq<T>)
    ensures |r| == if |xs| + 1 > cap then |xs| else |xs| + 1
    ensures |xs| <= cap ==> |r| <= cap
    ensures |r| > 0 ==> r[0] == x
    ensures forall k :: 1 <= k < |r| ==> r[k] == xs[k - 1]
  {
    var ys := [x] + xs;
    if |ys| > cap then ys[..|ys| - 1] else ys
  }

  /** Arrivals in order, each prepended with the cap applied. */
  function PrependAll<T>(xs: seq<T>, arrivals: seq<T>, cap: nat): seq<T>
    decreases |arrivals|
  {
    if |arrivals| == 0 then xs
    else PrependAll(PrependCapped(xs, arrivals[0], cap), arrivals[1..], cap)
  }

  function Reverse<T>(xs: seq<T>): (r: seq<T>)
    ensures |r| == |xs|
    ensures forall k :: 0 <= k < |xs| ==> r[k] == xs[|xs| - 1 - k]
  {
    if |xs| == 0 then [] else Reverse(xs[1..]) + [xs[0]]
  }

  /** A sequence listing `f(0), f(1), ...` reversed lists them from the last index down. */
  lemma ReverseTabulated<T>(xs: seq<T>, f: nat -> T)
    requires forall k :: 0 <= k < |xs| ==> xs[k] == f(k)
    ensures forall k :: 0 <= k < |xs| ==> Reverse(xs)[k] == f(|xs| - 1 - k)
  {
  }

  lemma PrefixOfAppendedPrefix<T>(a: seq<T>, b: seq<T>, j: nat, m: nat)
    requires j <= |b| && m <= |a| + j
    ensures (a + b[..j])[..m] == (a + b)[..m]
  {
  }

  /** A newest-first capped list holds exactly the `cap` most recent items,
      newest first: after a run of arrivals it is the prefix of the reversed
      arrivals followed by the older contents. */
  lemma {:induction false} PrependAllKeepsNewest<T>(xs: seq<T>, arrivals: seq<T>, cap: nat)
    requires |xs| <= cap
    ensures var all := Reverse(arrivals) + xs;
            PrependAll(xs, arrivals, cap) == all[..if |all| <= cap then |all| else cap]
    decreases |arrivals|
  {
    if |arrivals| > 0 {
      var ys := PrependCapped(xs, arrivals[0], cap);
      var m1 := if |xs| + 1 <= cap then |xs| + 1 else cap;
      var rest := Reverse(arrivals[1..]);
      var all := Reverse(arrivals) + xs;
      var m := if |all| <= cap then |all| else cap;
      PrependStep(xs, arrivals, cap);
      PrependAllKeepsNewest(ys, arrivals[1..], cap);
      PrefixOfAppendedPrefix(rest, [arrivals[0]] + xs, m1, m);
    }
  }

  /** One capped prepend: the later arrivals, reversed, in front of what is left form a
      prefix of everything, newest first. */
  lemma PrependStep<T>(xs: seq<T>, arrivals: seq<T>, cap: nat)
    requires |xs| <= cap && |arrivals| > 0
    ensures var ys := PrependCapped(xs, arrivals[0], cap);
            var m1 := if |xs| + 1 <= cap then |xs| + 1 else cap;
            var rest := Reverse(arrivals[1..]);
            var all := Reverse(arrivals) + xs;
            |ys| <= cap && m1 <= |[arrivals[0]] + xs| && ys == ([arrivals[0]] + xs)[..m1]
            && all == rest + ([arrivals[0]] + xs)
            && (if |rest + ys| <= cap then |rest + ys| else cap) == (if |all| <= cap then |all| else cap)
  {
    PrependCappedIsPrefix(xs, arrivals[0], cap);
    ReverseAppend(arrivals, xs);
  }

  /** The capped prepend keeps a prefix of the new item followed by the old list. */
  lemma PrependCappedIsPrefix<T>(xs: seq<T>, a: T, cap: nat)
    requires |xs| <= cap
    ensures var m1 := if |xs| + 1 <= cap then |xs| + 1 else cap;
            PrependCapped(xs, a, cap) == ([a] + xs)[..m1]
  {
  }

  /** Reversing peels the first arrival off to the end. */
  lemma ReverseAppend<T>(arrivals: seq<T>, xs: seq<T>)
    requires |arrivals| > 0
    ensures Reverse(arrivals) + xs == Reverse(arrivals[1..]) + ([arrivals[0]] + xs)
  {
    ReverseSnoc(arrivals);
    ConsAssoc(Reverse(arrivals[1..]), arrivals[0], xs);
  }

  lemma ReverseSnoc<T>(xs: seq<T>)
    requires |xs| > 0
    ensures Reverse(xs) == Reverse(xs[1..]) + [xs[0]]
  {
  }

  lemma ConsAssoc<T>(r: seq<T>, a: T, xs: seq<T>)
    ensures (r + [a]) + xs == r + ([a] + xs)
  {
  }

  /** `xs.push(x); if (xs.length > cap) xs.shift();` */
  function AppendCapped<T>(xs: seq<T>, x: T, cap: nat): (r: seq<T>)
    ensures |r| == if |xs| + 1 > cap then |xs| else |xs| + 1
    ensures |xs| <= cap ==> |r| <= cap
    ensures |r| > 0 ==> r[|r| - 1] == x
    ensures forall k :: 0 <= k < |r| - 1 ==> r[k] == xs[|xs| - (|r| - 1) + k]
  {
    var ys := xs + [x];
    if |ys| > cap then ys[1..] else ys
  }

  /** Arrivals in order, each appended with the cap applied. */
  function AppendAll<T>(xs: seq<T>, arrivals: seq<T>, cap: nat): seq<T>
    decreases |arrivals|
  {
    if |arrivals| == 0 then xs
    else AppendAll(AppendCapped(xs, arrivals[0], cap), arrivals[1..], cap)
  }

  /** An oldest-first capped buffer holds exactly the `cap` most recent items,
      oldest first: the suffix of everything that arrived. */
  lemma {:induction false} AppendAllKeepsNewest<T>(xs: seq<T>, arrivals: seq<T>, cap: nat)
    requires |xs| <= cap
    ensures var all := xs + arrivals;
            AppendAll(xs, arrivals, cap) == all[if |all| <= cap then 0 else |all| - cap..]
    decreases |arrivals|
  {
    if |arrivals| > 0 {
      var ys := AppendCapped(xs, arrivals[0], cap);
      var d1 := if |xs| + 1 <= cap then 0 else |xs| + 1 - cap;
      AppendStep(xs, arrivals, cap);
      AppendAllKeepsNewest(ys, arrivals[1..], cap);
      SuffixOfSuffix(xs + arrivals, d1, cap);
    }
  }

  /** One capped append: what is left of everything so far, followed by the later arrivals,
      is a suffix of everything. */
  lemma AppendStep<T>(xs: seq<T>, arrivals: seq<T>, cap: nat)
    requires |xs| <= cap && |arrivals| > 0
    ensures var ys := AppendCapped(xs, arrivals[0], cap);
            var d1 := if |xs| + 1 <= cap then 0 else |xs| + 1 - cap;
            |ys| <= cap && d1 <= |xs + arrivals| && ys + arrivals[1..] == (xs + arrivals)[d1..]
            && (d1 == 0 || |xs + arrivals| - d1 >= cap)
  {
    var a := arrivals[0];
    var d1 := if |xs| + 1 <= cap then 0 else |xs| + 1 - cap;
    assert AppendCapped(xs, a, cap) == (xs + [a])[d1..];
    assert xs + arrivals == (xs + [a]) + arrivals[1..];
  }

  /** Dropping a prefix that leaves at least `cap` items, or nothing, does not change the
      last `cap` items. */
  lemma SuffixOfSuffix<T>(x: seq<T>, i: nat, cap: nat)
    requires i <= |x| && (i == 0 || |x| - i >= cap)
    ensures var y := x[i..];
            y[if |y| <= cap then 0 else |y| - cap..] == x[if |x| <= cap then 0 else |x| - cap..]
  {
    var y := x[i..];
    var dy := if |y| <= cap then 0 else |y| - cap;
    var dx := if |x| <= cap then 0 else |x| - cap;
    assert i + dy == dx;
    assert y[dy..] == x[i + dy..];
  }

  /** `if (xs.length > cap) xs.shift(); xs.push(x);` (shift decided before the push). */
  function ShiftThenPush<T>(xs: seq<T>, x: T, cap: nat): (r: seq<T>)
    ensures |r| == if |xs| > cap then |xs| else |xs| + 1
    ensures |xs| <= cap + 1 ==> |r| <= cap + 1
    ensures r[|r| - 1] == x
    ensures |xs| > cap ==> r[..|r| - 1] == xs[1..]
    ensures |xs| <= cap ==> r[..|r| - 1] == xs
  {
    (if |xs| > cap then xs[1..] else xs) + [x]
  }

  /** `xs.push(x); xs.shift();` — a window of constant length that slides by one. */
  function PushShift<T>(xs: seq<T>, x: T): (r: seq<T>)
    ensures |r| == |xs|
    ensures |xs| > 0 ==> r[|r| - 1] == x
    ensures forall k :: 0 <= k < |r| - 1 ==> r[k] == xs[k + 1]
  {
    (xs + [x])[1..]
  }
}

=== FILE: common.dfy ===
/** Shared vocabulary of the dashboard pages: optional values, the JavaScript
    array and string primitives the pages lean on (splice, slice, join, split,
    toLowerCase, includes, trim, padStart) and decimal formatting of naturals. */
module Common {

  datatype Option<T> = None | Some(value: T)

  datatype Result<T, E> = Ok(value: T) | Err(error: E)

  // ---------------------------------------------------------------------------
  // Counting and searching

  /** Number of elements of `xs` satisfying `p`. */
  function CountWhere<T>(xs: seq<T>, p: T -> bool): (n: nat)
    ensures n <= |xs|
  {
    if |xs| == 0 then 0
    else (if p(xs[0]) then 1 else 0) + CountWhere(xs[1..], p)
  }

  lemma {:induction false} CountWhereAppend<T>(xs: seq<T>, ys: seq<T>, p: T -> bool)
    ensures CountWhere(xs + ys, p) == CountWhere(xs, p) + CountWhere(ys, p)
  {
    if |xs| == 0 {
      assert xs + ys == ys;
    } else {
      assert (xs + ys)[1..] == xs[1..] + ys;
      CountWhereAppend(xs[1..], ys, p);
    }
  }

  /** `xs.filter(p)`: the elements satisfying `p`, in their original order. */
  function Filter<T(==)>(xs: seq<T>, p: T -> bool): (r: seq<T>)
    ensures |r| == CountWhere(xs, p)
    ensures forall k :: 0 <= k < |r| ==> p(r[k])
  {
    if |xs| == 0 then []
    else (if p(xs[0]) then [xs[0]] else []) + Filter(xs[1..], p)
  }

  /** The filter keeps exactly the passing elements of the list. */
  lemma {:induction false} FilterMembers<T>(xs: seq<T>, p: T -> bool)
    ensures forall k :: 0 <= k < |Filter(xs, p)| ==> Filter(xs, p)[k] in xs
    ensures forall k :: 0 <= k < |xs| && p(xs[k]) ==> xs[k] in Filter(xs, p)
  {
    if |xs| > 0 {
      FilterMembers(xs[1..], p);
      var rest := Filter(xs[1..], p);
      FilterCons(xs[0], xs[1..], p);
      assert xs == [xs[0]] + xs[1..];
      forall k | 0 <= k < |Filter(xs, p)| ensures Filter(xs, p)[k] in xs {
        if !(p(xs[0]) && k == 0) {
          var j := if p(xs[0]) then k - 1 else k;
          assert Filter(xs, p)[k] == rest[j];
          assert rest[j] in xs[1..];
        }
      }
      forall k | 0 <= k < |xs| && p(xs[k]) ensures xs[k] in Filter(xs, p) {
        if k > 0 {
          assert xs[k] == xs[1..][k - 1];
        }
      }
    }
  }

  /** Filtering keeps everything exactly when every element passes. */
  lemma {:induction false} FilterKeepsAll<T>(xs: seq<T>, p: T -> bool)
    requires forall k :: 0 <= k < |xs| ==> p(xs[k])
    ensures Filter(xs, p) == xs
  {
    if |xs| > 0 {
      FilterKeepsAll(xs[1..], p);
    }
  }

  /** Filtering a list with one more element in front. */
  lemma FilterCons<T>(x: T, ys: seq<T>, p: T -> bool)
    ensures Filter([x] + ys, p) == (if p(x) then [x] else []) + Filter(ys, p)
  {
    assert ([x] + ys)[1..] == ys;
  }

  /** Of two elements at most one of which passes, the passing one may be filtered in front:
      `a` moved behind the head of `xs` filters as `a` in front of `xs`. */
  lemma FilterPassesFront<T>(a: T, xs: seq<T>, ys: seq<T>, hys: seq<T>, p: T -> bool)
    requires |xs| > 0 && !(p(a) && p(xs[0]))
    requires hys == [xs[0]] + ys
    requires Filter(ys, p) == (if p(a) then [a] else []) + Filter(xs[1..], p)
    ensures Filter(hys, p) == (if p(a) then [a] else []) + Filter(xs, p)
  {
    var fx, fy := Filter(xs[1..], p), Filter(ys, p);
    assert xs == [xs[0]] + xs[1..];
    FilterCons(xs[0], ys, p);
    FilterCons(xs[0], xs[1..], p);
    if p(a) {
      assert [] + fy == fy;
      assert [] + fx == fx;
    } else {
      assert [] + fx == fx;
    }
  }

  /** `r` is `xs` with some elements left out and the others in their order. */
  predicate Subseq<T(==)>(r: seq<T>, xs: seq<T>)
    decreases |xs|
  {
    if |r| == 0 then true
    else if |xs| == 0 then false
    else if r[0] == xs[0] then Subseq(r[1..], xs[1..])
    else Subseq(r, xs[1..])
  }

  /** Filtering keeps the surviving elements in their order. */
  lemma {:induction false} FilterIsSubseq<T>(xs: seq<T>, p: T -> bool)
    ensures Subseq(Filter(xs, p), xs)
  {
    if |xs| > 0 {
      FilterIsSubseq(xs[1..], p);
      var rest := Filter(xs[1..], p);
      if p(xs[0]) {
        assert ([xs[0]] + rest)[1..] == rest;
      } else {
        assert Filter(xs, p) == rest;
        if |rest| > 0 {
          assert rest[0] != xs[0] by { assert p(rest[0]); }
        }
      }
    }
  }

  /** A prefix of an ordered selection is an ordered selection. */
  lemma {:induction false} PrefixSubseq<T>(r: seq<T>, xs: seq<T>, n: nat)
    requires Subseq(r, xs) && n <= |r|
    ensures Subseq(r[..n], xs)
    decreases |xs|
  {
    if n > 0 {
      if r[0] == xs[0] {
        PrefixSubseq(r[1..], xs[1..], n - 1);
        assert r[..n][1..] == r[1..][..n - 1];
      } else {
        PrefixSubseq(r, xs[1..], n);
      }
    }
  }

  /** An ordered selection of passing elements has at most as many as pass. */
  lemma {:induction false} SubseqPassingBound<T>(r: seq<T>, xs: seq<T>, p: T -> bool)
    requires Subseq(r, xs)
    requires forall k :: 0 <= k < |r| ==> p(r[k])
    ensures |r| <= CountWhere(xs, p)
    decreases |xs|
  {
    if |r| > 0 {
      if r[0] == xs[0] {
        SubseqPassingBound(r[1..], xs[1..], p);
      } else {
        SubseqPassingBound(r, xs[1..], p);
      }
    }
  }

  /** `Filter` is the only ordered selection that keeps every passing element and nothing
      else: its contract and order characterise it. */
  lemma {:induction false} FilterUnique<T>(r: seq<T>, xs: seq<T>, p: T -> bool)
    requires Subseq(r, xs)
    requires forall k :: 0 <= k < |r| ==> p(r[k])
    requires |r| == CountWhere(xs, p)
    ensures r == Filter(xs, p)
    decreases |xs|
  {
    if |xs| > 0 {
      if |r| > 0 && r[0] == xs[0] {
        FilterUnique(r[1..], xs[1..], p);
        assert r == [r[0]] + r[1..];
      } else if p(xs[0]) {
        SubseqPassingBound(r, xs[1..], p);
        assert false;
      } else {
        FilterUnique(r, xs[1..], p);
      }
    }
  }

  /** Two tests that agree on every element filter alike. */
  lemma {:induction false} FilterSameTest<T>(xs: seq<T>, p: T -> bool, q: T -> bool)
    requires forall k :: 0 <= k < |xs| ==> p(xs[k]) == q(xs[k])
    ensures Filter(xs, p) == Filter(xs, q)
  {
    if |xs| > 0 {
      FilterSameTest(xs[1..], p, q);
    }
  }

  /** Filtering distributes over concatenation, so it preserves relative order. */
  lemma {:induction false} FilterAppend<T>(xs: seq<T>, ys: seq<T>, p: T -> bool)
    ensures Filter(xs + ys, p) == Filter(xs, p) + Filter(ys, p)
  {
    if |xs| == 0 {
      assert xs + ys == ys;
    } else {
      assert (xs + ys)[1..] == xs[1..] + ys;
      FilterAppend(xs[1..], ys, p);
    }
  }

  /** Counting over one more element of a prefix. */
  lemma CountWherePrefixStep<T>(xs: seq<T>, i: nat, p: T -> bool)
    requires i < |xs|
    ensures CountWhere(xs[..i + 1], p) == CountWhere(xs[..i], p) + (if p(xs[i]) then 1 else 0)
  {
    assert xs[..i + 1] == xs[..i] + [xs[i]];
    CountWhereAppend(xs[..i], [xs[i]], p);
    assert [xs[i]][1..] == [];
  }

  /** JavaScript `findIndex`: the first index whose element satisfies `p`, or -1. */
  function FindIndex<T>(xs: seq<T>, p: T -> bool): (i: int)
    ensures -1 <= i < |xs|
    ensures i == -1 <==> forall k :: 0 <= k < |xs| ==> !p(xs[k])
    ensures i >= 0 ==> p(xs[i]) && forall k :: 0 <= k < i ==> !p(xs[k])
  {
    if |xs| == 0 then -1
    else if p(xs[0]) then 0
    else
      var j := FindIndex(xs[1..], p);
      if j == -1 then -1 else j + 1
  }

  // ---------------------------------------------------------------------------
  // Array.prototype.splice(start, 1) and Array.prototype.slice(start, end)

  /** `xs.splice(start, 1)` on the array `xs`, returning what is left.  A negative
      start counts from the end (clamped at 0); a start at or past the end removes
      nothing. */
  function SpliceOne<T>(xs: seq<T>, start: int): (r: seq<T>)
    ensures 0 <= start < |xs| ==> r == xs[..start] + xs[start+1..]
    ensures start >= |xs| ==> r == xs
    ensures start < 0 && |xs| > 0 ==>
      var k := if |xs| + start < 0 then 0 else |xs| + start;
      r == xs[..k] + xs[k+1..]
    ensures |xs| > 0 && start < |xs| <==> |r| == |xs| - 1
  {
    var k := if start < 0 then (if |xs| + start < 0 then 0 else |xs| + start) else start;
    if k < |xs| then xs[..k] + xs[k+1..] else xs
  }

  /** `xs.slice(start, end)` for non-negative bounds: both bounds are clamped to the length. */
  function Slice<T>(xs: seq<T>, start: nat, end: nat): (r: seq<T>)
    ensures |r| == if start >= end || start >= |xs| then 0
                   else (if end <= |xs| then end else |xs|) - start
    ensures forall k :: 0 <= k < |r| ==> r[k] == xs[start + k]
  {
    var e := if end <= |xs| then end else |xs|;
    if start >= e then [] else xs[start..e]
  }

  function Min(a: int, b: int): int { if a <= b then a else b }

  function Max(a: int, b: int): int { if a >= b then a else b }

  // ---------------------------------------------------------------------------
  // Letter case (ASCII letters; other characters are left as they are)

  function LowerChar(c: char): char
  {
    if 'A' <= c <= 'Z' then (c as int + 32) as char else c
  }

  function UpperChar(c: char): char
  {
    if 'a' <= c <= 'z' then (c as int - 32) as char else c
  }

  /** `toLowerCase` restricted to ASCII letters. */
  function Lower(s: string): (r: string)
    ensures |r| == |s|
    ensures forall k :: 0 <= k < |r| ==> !('A' <= r[k] <= 'Z')
    ensures forall k :: 0 <= k < |r| ==> (r[k] == s[k] || ('A' <= s[k] <= 'Z' && r[k] as int == s[k] as int + 32))
  {
    seq(|s|, k requires 0 <= k < |s| => LowerChar(s[k]))
  }

  /** `toUpperCase` restricted to ASCII letters. */
  function Upper(s: string): (r: string)
    ensures |r| == |s|
    ensures forall k :: 0 <= k < |r| ==> !('a' <= r[k] <= 'z')
    ensures forall k :: 0 <= k < |r| ==> (r[k] == s[k] || ('a' <= s[k] <= 'z' && r[k] as int + 32 == s[k] as int))
  {
    seq(|s|, k requires 0 <= k < |s| => UpperChar(s[k]))
  }

  lemma LowerIdempotent(s: string)
    ensures Lower(Lower(s)) == Lower(s)
  {
  }

  /** Upper-casing first loses nothing that lower-casing keeps. */
  lemma LowerOfUpper(s: string)
    ensures Lower(Upper(s)) == Lower(s)
  {
    assert forall k :: 0 <= k < |s| ==> Lower(Upper(s))[k] == LowerChar(UpperChar(s[k]));
  }

  // ---------------------------------------------------------------------------
  // Substring search (String.prototype.includes)

  /** `s` occurs in `hay` at position `i`. */
  ghost predicate OccursAt(hay: string, needle: string, i: int)
  {
    0 <= i && i + |needle| <= |hay| && hay[i..i + |needle|] == needle
  }

  /** `hay.includes(needle)`, computed by trying each start position in turn. */
  function Contains(hay: string, needle: string): bool
    decreases |hay|
  {
    needle <= hay || (|hay| > 0 && Contains(hay[1..], needle))
  }

  /** `Contains` agrees with the positional definition of an occurrence. */
  lemma {:induction false} ContainsIffOccurs(hay: string, needle: string)
    ensures Contains(hay, needle) <==> exists i :: OccursAt(hay, needle, i)
    decreases |hay|
  {
    if needle <= hay {
      assert OccursAt(hay, needle, 0);
    } else if |hay| == 0 {
      assert forall i :: !OccursAt(hay, needle, i);
    } else {
      ContainsIffOccurs(hay[1..], needle);
      forall i | OccursAt(hay[1..], needle, i)
        ensures OccursAt(hay, needle, i + 1)
      {
        assert hay[1..][i..i + |needle|] == hay[i+1..i+1+|needle|];
      }
      OccursAtStartIffPrefix(hay, needle);
      forall i | OccursAt(hay, needle, i)
        ensures OccursAt(hay[1..], needle, i - 1)
      {
        assert hay[1..][i-1..i-1+|needle|] == hay[i..i+|needle|];
      }
    }
  }

  /** An occurrence at position 0 is a prefix. */
  lemma OccursAtStartIffPrefix(hay: string, needle: string)
    ensures OccursAt(hay, needle, 0) <==> needle <= hay
  {
    if needle <= hay {
      assert hay[..|needle|] == needle;
    }
    if OccursAt(hay, needle, 0) {
      assert hay[0..|needle|] == needle;
    }
  }

  /** The empty search term occurs in every string. */
  lemma EmptyNeedleAlwaysContained(hay: string)
    ensures Contains(hay, "")
  {
  }

  // ---------------------------------------------------------------------------
  // Trimming (String.prototype.trim)

  /** The characters `trim` removes: the white space and line terminators of section 12.2 and
      12.3 of ECMA-262 (tab, vertical tab, form feed, space, no-break space, the byte order mark,
      the space separators of Unicode category Zs, line feed, carriage return, and the line and
      paragraph separators). */

  predicate IsSpace(c: char)
  {
    c == '\t' || c == '\U{B}' || c == '\U{C}' || c == ' ' || c == '\U{A0}' || c == '\U{FEFF}'
    || c == '\U{1680}' || ('\U{2000}' <= c <= '\U{200A}') || c == '\U{202F}' || c == '\U{205F}'
    || c == '\U{3000}'
    || c == '\n' || c == '\r' || c == '\U{2028}' || c == '\U{2029}'
  }

  function TrimStart(s: string): (r: string)
    ensures |r| <= |s| && r == s[|s| - |r|..]
    ensures |r| > 0 ==> !IsSpace(r[0])
    ensures forall k :: 0 <= k < |s| - |r| ==> IsSpace(s[k])
  {
    if |s| > 0 && IsSpace(s[0]) then TrimStart(s[1..]) else s
  }

  function TrimEnd(s: string): (r: string)
    ensures |r| <= |s| && r == s[..|r|]
    ensures |r| > 0 ==> !IsSpace(r[|r| - 1])
    ensures forall k :: |r| <= k < |s| ==> IsSpace(s[k])
  {
    if |s| > 0 && IsSpace(s[|s| - 1]) then TrimEnd(s[..|s| - 1]) else s
  }

  /** `r` is the infix of `s` at `i`, and everything around it is white space. */
  ghost predicate TrimmedAt(s: string, r: string, i: int)
  {
    0 <= i && i + |r| <= |s| && s[i..i + |r|] == r
    && (forall k :: 0 <= k < i ==> IsSpace(s[k]))
    && (forall k :: i + |r| <= k < |s| ==> IsSpace(s[k]))
  }

  /** `s.trim()`: the infix of `s` that neither starts nor ends with white space,
      everything cut off on either side being white space. */
  function Trim(s: string): (r: string)
    ensures |r| <= |s|
    ensures |r| > 0 ==> !IsSpace(r[0]) && !IsSpace(r[|r| - 1])
    ensures exists i :: TrimmedAt(s, r, i)
  {
    var a := TrimStart(s);
    var r := TrimEnd(a);
    TrimmedAtStart(s);
    r
  }

  /** Trimming the end of what `TrimStart` leaves gives the infix right after the leading blanks. */
  lemma TrimmedAtStart(s: string)
    ensures TrimmedAt(s, TrimEnd(TrimStart(s)), |s| - |TrimStart(s)|)
  {
    var a := TrimStart(s);
    TrimmedAtParts(s, a, TrimEnd(a), |s| - |a|);
  }

  /** A prefix of a suffix, with blanks before the suffix and after the prefix, is trimmed there. */
  lemma TrimmedAtParts(s: string, a: string, r: string, i: int)
    requires 0 <= i <= |s| && a == s[i..] && |r| <= |a| && r == a[..|r|]
    requires forall k :: 0 <= k < i ==> IsSpace(s[k])
    requires forall k :: |r| <= k < |a| ==> IsSpace(a[k])
    ensures TrimmedAt(s, r, i)
  {
    assert s[i..i + |r|] == r;
    forall k | i + |r| <= k < |s|
      ensures IsSpace(s[k])
    {
      assert s[k] == a[k - i];
    }
  }

  lemma TrimIdempotent(s: string)
    ensures Trim(Trim(s)) == Trim(s)
  {
  }

  /** A string trims to nothing exactly when it is all white space. */
  lemma {:induction false} TrimEmptyIffBlank(s: string)
    ensures Trim(s) == "" <==> forall k :: 0 <= k < |s| ==> IsSpace(s[k])
  {
    var r := Trim(s);
    if forall k :: 0 <= k < |s| ==> IsSpace(s[k]) {
      TrimStartBlank(s);
    } else {
      var i :| TrimmedAt(s, r, i);
    }
  }

  lemma {:induction false} TrimStartBlank(s: string)
    requires forall k :: 0 <= k < |s| ==> IsSpace(s[k])
    ensures TrimStart(s) == ""
    decreases |s|
  {
    if |s| > 0 {
      TrimStartBlank(s[1..]);
    }
  }

  // ---------------------------------------------------------------------------
  // Array.prototype.join and String.prototype.split with a one-character separator

  /** `xs.join(sep)`. */
  function Join(xs: seq<string>, sep: char): string
  {
    if |xs| == 0 then ""
    else if |xs| == 1 then xs[0]
    else xs[0] + [sep] + Join(xs[1..], sep)
  }

  /** `s.split(sep)`: always at least one piece. */
  function Split(s: string, sep: char): (r: seq<string>)
    ensures |r| >= 1
    decreases |s|
  {
    if |s| == 0 then [""]
    else
      var rest := Split(s[1..], sep);
      if s[0] == sep then [""] + rest
      else [[s[0]] + rest[0]] + rest[1..]
  }

  /** Concatenation of all pieces, each followed by `sep` (a newline-terminated file). */
  function Terminated(xs: seq<string>, sep: char): string
  {
    if |xs| == 0 then "" else xs[0] + [sep] + Terminated(xs[1..], sep)
  }

  /** The pieces a separator-free text splits into: the text itself. */
  lemma {:induction false} SplitNoSep(a: string, sep: char)
    requires sep !in a
    ensures Split(a, sep) == [a]
    decreases |a|
  {
    if |a| > 0 {
      assert a == [a[0]] + a[1..];
      SplitNoSep(a[1..], sep);
    }
  }

  /** Splitting at the first separator. */
  lemma {:induction false} SplitAtSep(a: string, b: string, sep: char)
    requires sep !in a
    ensures Split(a + [sep] + b, sep) == [a] + Split(b, sep)
    decreases |a|
  {
    if |a| == 0 {
      assert a + [sep] + b == [sep] + b;
      assert ([sep] + b)[1..] == b;
    } else {
      assert (a + [sep] + b)[1..] == a[1..] + [sep] + b;
      SplitAtSep(a[1..], b, sep);
      assert [a[0]] + a[1..] == a;
    }
  }

  /** Joining separator-free pieces and splitting again gives back the pieces:
      the serialisers need no quoting as long as no field holds a separator. */
  lemma {:induction false} SplitJoin(xs: seq<string>, sep: char)
    requires |xs| >= 1
    requires forall k :: 0 <= k < |xs| ==> sep !in xs[k]
    ensures Split(Join(xs, sep), sep) == xs
    decreases |xs|
  {
    if |xs| == 1 {
      SplitNoSep(xs[0], sep);
    } else {
      SplitJoin(xs[1..], sep);
      SplitAtSep(xs[0], Join(xs[1..], sep), sep);
      assert [xs[0]] + xs[1..] == xs;
    }
  }

  /** A character other than the separator that no piece holds is absent from the join. */
  lemma {:induction false} JoinAvoids(xs: seq<string>, sep: char, c: char)
    requires c != sep
    requires forall k :: 0 <= k < |xs| ==> c !in xs[k]
    ensures c !in Join(xs, sep)
    decreases |xs|
  {
    if |xs| > 1 {
      JoinAvoids(xs[1..], sep, c);
      assert xs[0] + [sep] + Join(xs[1..], sep) == Join(xs, sep);
    }
  }

  /** A character in none of the head and the rest is in no element of the list they make. */
  lemma AvoidsCons(h: string, rest: seq<string>, c: char)
    requires c !in h
    requires forall k :: 0 <= k < |rest| ==> c !in rest[k]
    ensures forall j :: 0 <= j < |[h] + rest| ==> c !in ([h] + rest)[j]
  {
  }

  /** A character in no element of a list and not in a last one is in no element of both. */
  lemma AvoidsSnoc(xs: seq<string>, t: string, c: char)
    requires forall k :: 0 <= k < |xs| ==> c !in xs[k]
    requires c !in t
    ensures forall j :: 0 <= j < |xs + [t]| ==> c !in (xs + [t])[j]
  {
  }

  /** A separator-terminated text is the join of its pieces and one empty piece. */
  lemma {:induction false} TerminatedIsJoin(xs: seq<string>, sep: char)
    ensures Terminated(xs, sep) == Join(xs + [""], sep)
    decreases |xs|
  {
    if |xs| > 0 {
      TerminatedIsJoin(xs[1..], sep);
      assert (xs + [""])[1..] == xs[1..] + [""];
      assert (xs + [""])[0] == xs[0];
    }
  }

  /** A field that itself holds the separator comes back as two fields: joining
      without quoting loses the field boundary. */
  lemma SeparatorInFieldSplitsIt(sep: char)
    requires sep != 'a' && sep != 'b'
    ensures Split(Join(["a" + [sep] + "b"], sep), sep) == ["a", "b"]
  {
    SplitNoSepOne('b', sep);
    SplitAtSep("a", "b", sep);
  }

  lemma SplitNoSepOne(c: char, sep: char)
    requires c != sep
    ensures Split([c], sep) == [[c]]
  {
    assert [c][1..] == [];
    assert Split([], sep) == [""];
    assert [c] + "" == [c];
  }

  // ---------------------------------------------------------------------------
  // Decimal formatting of naturals (Number.prototype.toString) and its inverse

  function DigitChar(d: nat): char
    requires d < 10
  {
    ('0' as int + d) as char
  }

  predicate IsDigit(c: char)
  {
    '0' <= c <= '9'
  }

  /** Decimal representation without leading zeros ("0" for zero). */
  function NatToString(n: nat): (s: string)
    ensures |s| >= 1
    ensures forall k :: 0 <= k < |s| ==> IsDigit(s[k])
    ensures n < 10 <==> |s| == 1
    ensures n < 100 ==> |s| <= 2
    decreases n
  {
    if n < 10 then [DigitChar(n)] else NatToString(n / 10) + [DigitChar(n % 10)]
  }

  /** The value of a string of decimal digits (leading zeros allowed). */
  function ParseNat(s: string): nat
    requires forall k :: 0 <= k < |s| ==> IsDigit(s[k])
  {
    if |s| == 0 then 0
    else
      assert IsDigit(s[|s| - 1]);
      ParseNat(s[..|s| - 1]) * 10 + (s[|s| - 1] as int - '0' as int)
  }

  /** Formatting a natural and reading it back is the identity. */
  lemma {:induction false} ParseNatToString(n: nat)
    ensures ParseNat(NatToString(n)) == n
    decreases n
  {
    if n >= 10 {
      var s := NatToString(n);
      assert s[..|s| - 1] == NatToString(n / 10);
      ParseNatToString(n / 10);
    }
  }

  /** Leading zeros do not change the value read. */
  lemma {:induction false} ParseNatLeadingZeros(z: string, s: string)
    requires forall k :: 0 <= k < |z| ==> z[k] == '0'
    requires forall k :: 0 <= k < |s| ==> IsDigit(s[k])
    ensures ParseNat(z + s) == ParseNat(s)
    decreases |s|
  {
    if |s| == 0 {
      assert z + s == z;
      ZerosParseToZero(z);
    } else {
      assert (z + s)[..|z + s| - 1] == z + s[..|s| - 1];
      ParseNatLeadingZeros(z, s[..|s| - 1]);
    }
  }

  lemma {:induction false} ZerosParseToZero(z: string)
    requires forall k :: 0 <= k < |z| ==> z[k] == '0'
    ensures ParseNat(z) == 0
    decreases |z|
  {
    if |z| > 0 {
      ZerosParseToZero(z[..|z| - 1]);
    }
  }

  /** `s.padStart(width, c)`. */
  function PadStart(s: string, width: nat, c: char): (r: string)
    ensures |r| == if |s| >= width then |s| else width
    ensures r[|r| - |s|..] == s
    ensures forall k :: 0 <= k < |r| - |s| ==> r[k] == c
  {
    if |s| >= width then s else seq(width - |s|, _ => c) + s
  }

  /** A natural whose digits fit in `width`, zero-padded to `width`, reads back as itself. */
  lemma PadDigitsRoundTrip(n: nat, width: nat)
    requires |NatToString(n)| <= width
    ensures var p := PadStart(NatToString(n), width, '0');
            |p| == width && (forall k :: 0 <= k < width ==> IsDigit(p[k])) && ParseNat(p) == n
  {
    var s := NatToString(n);
    var p := PadStart(s, width, '0');
    var z := p[..|p| - |s|];
    assert p == z + s;
    ParseNatLeadingZeros(z, s);
    ParseNatToString(n);
  }

  /** A natural below 1000 as exactly three digits, zero-padded, and its read-back. */
  lemma ThreeDigitRoundTrip(n: nat)
    requires n < 1000
    ensures var p := PadStart(NatToString(n), 3, '0');
            |p| == 3 && (forall k :: 0 <= k < 3 ==> IsDigit(p[k])) && ParseNat(p) == n
  {
    assert |NatToString(n)| <= 3 by {
      if n >= 100 {
        assert NatToString(n) == NatToString(n / 10) + [DigitChar(n % 10)];
      }
    }
    PadDigitsRoundTrip(n, 3);
  }
}

=== FILE: control.dfy ===
/** The system-control page: the configuration with its saved overlay, the
    fan-slider and mode-button enabling, the pending-change counter, and the
    NORMAL/EMERGENCY machine driven by the three-second hold and the confirmed
    reset. */
module Control {
  import opened Common

  datatype Config = Config(masterPower: bool, mode: string, fanSpeed: int, filterBoost: bool,
                           silentMode: bool, smokeSens: int, tempRise: int, flameEnable: bool,
                           autoVent: bool)

  const Defaults: Config := Config(true, "auto", 45, false, false, 5, 8, true, true)

  /** The saved configuration as stored: any subset of the keys. */
  datatype Saved = Saved(masterPower: Option<bool>, mode: Option<string>, fanSpeed: Option<int>,
                         filterBoost: Option<bool>, silentMode: Option<bool>, smokeSens: Option<int>,
                         tempRise: Option<int>, flameEnable: Option<bool>, autoVent: Option<bool>)

  function Pick<T>(o: Option<T>, d: T): T
  {
    if o.Some? then o.value else d
  }

  /** `{ ...config, ...saved }`: every saved key wins, every other key keeps its value. */
  function Merge(c: Config, s: Saved): (r: Config)
    ensures s.masterPower.Some? ==> r.masterPower == s.masterPower.value
    ensures s.masterPower.None? ==> r.masterPower == c.masterPower
    ensures s.mode.Some? ==> r.mode == s.mode.value
    ensures s.mode.None? ==> r.mode == c.mode
    ensures s.fanSpeed.Some? ==> r.fanSpeed == s.fanSpeed.value
    ensures s.fanSpeed.None? ==> r.fanSpeed == c.fanSpeed
    ensures s.filterBoost.Some? ==> r.filterBoost == s.filterBoost.value
    ensures s.filterBoost.None? ==> r.filterBoost == c.filterBoost
    ensures s.silentMode.Some? ==> r.silentMode == s.silentMode.value
    ensures s.silentMode.None? ==> r.silentMode == c.silentMode
    ensures s.smokeSens.Some? ==> r.smokeSens == s.smokeSens.value
    ensures s.smokeSens.None? ==> r.smokeSens == c.smokeSens
    ensures s.tempRise.Some? ==> r.tempRise == s.tempRise.value
    ensures s.tempRise.None? ==> r.tempRise == c.tempRise
    ensures s.flameEnable.Some? ==> r.flameEnable == s.flameEnable.value
    ensures s.flameEnable.None? ==> r.flameEnable == c.flameEnable
    ensures s.autoVent.Some? ==> r.autoVent == s.autoVent.value
    ensures s.autoVent.None? ==> r.autoVent == c.autoVent
  {
    Config(Pick(s.masterPower, c.masterPower), Pick(s.mode, c.mode), Pick(s.fanSpeed, c.fanSpeed),
           Pick(s.filterBoost, c.filterBoost), Pick(s.silentMode, c.silentMode),
           Pick(s.smokeSens, c.smokeSens), Pick(s.tempRise, c.tempRise),
           Pick(s.flameEnable, c.flameEnable), Pick(s.autoVent, c.autoVent))
  }

  /** What `saveConfiguration` stores: every key. */
  function Store(c: Config): Saved
  {
    Saved(Some(c.masterPower), Some(c.mode), Some(c.fanSpeed), Some(c.filterBoost), Some(c.silentMode),
          Some(c.smokeSens), Some(c.tempRise), Some(c.flameEnable), Some(c.autoVent))
  }

  /** `loadConfig`: the defaults, overlaid with the stored keys when anything is stored. */
  function LoadConfig(stored: Option<Saved>): (r: Config)
    ensures stored.None? ==> r == Defaults
    ensures stored.Some? ==> r == Merge(Defaults, stored.value)
  {
    if stored.Some? then Merge(Defaults, stored.value) else Defaults
  }

  /** A saved configuration loads back unchanged, and an empty overlay changes nothing. */
  lemma SaveLoadRoundTrip(c: Config)
    ensures LoadConfig(Some(Store(c))) == c
    ensures Merge(c, Saved(None, None, None, None, None, None, None, None, None)) == c
  {
  }

  datatype SysStatus = Normal | Emergency

  /** The page: the configuration, the controls' state, the counter and the system status. */
  datatype Page = Page(config: Config, status: SysStatus, changesPending: nat, sliderDisabled: bool,
                       modeButtonsDisabled: bool, powerChecked: bool, powerDisabled: bool)

  /** The slider rule of `updateUI` and the mode buttons: disabled in auto mode or with the power off. */
  predicate SliderRule(p: Page)
  {
    p.sliderDisabled == (p.config.mode == "auto" || !p.config.masterPower)
  }

  /** Page load: `loadConfig` then `updateUI`. */
  function Init(stored: Option<Saved>): (p: Page)
    ensures SliderRule(p) && p.status == Normal && p.changesPending == 0
    ensures p.powerChecked == p.config.masterPower && !p.powerDisabled
    ensures p.config == LoadConfig(stored) && !p.modeButtonsDisabled
  {
    var c := LoadConfig(stored);
    Page(c, Normal, 0, c.mode == "auto" || !c.masterPower, false, c.masterPower, false)
  }

  /** `trackChange`. */
  function TrackChange(p: Page): (r: Page)
    ensures r.changesPending == p.changesPending + 1
    ensures r == p.(changesPending := r.changesPending)
  {
    p.(changesPending := p.changesPending + 1)
  }

  /** A mode button: the mode is set, the change counted and the slider re-evaluated. A
      disabled button raises no click, so while the power switch has disabled the mode buttons
      the page stays as it is. */
  function ModeClick(p: Page, mode: string): (r: Page)
    ensures p.modeButtonsDisabled ==> r == p
    ensures !p.modeButtonsDisabled ==>
              r.config == p.config.(mode := mode) && r.changesPending == p.changesPending + 1
              && SliderRule(r) && !r.modeButtonsDisabled
    ensures r.status == p.status && r.powerChecked == p.powerChecked && r.powerDisabled == p.powerDisabled
  {
    if p.modeButtonsDisabled then p
    else
      var c := p.config.(mode := mode);
      TrackChange(p).(config := c, sliderDisabled := c.mode == "auto" || !c.masterPower)
  }

  /** The master-power change handler as written: the slider and the mode buttons follow the
      power switch alone. A disabled switch fires no change. */
  function PowerChange(p: Page): (r: Page)
    ensures p.powerDisabled ==> r == p
    ensures !p.powerDisabled ==>
              r.config.masterPower == !p.powerChecked && r.powerChecked == !p.powerChecked
              && r.changesPending == p.changesPending + 1
              && r.sliderDisabled == p.powerChecked && r.modeButtonsDisabled == p.powerChecked
    ensures !p.powerDisabled ==>
              r.config == p.config.(masterPower := !p.powerChecked) && r.status == p.status
              && r.powerDisabled == p.powerDisabled
  {
    if p.powerDisabled then p
    else
      var on := !p.powerChecked;
      TrackChange(p).(config := p.config.(masterPower := on), powerChecked := on,
                      sliderDisabled := !on, modeButtonsDisabled := !on)
  }

  /** Turning the power back on in auto mode enables the slider that auto mode should keep
      disabled. */
  lemma PowerOnInAutoBreaksSliderRule()
    ensures var p := Init(Some(Saved(Some(false), None, None, None, None, None, None, None, None)));
            var q := PowerChange(p);
            SliderRule(p) && q.config.mode == "auto" && q.config.masterPower && !q.sliderDisabled
            && !SliderRule(q)
  {
  }

  /** The handler with the slider rule of `updateUI`. */
  function PowerChangeFixed(p: Page): (r: Page)
    ensures p.powerDisabled ==> r == p
    ensures !p.powerDisabled ==>
              r.config.masterPower == !p.powerChecked && r.powerChecked == !p.powerChecked
              && r.changesPending == p.changesPending + 1 && r.modeButtonsDisabled == p.powerChecked
    ensures !p.powerDisabled ==>
              r.config == p.config.(masterPower := !p.powerChecked) && r.status == p.status
              && r.powerDisabled == p.powerDisabled
              && r.sliderDisabled == (p.config.mode == "auto" || p.powerChecked)
  {
    if p.powerDisabled then p
    else
      var on := !p.powerChecked;
      var c := p.config.(masterPower := on);
      TrackChange(p).(config := c, powerChecked := on,
                      sliderDisabled := c.mode == "auto" || !on, modeButtonsDisabled := !on)
  }

  /** The corrected handler keeps the slider rule, whatever the mode. */
  lemma PowerChangeFixedKeepsSliderRule(p: Page)
    requires SliderRule(p)
    ensures SliderRule(PowerChangeFixed(p))
    ensures !p.powerDisabled ==> PowerChangeFixed(p).sliderDisabled == (p.config.mode == "auto" || p.powerChecked)
  {
  }

  /** `saveConfiguration` with the three slider values, once its timer has completed: the
      values are copied into the configuration, the whole configuration is stored, and the
      counter is cleared. */
  function SaveConfiguration(p: Page, fan: int, smoke: int, temp: int): (r: (Page, Saved))
    ensures r.0.changesPending == 0
    ensures r.0.config == p.config.(fanSpeed := fan, smokeSens := smoke, tempRise := temp)
    ensures LoadConfig(Some(r.1)) == r.0.config
    ensures r.0 == p.(config := r.0.config, changesPending := r.0.changesPending)
  {
    var c := p.config.(fanSpeed := fan, smokeSens := smoke, tempRise := temp);
    SaveLoadRoundTrip(c);
    (p.(config := c, changesPending := 0), Store(c))
  }

  /** Edits since the last save: the counter counts exactly the tracked changes. */
  function TrackMany(p: Page, n: nat): Page
    decreases n
  {
    if n == 0 then p else TrackMany(TrackChange(p), n - 1)
  }

  lemma {:induction false} TrackManyCounts(p: Page, n: nat)
    ensures TrackMany(p, n).changesPending == p.changesPending + n
    ensures TrackMany(p, n) == p.(changesPending := p.changesPending + n)
    decreases n
  {
    if n > 0 {
      TrackManyCounts(TrackChange(p), n - 1);
    }
  }

  const HoldDuration: nat := 3000

  /** `triggerEmergencyShutdown`: EMERGENCY, the power switch unchecked and disabled. The
      configuration itself keeps its power flag. */
  function EmergencyShutdown(p: Page): (r: Page)
    ensures r.status == Emergency && !r.powerChecked && r.powerDisabled
    ensures r.config == p.config && r.changesPending == p.changesPending && r.sliderDisabled == p.sliderDisabled
    ensures r == p.(status := r.status, powerChecked := r.powerChecked, powerDisabled := r.powerDisabled)
  {
    p.(status := Emergency, powerChecked := false, powerDisabled := true)
  }

  /** `startHold` followed by `endHold` after `heldMs`: nothing in EMERGENCY; otherwise a hold
      of at least three seconds fires the shutdown and a shorter one is cancelled. */
  function Hold(p: Page, heldMs: nat): (r: Page)
    ensures p.status == Emergency ==> r == p
    ensures p.status == Normal && heldMs >= HoldDuration ==> r == EmergencyShutdown(p)
    ensures heldMs < HoldDuration ==> r == p
  {
    if p.status == Emergency then p
    else if heldMs >= HoldDuration then EmergencyShutdown(p)
    else p
  }

  /** `resetSystem` with the answer to its confirmation: only from EMERGENCY, and only when
      confirmed, back to NORMAL with the power switch enabled and checked. */
  function ResetSystem(p: Page, confirmed: bool): (r: Page)
    ensures p.status != Emergency || !confirmed ==> r == p
    ensures p.status == Emergency && confirmed ==>
              r.status == Normal && r.powerChecked && !r.powerDisabled && r.config == p.config
    ensures p.status == Emergency && confirmed ==>
              r == p.(status := r.status, powerChecked := r.powerChecked, powerDisabled := r.powerDisabled)
  {
    if p.status != Emergency then p
    else if confirmed then p.(status := Normal, powerChecked := true, powerDisabled := false)
    else p
  }

  /** The power switch is disabled exactly in EMERGENCY. */
  predicate Lockout(p: Page)
  {
    p.powerDisabled <==> p.status == Emergency
  }

  /** Every step keeps the lockout: the hold, the confirmed or refused reset, the power
      switch, the mode buttons and change tracking. */
  lemma StepsKeepLockout(p: Page, heldMs: nat, confirmed: bool, mode: string)
    requires Lockout(p)
    ensures Lockout(Init(None))
    ensures Lockout(Hold(p, heldMs)) && Lockout(ResetSystem(p, confirmed))
    ensures Lockout(PowerChange(p)) && Lockout(PowerChangeFixed(p))
    ensures Lockout(ModeClick(p, mode)) && Lockout(TrackChange(p))
  {
  }

  /** In EMERGENCY the power switch cannot be turned back on: its handler leaves the page as it
      is, and only a confirmed reset leaves EMERGENCY. */
  lemma EmergencyHoldsUntilReset(p: Page, heldMs: nat, mode: string)
    requires Lockout(p) && p.status == Emergency
    ensures PowerChange(p) == p && PowerChangeFixed(p) == p
    ensures Hold(p, heldMs) == p && ResetSystem(p, false) == p
    ensures ModeClick(p, mode).status == Emergency
    ensures ResetSystem(p, true).status == Normal
  {
  }

  /** A shutdown followed by a confirmed reset leaves the switch checked and enabled and the
      configuration untouched. */
  lemma ShutdownThenReset(p: Page)
    requires p.status == Normal
    ensures var r := ResetSystem(Hold(p, HoldDuration), true);
            r.status == Normal && r.powerChecked && !r.powerDisabled && r.config == p.config
            && r.changesPending == p.changesPending
  {
  }
}

=== FILE: dashboard.dfy ===
/** The main dashboard: the session guard, the random-walk tick over AQI,
    PM2.5 and fire risk, the card classifiers, the insight and hazard checks,
    the 20-entry alert list and the 20-point AQI chart window. */
module Dashboard {
  import opened Common
  import opened Bounded

  /** The browser session store: key to value. */
  type Session = map<string, string>

  /** The page-top check: anything but `isLoggedIn == "true"` sends the visitor to the login page. */
  predicate MustRedirect(s: Session)
  {
    !("isLoggedIn" in s && s["isLoggedIn"] == "true")
  }

  /** The logout button: on confirmation both session flags go. */
  function Logout(s: Session, confirmed: bool): (r: Session)
    ensures !confirmed ==> r == s
    ensures confirmed ==> MustRedirect(r) && "userRole" !in r
    ensures confirmed ==> forall k :: k in r <==> k in s && k != "isLoggedIn" && k != "userRole"
    ensures forall k :: k in r ==> k in s && r[k] == s[k]
  {
    if confirmed then s - {"isLoggedIn", "userRole"} else s
  }

  datatype DashAlert = DashAlert(kind: string, msg: string, time: string)

  datatype State = State(aqi: real, pm25: real, fireRisk: int, lastFireRisk: int,
                         alerts: seq<DashAlert>, window: seq<real>)

  const MaxData: nat := 20
  const MaxAlerts: nat := 20

  const Initial: State := State(45.0, 12.0, 2, 2, [], seq(MaxData, _ => 45.0))

  /** `clamp(val, min, max)` as `Math.min(max, Math.max(min, val))`. */
  function Clamp(v: real, lo: real, hi: real): (r: real)
    ensures lo <= hi ==> lo <= r <= hi
    ensures lo <= v <= hi ==> r == v
    ensures lo <= hi && v < lo ==> r == lo
    ensures lo <= hi && v > hi ==> r == hi
  {
    var m := if v >= lo then v else lo;
    if m <= hi then m else hi
  }

  /** Clamping is monotone: a larger input never gives a smaller output. */
  lemma ClampMonotone(a: real, b: real, lo: real, hi: real)
    requires a <= b
    ensures Clamp(a, lo, hi) <= Clamp(b, lo, hi)
  {
  }

  datatype AqiClass = Good | Moderate | Unhealthy
  datatype FireClass = Low | Elevated | High

  /** The AQI card's text. */
  function ClassifyAqi(aqi: real): (c: AqiClass)
    ensures c == Good <==> aqi < 50.0
    ensures c == Moderate <==> 50.0 <= aqi < 100.0
    ensures c == Unhealthy <==> aqi >= 100.0
  {
    if aqi < 50.0 then Good else if aqi < 100.0 then Moderate else Unhealthy
  }

  /** The fire card's text. */
  function ClassifyFire(risk: int): (c: FireClass)
    ensures c == High <==> risk > 50
    ensures c == Elevated <==> 20 < risk <= 50
    ensures c == Low <==> risk <= 20
  {
    if risk > 50 then High else if risk > 20 then Elevated else Low
  }

  function AqiRank(c: AqiClass): nat
  {
    match c
    case Good => 0
    case Moderate => 1
    case Unhealthy => 2
  }

  function FireRank(c: FireClass): nat
  {
    match c
    case Low => 0
    case Elevated => 1
    case High => 2
  }

  /** Worse readings never get a milder label, and the emergency threshold lies inside HIGH. */
  lemma ClassifiersMonotone(a: real, b: real, x: int, y: int)
    requires a <= b && x <= y
    ensures AqiRank(ClassifyAqi(a)) <= AqiRank(ClassifyAqi(b))
    ensures FireRank(ClassifyFire(x)) <= FireRank(ClassifyFire(y))
    ensures IsEmergency(x) ==> ClassifyFire(x) == High
  {
  }

  /** `checkHazards`: the emergency box is active above 60% fire risk. */
  predicate IsEmergency(fireRisk: int)
  {
    fireRisk > 60
  }

  datatype Insight = Improved(percent: int) | Rising | PurifierTurbo | PurifierEco | ThermalAnomaly

  /** `addAlert`: newest first, the oldest dropped past 20. */
  function AddAlert(alerts: seq<DashAlert>, kind: string, msg: string, time: string): (r: seq<DashAlert>)
    ensures 1 <= |r| <= |alerts| + 1 && r[0] == DashAlert(kind, msg, time)
    ensures |alerts| <= MaxAlerts ==> |r| <= MaxAlerts
    ensures forall k :: 1 <= k < |r| ==> r[k] == alerts[k - 1]
  {
    PrependCapped(alerts, DashAlert(kind, msg, time), MaxAlerts)
  }

  /** The feed shows the five newest alerts, each prepended in turn, so oldest of the five on top. */
  function FeedRows(alerts: seq<DashAlert>): (r: Option<seq<DashAlert>>)
    ensures |alerts| == 0 <==> r.None?
    ensures r.Some? ==> |r.value| == Min(|alerts|, 5)
    ensures r.Some? ==> forall k :: 0 <= k < |r.value| ==> r.value[k] == alerts[|r.value| - 1 - k]
  {
    if |alerts| == 0 then None else Some(Reverse(Slice(alerts, 0, 5)))
  }

  /** The insights `checkInsights` lists, given the trend against the oldest charted value. */
  function Insights(aqi: real, oldest: real, fireRisk: int, lastFireRisk: int): (r: seq<Insight>)
    ensures ThermalAnomaly in r <==> fireRisk > 0 && fireRisk > lastFireRisk
    ensures PurifierTurbo in r <==> aqi > 100.0
    ensures PurifierEco in r <==> aqi <= 100.0
    ensures Rising in r <==> aqi - oldest > 10.0
    ensures (exists p :: Improved(p) in r) <==> aqi - oldest < -5.0
  {
    var trend := aqi - oldest;
    var t := if trend < -5.0 then [Improved(RoundHalfUpAbs(trend))] else if trend > 10.0 then [Rising] else [];
    var p := if aqi > 100.0 then [PurifierTurbo] else [PurifierEco];
    var f := if fireRisk > 0 && fireRisk > lastFireRisk then [ThermalAnomaly] else [];
    assert t + p + f == t + (p + f);
    assert forall x :: x in t + p + f <==> x in t || x in p || x in f;
    t + p + f
  }

  /** `Math.abs(Math.round(x))`. */
  function RoundHalfUpAbs(x: real): (r: nat)
  {
    var n := (x + 0.5).Floor;
    if n < 0 then -n else n
  }

  /** The random draws of one tick, each in [0, 1). */
  datatype Draws = Draws(walk: real, pm: real, fire: real, alert: real)

  /** One `tick` at clock text `time`: returns the new state and the insights shown. */
  function Tick(s: State, d: Draws, time: string): (r: (State, seq<Insight>))
    ensures 20.0 <= r.0.aqi <= 150.0
    ensures d.fire > 0.995 ==> r.0.fireRisk == Min(100, s.fireRisk + 25)
    ensures d.fire <= 0.995 ==> r.0.fireRisk == Max(0, s.fireRisk - 1)
    ensures r.0.lastFireRisk == r.0.fireRisk
    ensures |r.0.window| == |s.window|
    ensures |s.window| > 0 ==> r.0.window[|r.0.window| - 1] == r.0.aqi
    ensures forall k :: 0 <= k < |s.window| - 1 ==> r.0.window[k] == s.window[k + 1]
    ensures |r.0.window| > 0 ==> r.1 == Insights(r.0.aqi, r.0.window[0], r.0.fireRisk, s.lastFireRisk)
    ensures ThermalAnomaly in r.1 <==> r.0.fireRisk > 0 && r.0.fireRisk > s.lastFireRisk
    ensures IsEmergency(r.0.fireRisk) && d.alert > 0.8 ==>
              r.0.alerts == AddAlert(s.alerts, "CRITICAL", "High Smoke Levels - Starting Extraction", time)
    ensures !(IsEmergency(r.0.fireRisk) && d.alert > 0.8) ==> r.0.alerts == s.alerts
  {
    var aqi := Clamp(s.aqi + (d.walk - 0.5) * 5.0, 20.0, 150.0);
    var pm := aqi * 0.4 + d.pm * 5.0;
    var risk := if d.fire > 0.995 then Min(100, s.fireRisk + 25) else Max(0, s.fireRisk - 1);
    var window := PushShift(s.window, aqi);
    var oldest := if |window| > 0 then window[0] else aqi;
    var insights := Insights(aqi, oldest, risk, s.lastFireRisk);
    var alerts := if IsEmergency(risk) && d.alert > 0.8
                  then AddAlert(s.alerts, "CRITICAL", "High Smoke Levels - Starting Extraction", time)
                  else s.alerts;
    (State(aqi, pm, risk, risk, alerts, window), insights)
  }

  /** What every reachable dashboard state satisfies. */
  predicate Inv(s: State)
  {
    20.0 <= s.aqi <= 150.0 && 0 <= s.fireRisk <= 100 && s.lastFireRisk == s.fireRisk
    && |s.alerts| <= MaxAlerts && |s.window| == MaxData
  }

  lemma InitialInv()
    ensures Inv(Initial)
  {
  }

  /** Each tick keeps AQI in [20, 150], fire risk in [0, 100], the alert list at most 20
      long and the chart window exactly 20 long. */
  lemma TickKeepsInv(s: State, d: Draws, time: string)
    requires Inv(s)
    ensures Inv(Tick(s, d, time).0)
  {
  }

  /** From a reachable state, the thermal insight appears exactly on ticks whose fire draw hit
      while the risk was still below 100. */
  lemma ThermalIffFireEvent(s: State, d: Draws, time: string)
    requires Inv(s)
    ensures ThermalAnomaly in Tick(s, d, time).1 <==> d.fire > 0.995 && s.fireRisk < 100
  {
  }

  /** Many ticks in a row. */
  function Run(s: State, ds: seq<Draws>, time: string): State
    decreases |ds|
  {
    if |ds| == 0 then s else Run(Tick(s, ds[0], time).0, ds[1..], time)
  }

  /** Any run of ticks from the initial state stays within the invariant. */
  lemma {:induction false} RunKeepsInv(s: State, ds: seq<Draws>, time: string)
    requires Inv(s)
    ensures Inv(Run(s, ds, time))
    decreases |ds|
  {
    if |ds| > 0 {
      TickKeepsInv(s, ds[0], time);
      RunKeepsInv(Tick(s, ds[0], time).0, ds[1..], time);
    }
  }

  /** Without fire draws the risk never rises: after `n` quiet ticks it is at most what it
      was, and down by `n` unless it reached 0. */
  lemma {:induction false} QuietRunLowersRisk(s: State, ds: seq<Draws>, time: string)
    requires 0 <= s.fireRisk
    requires forall k :: 0 <= k < |ds| ==> ds[k].fire <= 0.995
    ensures Run(s, ds, time).fireRisk == Max(0, s.fireRisk - |ds|)
    decreases |ds|
  {
    if |ds| > 0 {
      QuietRunLowersRisk(Tick(s, ds[0], time).0, ds[1..], time);
    }
  }
}

=== FILE: devices.dfy ===
/** The device-control panel: the air-purifier switches and the enabling rule
    of its controls, the confirmation modal with its pending action, the manual
    fire alarm and its lockout of the purifier, and the long-press emergency
    stop. */
module Devices {
  import opened Common

  datatype State = State(masterPower: bool, autoMode: bool, fanSpeed: int, fireAlarmActive: bool,
                         emergencyMode: bool)

  const InitialState: State := State(false, true, 0, false, false)

  /** What `updateAirUI` sets: whether the auto toggle and the fan slider are disabled, and
      whether the status reads OPERATIONAL. */
  datatype AirUi = AirUi(autoDisabled: bool, sliderDisabled: bool, operational: bool)

  /** Power off disables both controls; power on enables the auto toggle and disables the
      slider exactly in auto mode. */
  function AirUiFor(masterPower: bool, autoMode: bool): (u: AirUi)
    ensures !masterPower ==> u.autoDisabled && u.sliderDisabled && !u.operational
    ensures masterPower ==> !u.autoDisabled && u.operational && (u.sliderDisabled <==> autoMode)
    ensures u.sliderDisabled <==> !masterPower || autoMode
  {
    if !masterPower then AirUi(true, true, false)
    else AirUi(false, autoMode, true)
  }

  datatype Action = ActivateAlarm | SmokeExtraction

  /** The panel: the state, the purifier controls as drawn, the power checkbox, the modal, the
      pending action, and the two visible effects (the lock banner, the extraction button). */
  datatype Panel = Panel(state: State, ui: AirUi, powerChecked: bool, modalOpen: bool,
                         pending: Option<Action>, lockShown: bool, extracting: bool)

  /** The controls as drawn agree with the state. */
  predicate UiAgrees(p: Panel)
  {
    p.ui == AirUiFor(p.state.masterPower, p.state.autoMode)
  }

  /** Page load: `STATE` and the first `updateAirUI`. */
  const Initial: Panel := Panel(InitialState, AirUiFor(false, true), false, false, None, false, false)

  lemma InitialPanel()
    ensures UiAgrees(Initial) && !Initial.state.masterPower && Initial.state.autoMode
    ensures Initial.state.fanSpeed == 0 && !Initial.state.fireAlarmActive && !Initial.state.emergencyMode
    ensures Initial.ui.autoDisabled && Initial.ui.sliderDisabled && Initial.pending.None?
  {
  }

  /** The power checkbox changed to `checked`. */
  function PowerChange(p: Panel, checked: bool): (r: Panel)
    ensures r.state == p.state.(masterPower := checked) && r.powerChecked == checked && UiAgrees(r)
    ensures r == p.(state := r.state, powerChecked := r.powerChecked, ui := r.ui)
  {
    var s := p.state.(masterPower := checked);
    p.(state := s, powerChecked := checked, ui := AirUiFor(s.masterPower, s.autoMode))
  }

  /** The auto-mode checkbox changed to `checked`; a disabled checkbox raises no change event,
      so while the toggle is drawn disabled the panel stays as it is. */
  function AutoChange(p: Panel, checked: bool): (r: Panel)
    ensures p.ui.autoDisabled ==> r == p
    ensures !p.ui.autoDisabled ==> r.state == p.state.(autoMode := checked) && UiAgrees(r)
    ensures !p.ui.autoDisabled ==> r.powerChecked == p.powerChecked && r.pending == p.pending
    ensures !p.ui.autoDisabled ==> r == p.(state := r.state, ui := r.ui)
  {
    if p.ui.autoDisabled then p
    else
      var s := p.state.(autoMode := checked);
      p.(state := s, ui := AirUiFor(s.masterPower, s.autoMode))
  }

  /** The fan slider moved to `v`. */
  function FanInput(p: Panel, v: int): (r: Panel)
    ensures r.state == p.state.(fanSpeed := v) && r.ui == p.ui
    ensures r == p.(state := r.state)
  {
    p.(state := p.state.(fanSpeed := v))
  }

  /** `confirmAction(actionType)`: the modal opens; the two known action types become the
      pending action, any other leaves the pending action as it was. */
  function ConfirmAction(p: Panel, actionType: string): (r: Panel)
    ensures r.modalOpen && r.state == p.state && r.ui == p.ui
    ensures actionType == "activateAlarm" ==> r.pending == Some(ActivateAlarm)
    ensures actionType == "smokeExtraction" ==> r.pending == Some(SmokeExtraction)
    ensures actionType != "activateAlarm" && actionType != "smokeExtraction" ==> r.pending == p.pending
    ensures r == p.(modalOpen := r.modalOpen, pending := r.pending)
  {
    var pending :=
      if actionType == "activateAlarm" then Some(ActivateAlarm)
      else if actionType == "smokeExtraction" then Some(SmokeExtraction)
      else p.pending;
    p.(modalOpen := true, pending := pending)
  }

  /** `closeModal`: the modal closes and nothing is pending. */
  function CloseModal(p: Panel): (r: Panel)
    ensures !r.modalOpen && r.pending.None?
    ensures r.state == p.state && r.ui == p.ui && r.powerChecked == p.powerChecked
    ensures r == p.(modalOpen := r.modalOpen, pending := r.pending)
  {
    p.(modalOpen := false, pending := None)
  }

  /** `triggerFireAlarm` then `lockAirControls`, as written: the alarm is on, the power is forced
      off and unchecked and the lock banner shows, but the controls are not redrawn. */
  function TriggerFireAlarm(p: Panel): (r: Panel)
    ensures r.state.fireAlarmActive && !r.state.masterPower && !r.powerChecked && r.lockShown
    ensures r.state.autoMode == p.state.autoMode && r.state.fanSpeed == p.state.fanSpeed
    ensures r.ui == p.ui
    ensures r.state == p.state.(fireAlarmActive := r.state.fireAlarmActive, masterPower := r.state.masterPower)
    ensures r == p.(state := r.state, powerChecked := r.powerChecked, lockShown := r.lockShown)
  {
    p.(state := p.state.(fireAlarmActive := true, masterPower := false), powerChecked := false, lockShown := true)
  }

  /** The lockout redraws the purifier controls with the power off. */
  function TriggerFireAlarmFixed(p: Panel): (r: Panel)
    ensures r.state.fireAlarmActive && !r.state.masterPower && !r.powerChecked && r.lockShown
    ensures r.state.autoMode == p.state.autoMode && r.state.fanSpeed == p.state.fanSpeed
    ensures r.ui.autoDisabled && r.ui.sliderDisabled && !r.ui.operational
    ensures r.state == p.state.(fireAlarmActive := r.state.fireAlarmActive, masterPower := r.state.masterPower)
    ensures r == p.(state := r.state, powerChecked := r.powerChecked, lockShown := r.lockShown, ui := r.ui)
  {
    var q := TriggerFireAlarm(p);
    q.(ui := AirUiFor(false, q.state.autoMode))
  }

  /** `enableSmokeExtraction`: the extraction button shows ACTIVE. */
  function EnableSmokeExtraction(p: Panel): (r: Panel)
    ensures r.extracting && r.state == p.state && r.ui == p.ui
    ensures r == p.(extracting := true)
  {
    p.(extracting := true)
  }

  /** The modal's confirm button: run the pending action, if any, then close the modal. The
      alarm runs as written, leaving the purifier controls as they were drawn. */
  function ModalConfirm(p: Panel): (r: Panel)
    ensures !r.modalOpen && r.pending.None?
    ensures p.pending == Some(ActivateAlarm) ==>
              r.state.fireAlarmActive && !r.state.masterPower && r.lockShown && r.ui == p.ui
    ensures p.pending == Some(SmokeExtraction) ==> r.extracting && r.state == p.state && r.ui == p.ui
    ensures p.pending.None? ==> r.state == p.state && r.ui == p.ui
    ensures p.pending == Some(ActivateAlarm) ==>
              r.state == p.state.(fireAlarmActive := true, masterPower := false)
              && r == p.(state := r.state, powerChecked := false, lockShown := true,
                         modalOpen := false, pending := None)
    ensures p.pending == Some(SmokeExtraction) ==> r == p.(extracting := true, modalOpen := false, pending := None)
    ensures p.pending.None? ==> r == p.(modalOpen := false)
  {
    var q :=
      match p.pending
      case None => p
      case Some(ActivateAlarm) => TriggerFireAlarm(p)
      case Some(SmokeExtraction) => EnableSmokeExtraction(p);
    CloseModal(q)
  }

  /** The confirm button with the corrected alarm, which redraws the controls powered off. */
  function ModalConfirmFixed(p: Panel): (r: Panel)
    ensures !r.modalOpen && r.pending.None?
    ensures p.pending == Some(ActivateAlarm) ==>
              r.state.fireAlarmActive && !r.state.masterPower && r.lockShown
              && r.ui.autoDisabled && r.ui.sliderDisabled && !r.ui.operational
    ensures p.pending != Some(ActivateAlarm) ==> r == ModalConfirm(p)
    ensures p.pending == Some(ActivateAlarm) ==>
              r.state == p.state.(fireAlarmActive := true, masterPower := false)
              && r == p.(state := r.state, ui := r.ui, powerChecked := false, lockShown := true,
                         modalOpen := false, pending := None)
  {
    var q :=
      match p.pending
      case None => p
      case Some(ActivateAlarm) => TriggerFireAlarmFixed(p)
      case Some(SmokeExtraction) => EnableSmokeExtraction(p);
    CloseModal(q)
  }

  /** Confirming an alarm with the purifier on and in manual mode leaves the slider drawn
      enabled and the status OPERATIONAL although the power is now off. */
  lemma AlarmLeavesControlsEnabled()
    ensures var p := ConfirmAction(AutoChange(PowerChange(Initial, true), false), "activateAlarm");
            var q := ModalConfirm(p);
            UiAgrees(p) && !q.state.masterPower && !q.ui.sliderDisabled && q.ui.operational
            && !UiAgrees(q)
  {
  }

  /** Every step of the corrected panel keeps the controls as drawn in agreement with the state. */
  lemma StepsKeepUiAgreement(p: Panel, b: bool, v: int, t: string)
    requires UiAgrees(p)
    ensures UiAgrees(PowerChange(p, b)) && UiAgrees(AutoChange(p, b)) && UiAgrees(FanInput(p, v))
    ensures UiAgrees(ConfirmAction(p, t)) && UiAgrees(CloseModal(p)) && UiAgrees(ModalConfirmFixed(p))
    ensures UiAgrees(TriggerFireAlarmFixed(p))
  {
    PowerAgrees(p, b);
    AutoAgrees(p, b);
    FanAgrees(p, v);
    ModalAgrees(p, t);
    FixedAlarmAgrees(p);
    ModalConfirmAgrees(p);
  }

  /** The power switch keeps the drawn controls in agreement. */
  lemma PowerAgrees(p: Panel, b: bool)
    ensures UiAgrees(PowerChange(p, b))
  {
  }

  /** The auto toggle keeps the drawn controls in agreement, whether it is enabled or not. */
  lemma AutoAgrees(p: Panel, b: bool)
    requires UiAgrees(p)
    ensures UiAgrees(AutoChange(p, b))
  {
  }

  /** The fan slider changes nothing that is drawn. */
  lemma FanAgrees(p: Panel, v: int)
    requires UiAgrees(p)
    ensures UiAgrees(FanInput(p, v))
  {
  }

  /** Opening and closing the modal leave the drawn controls and the state alone. */
  lemma ModalAgrees(p: Panel, t: string)
    requires UiAgrees(p)
    ensures UiAgrees(ConfirmAction(p, t)) && UiAgrees(CloseModal(p))
  {
  }

  /** The corrected alarm draws the controls of its own state. */
  lemma FixedAlarmAgrees(p: Panel)
    ensures UiAgrees(TriggerFireAlarmFixed(p))
  {
  }

  /** Whichever action is pending, confirming keeps the drawn controls in agreement. */
  lemma ModalConfirmAgrees(p: Panel)
    requires UiAgrees(p)
    ensures UiAgrees(ModalConfirmFixed(p))
  {
    match p.pending
    case None =>
    case Some(ActivateAlarm) =>
      FixedAlarmAgrees(p);
      assert ModalConfirmFixed(p) == CloseModal(TriggerFireAlarmFixed(p));
    case Some(SmokeExtraction) =>
      assert ModalConfirmFixed(p) == CloseModal(EnableSmokeExtraction(p));
  }

  /** An action runs only after it was asked for and confirmed: a confirm with nothing pending
      changes nothing but the modal, and a closed modal has nothing pending. */
  lemma ConfirmRunsOnlyPending(p: Panel, t: string)
    ensures !CloseModal(p).modalOpen && ModalConfirm(CloseModal(p)).state == p.state
    ensures t != "activateAlarm" && t != "smokeExtraction" && p.pending.None? ==>
              ModalConfirm(ConfirmAction(p, t)).state == p.state
    ensures ModalConfirm(ConfirmAction(p, "activateAlarm")).state.fireAlarmActive
  {
  }

  const LongPressMs: nat := 3000

  /** The ring's progress after `elapsed` ms: `min(elapsed / 3000, 1)`. */
  function Progress(elapsed: int): (r: real)
    ensures r <= 1.0
    ensures elapsed >= 0 ==> r >= 0.0
    ensures r == 1.0 <==> elapsed >= LongPressMs
    ensures 0 <= elapsed < LongPressMs ==> r * LongPressMs as real == elapsed as real
  {
    var x := elapsed as real / LongPressMs as real;
    if x <= 1.0 then x else 1.0
  }

  /** Progress never falls back while the button is held. */
  lemma ProgressMonotone(a: int, b: int)
    requires a <= b
    ensures Progress(a) <= Progress(b)
  {
  }

  /** `performEmergencyShutdown`. */
  function EmergencyShutdown(p: Panel): (r: Panel)
    ensures r.state.emergencyMode && r.state == p.state.(emergencyMode := true)
    ensures r == p.(state := r.state)
  {
    p.(state := p.state.(emergencyMode := true))
  }

  /** A press held for `heldMs` before release: the shutdown fires only for a full three seconds. */
  function LongPress(p: Panel, heldMs: nat): (r: Panel)
    ensures heldMs >= LongPressMs ==> r.state.emergencyMode && r == EmergencyShutdown(p)
    ensures heldMs < LongPressMs ==> r == p
    ensures r.state.emergencyMode ==> Progress(heldMs) == 1.0 || p.state.emergencyMode
  {
    if heldMs >= LongPressMs then EmergencyShutdown(p) else p
  }
}

=== FILE: export.dfy ===
/** The data-export page: the mock record generator with its category and
    severity filters, the preview, the CSV and tab-separated serialisers, the
    empty-selection guard and the five-entry export history. */
module Export {
  import opened Common
  import opened Bounded

  /** One generated record. */
  datatype Record = Record(id: nat, time: string, category: string, event: string, val: int, status: string)

  /** The four random draws behind one candidate record, each in [0, 1). */
  datatype RecordDraws = RecordDraws(status: real, minute: real, event: real, val: real)

  predicate ValidDraws(ds: seq<RecordDraws>)
  {
    forall k :: 0 <= k < |ds| ==>
      0.0 <= ds[k].status < 1.0 && 0.0 <= ds[k].minute < 1.0 && 0.0 <= ds[k].event < 1.0 && 0.0 <= ds[k].val < 1.0
  }

  /** The number of candidate records from its draw: 50 to 249. */
  function CandidateCount(u: real): (n: nat)
    requires 0.0 <= u < 1.0
    ensures 50 <= n <= 249
  {
    (u * 200.0).Floor + 50
  }

  /** The status from its draw: above 0.95 critical, above 0.8 a warning, else normal. */
  function StatusOf(rnd: real): (s: string)
    ensures s == "Critical" <==> rnd > 0.95
    ensures s == "Warning" <==> 0.8 < rnd <= 0.95
    ensures s == "Normal" <==> rnd <= 0.8
  {
    if rnd > 0.95 then "Critical" else if rnd > 0.8 then "Warning" else "Normal"
  }

  const AirEvents: seq<string> := ["AQI Reading", "Filter Status", "Fan Speed"]
  const FireEvents: seq<string> := ["Smoke Check", "Temp Scan", "Alarm Test"]
  const OpsEvents: seq<string> := ["System Boot", "User Login", "Config Change"]

  /** The event pool: all nine for "all", the category's three for a known category, and the
      air events for anything else. */
  function Pool(category: string): (r: seq<string>)
    ensures category == "all" ==> r == AirEvents + FireEvents + OpsEvents
    ensures category == "fire" ==> r == FireEvents
    ensures category == "ops" ==> r == OpsEvents
    ensures category !in {"all", "fire", "ops"} ==> r == AirEvents
    ensures |r| > 0
  {
    if category == "all" then AirEvents + FireEvents + OpsEvents
    else if category == "fire" then FireEvents
    else if category == "ops" then OpsEvents
    else AirEvents
  }

  /** The category column: "System" for "all", else the category in upper case. */
  function CategoryLabel(category: string): (r: string)
    ensures category == "all" ==> r == "System"
    ensures category != "all" ==> Lower(r) == Lower(category) && |r| == |category|
    ensures category != "all" ==> forall k :: 0 <= k < |r| ==> !('a' <= r[k] <= 'z')
  {
    if category == "all" then "System" else (LowerOfUpper(category); Upper(category))
  }

  /** The severity filter: "all" admits everything, anything else compares case-insensitively. */
  predicate Admits(severity: string, status: string)
  {
    severity == "all" || Lower(severity) == Lower(status)
  }

  /** The severity filter as a test on records. */
  function SeverityTest(severity: string): Record -> bool
  {
    (x: Record) => Admits(severity, x.status)
  }

  /** The record candidate `i` would become. */
  function Candidate(category: string, i: nat, d: RecordDraws): (r: Record)
    requires 0.0 <= d.minute < 1.0 && 0.0 <= d.event < 1.0 && 0.0 <= d.val < 1.0
    ensures r.id == i && r.status == StatusOf(d.status) && r.category == CategoryLabel(category)
    ensures r.event in Pool(category) && 0 <= r.val <= 99
  {
    var pool := Pool(category);
    Record(i, "2025-12-28 " + NatToString(10 + i % 12) + ":" + NatToString((d.minute * 60.0).Floor),
           CategoryLabel(category), pool[(d.event * |pool| as real).Floor], (d.val * 100.0).Floor, StatusOf(d.status))
  }

  /** Every candidate, in the order the loop visits them. */
  function Candidates(category: string, ds: seq<RecordDraws>): (r: seq<Record>)
    requires ValidDraws(ds)
    ensures |r| == |ds|
    ensures forall k :: 0 <= k < |r| ==> r[k] == Candidate(category, k, ds[k])
  {
    seq(|ds|, (k: int) requires 0 <= k < |ds| => Candidate(category, k, ds[k]))
  }

  /** `generateMockData(filters)` with one draw set per candidate: the admitted candidates,
      newest (highest index) first. */
  method GenerateMockData(category: string, severity: string, ds: seq<RecordDraws>) returns (r: seq<Record>)
    requires ValidDraws(ds)
    ensures r == Reverse(Filter(Candidates(category, ds), SeverityTest(severity)))
    ensures |r| <= |ds|
    ensures forall a, b :: 0 <= a < b < |r| ==> r[a].id > r[b].id
  {
    var p := SeverityTest(severity);
    var cands := Candidates(category, ds);
    var pushed := PushPassing(cands, p);
    CandidateIdsAscending(category, ds);
    FilterKeepsIdOrder(cands, p);
    r := Reverse(pushed);
    ReversedIdsDescending(pushed);
  }

  /** The generator's loop: every element that passes, pushed in the order visited. */
  method PushPassing<T(==)>(xs: seq<T>, p: T -> bool) returns (pushed: seq<T>)
    ensures pushed == Filter(xs, p)
  {
    pushed := [];
    var i := 0;
    while i < |xs|
      invariant 0 <= i <= |xs|
      invariant pushed == Filter(xs[..i], p)
    {
      FilterStep(xs, i, p);
      if p(xs[i]) {
        pushed := pushed + [xs[i]];
      }
      i := i + 1;
    }
    assert xs[..|xs|] == xs;
  }

  /** The ids strictly increase along the list. */
  predicate IdsAscending(xs: seq<Record>)
  {
    forall a, b :: 0 <= a < b < |xs| ==> xs[a].id < xs[b].id
  }

  /** Candidate `k` carries id `k`, so the candidates' ids increase. */
  lemma CandidateIdsAscending(category: string, ds: seq<RecordDraws>)
    requires ValidDraws(ds)
    ensures var c := Candidates(category, ds);
            IdsAscending(c)
  {
    var c := Candidates(category, ds);
    forall a, b | 0 <= a < b < |c| ensures c[a].id < c[b].id {
      assert c[a].id == a && c[b].id == b;
    }
  }

  /** A list with increasing ids, reversed, has decreasing ids. */
  lemma ReversedIdsDescending(xs: seq<Record>)
    requires IdsAscending(xs)
    ensures forall a, b :: 0 <= a < b < |Reverse(xs)| ==> Reverse(xs)[a].id > Reverse(xs)[b].id
  {
    var r := Reverse(xs);
    forall a, b | 0 <= a < b < |r| ensures r[a].id > r[b].id {
      assert r[a] == xs[|xs| - 1 - a] && r[b] == xs[|xs| - 1 - b];
    }
  }

  /** Filtering a list with increasing ids leaves the ids increasing. */
  lemma {:induction false} FilterKeepsIdOrder(xs: seq<Record>, p: Record -> bool)
    requires IdsAscending(xs)
    ensures IdsAscending(Filter(xs, p))
  {
    if |xs| > 0 {
      var tail := xs[1..];
      var ft := Filter(tail, p);
      assert Filter(xs, p) == (if p(xs[0]) then [xs[0]] else []) + ft;
      TailIdsAscending(xs);
      FilterKeepsIdOrder(tail, p);
      if p(xs[0]) {
        FilterMembers(tail, p);
        HeadIdBeforeRest(xs, ft);
        ConsIdOrder(xs[0], ft);
      } else {
        assert Filter(xs, p) == ft;
      }
    }
  }

  lemma TailIdsAscending(xs: seq<Record>)
    requires |xs| > 0 && IdsAscending(xs)
    ensures IdsAscending(xs[1..])
  {
    var t := xs[1..];
    forall a, b | 0 <= a < b < |t| ensures t[a].id < t[b].id {
      assert t[a] == xs[a + 1] && t[b] == xs[b + 1];
    }
  }

  /** The first record of a list with increasing ids has a smaller id than any record drawn
      from the rest. */
  lemma HeadIdBeforeRest(xs: seq<Record>, rest: seq<Record>)
    requires |xs| > 0 && IdsAscending(xs)
    requires forall k :: 0 <= k < |rest| ==> rest[k] in xs[1..]
    ensures forall k :: 0 <= k < |rest| ==> xs[0].id < rest[k].id
  {
    forall k | 0 <= k < |rest| ensures xs[0].id < rest[k].id {
      var t := xs[1..];
      var j :| 0 <= j < |t| && t[j] == rest[k];
      assert xs[j + 1] == t[j];
    }
  }

  /** A record with a smaller id than every record of an increasing list can go in front. */
  lemma ConsIdOrder(x: Record, rest: seq<Record>)
    requires IdsAscending(rest)
    requires forall k :: 0 <= k < |rest| ==> x.id < rest[k].id
    ensures IdsAscending([x] + rest)
  {
    var r := [x] + rest;
    assert forall k :: 0 < k < |r| ==> r[k] == rest[k - 1];
  }

  /** The filter over one more element: the old result, then the element if it passes. */
  lemma FilterStep<T>(xs: seq<T>, i: nat, p: T -> bool)
    requires i < |xs|
    ensures Filter(xs[..i + 1], p) == Filter(xs[..i], p) + (if p(xs[i]) then [xs[i]] else [])
  {
    assert xs[..i + 1] == xs[..i] + [xs[i]];
    FilterAppend(xs[..i], [xs[i]], p);
    assert Filter([xs[i]], p) == (if p(xs[i]) then [xs[i]] else []) by {
      assert [xs[i]][1..] == [];
    }
  }

  /** Every generated record passes the severity filter and carries the category's label, an
      event of the category's pool and a value from 0 to 99. */
  lemma GeneratedRecords(category: string, severity: string, ds: seq<RecordDraws>)
    requires ValidDraws(ds)
    ensures var r := Reverse(Filter(Candidates(category, ds), SeverityTest(severity)));
            forall k :: 0 <= k < |r| ==>
              Admits(severity, r[k].status) && r[k].category == CategoryLabel(category)
              && r[k].event in Pool(category) && 0 <= r[k].val <= 99 && r[k].id < |ds|
  {
    var r := Reverse(Filter(Candidates(category, ds), SeverityTest(severity)));
    ReversedFilterFrom(Candidates(category, ds), SeverityTest(severity), r);
    forall k | 0 <= k < |r|
      ensures Admits(severity, r[k].status) && r[k].category == CategoryLabel(category)
              && r[k].event in Pool(category) && 0 <= r[k].val <= 99 && r[k].id < |ds|
    {
      CandidateShape(category, ds, r[k]);
    }
  }

  /** Every element of a reversed filter result comes from the input and passes the test. */
  lemma ReversedFilterFrom<T>(xs: seq<T>, p: T -> bool, r: seq<T>)
    requires r == Reverse(Filter(xs, p))
    ensures forall k :: 0 <= k < |r| ==> r[k] in xs && p(r[k])
  {
    var f := Filter(xs, p);
    FilterMembers(xs, p);
    forall k | 0 <= k < |r| ensures r[k] in xs && p(r[k]) {
      var j := |f| - 1 - k;
      assert f[j] in xs && p(f[j]);
      assert r[k] == f[j];
    }
  }

  /** Every candidate carries the category's label, an event of its pool, a value from 0 to 99
      and an id below the number of draws. */
  lemma CandidateShape(category: string, ds: seq<RecordDraws>, x: Record)
    requires ValidDraws(ds)
    requires x in Candidates(category, ds)
    ensures x.category == CategoryLabel(category) && x.event in Pool(category)
    ensures 0 <= x.val <= 99 && x.id < |ds|
  {
    var cands := Candidates(category, ds);
    var j :| 0 <= j < |cands| && cands[j] == x;
  }

  /** With the severity filter at "all" every candidate is kept. */
  lemma AllSeveritiesKeepEverything(category: string, ds: seq<RecordDraws>)
    requires ValidDraws(ds)
    ensures Filter(Candidates(category, ds), SeverityTest("all")) == Candidates(category, ds)
  {
    FilterKeepsAll(Candidates(category, ds), SeverityTest("all"));
  }

  /** The filter is case-insensitive: "WARNING" and "warning" select the same records. */
  lemma SeverityCaseIgnored(severity: string, status: string)
    requires severity != "all" && Upper(severity) != "all"
    ensures Admits(Upper(severity), status) == Admits(severity, status)
  {
    LowerOfUpper(severity);
  }

  /** The preview table: the first 50 records. */
  function PreviewRows(data: seq<Record>): (r: seq<Record>)
    ensures |r| == Min(50, |data|)
    ensures r == data[..|r|]
  {
    Slice(data, 0, 50)
  }

  /** The "x of n Recs" counter. */
  function RowCountText(data: seq<Record>): (r: string)
    ensures exists a, b :: r == a + " of " + b + " Recs"
                           && ParseDecimal(a) == Some(Min(50, |data|)) && ParseDecimal(b) == Some(|data|)
  {
    var a := NatToString(Min(50, |data|));
    var b := NatToString(|data|);
    ParseNatToString(Min(50, |data|));
    ParseNatToString(|data|);
    assert ParseDecimal(a) == Some(Min(50, |data|)) && ParseDecimal(b) == Some(|data|);
    a + " of " + b + " Recs"
  }

  /** A decimal string's value, or nothing when it holds anything but digits or is empty. */
  function ParseDecimal(s: string): (r: Option<nat>)
    ensures r.Some? <==> |s| > 0 && forall k :: 0 <= k < |s| ==> IsDigit(s[k])
  {
    if |s| > 0 && forall k :: 0 <= k < |s| ==> IsDigit(s[k]) then Some(ParseNat(s)) else None
  }

  /** `${v}` for an integer. */
  function IntText(v: int): (r: string)
    ensures v >= 0 ==> ParseDecimal(r) == Some(v)
    ensures ',' !in r && '\n' !in r && '\t' !in r
  {
    if v >= 0 then (ParseNatToString(v); NatToString(v)) else "-" + NatToString(-v)
  }

  const CsvHeader: string := "Timestamp,Category,Event,Value,Status"

  function CsvFields(d: Record): seq<string>
  {
    [d.time, d.category, d.event, IntText(d.val), d.status]
  }

  function CsvLine(d: Record): string
  {
    Join(CsvFields(d), ',')
  }

  /** The CSV download: the header, then one comma-joined line per record, joined by newlines. */
  function CsvText(data: seq<Record>): string
  {
    Join([CsvHeader] + seq(|data|, (k: int) requires 0 <= k < |data| => CsvLine(data[k])), '\n')
  }

  /** No field holds a comma, tab or newline. */
  predicate PlainFields(d: Record)
  {
    ',' !in d.time && ',' !in d.category && ',' !in d.event && ',' !in d.status
    && '\n' !in d.time && '\n' !in d.category && '\n' !in d.event && '\n' !in d.status
    && '\t' !in d.time && '\t' !in d.event
  }

  /** Without commas or newlines in the fields, the CSV text splits back into the header and
      one line per record, and each line into the record's five fields in column order. */
  lemma CsvRoundTrip(data: seq<Record>)
    requires forall k :: 0 <= k < |data| ==> PlainFields(data[k])
    ensures var lines := Split(CsvText(data), '\n');
            |lines| == |data| + 1 && lines[0] == CsvHeader
            && forall k :: 0 <= k < |data| ==> Split(lines[k + 1], ',') == CsvFields(data[k])
  {
    var ls := [CsvHeader] + seq(|data|, (k: int) requires 0 <= k < |data| => CsvLine(data[k]));
    forall j | 0 <= j < |ls| ensures '\n' !in ls[j] {
      if j == 0 {
        CsvHeaderPlain();
      } else {
        assert ls[j] == CsvLine(data[j - 1]);
        CsvLineSplits(data[j - 1]);
      }
    }
    SplitJoin(ls, '\n');
    forall k | 0 <= k < |data| ensures Split(ls[k + 1], ',') == CsvFields(data[k]) {
      assert ls[k + 1] == CsvLine(data[k]);
      CsvLineSplits(data[k]);
    }
  }

  lemma CsvHeaderPlain()
    ensures '\n' !in CsvHeader
  {
  }

  /** One record's CSV line holds no newline and splits back into its five fields. */
  lemma CsvLineSplits(d: Record)
    requires PlainFields(d)
    ensures '\n' !in CsvLine(d) && Split(CsvLine(d), ',') == CsvFields(d)
  {
    JoinAvoids(CsvFields(d), ',', '\n');
    SplitJoin(CsvFields(d), ',');
  }

  const XlsHeader: string := "Timestamp\tEvent\tValue"

  function XlsLine(d: Record): string
  {
    d.time + "\t" + d.event + "\t" + IntText(d.val)
  }

  /** The spreadsheet download: a tab-separated header line, then the records' lines joined by
      newlines (so no trailing newline). */
  function XlsText(data: seq<Record>): string
  {
    XlsHeader + "\n" + Join(seq(|data|, (k: int) requires 0 <= k < |data| => XlsLine(data[k])), '\n')
  }

  /** With records present, the spreadsheet text splits into the header and one line per
      record, each line into time, event and value; with none it is the header and a newline. */
  lemma XlsRoundTrip(data: seq<Record>)
    requires forall k :: 0 <= k < |data| ==> PlainFields(data[k])
    ensures |data| == 0 ==> XlsText(data) == XlsHeader + "\n"
    ensures |data| > 0 ==>
              var lines := Split(XlsText(data), '\n');
              |lines| == |data| + 1 && lines[0] == XlsHeader
              && forall k :: 0 <= k < |data| ==>
                   Split(lines[k + 1], '\t') == [data[k].time, data[k].event, IntText(data[k].val)]
  {
    var body := seq(|data|, (k: int) requires 0 <= k < |data| => XlsLine(data[k]));
    if |data| > 0 {
      var ls := [XlsHeader] + body;
      JoinCons(XlsHeader, body, '\n');
      forall k | 0 <= k < |body| ensures '\n' !in body[k] {
        XlsLineSplits(data[k]);
      }
      XlsHeaderPlain();
      AvoidsCons(XlsHeader, body, '\n');
      SplitJoin(ls, '\n');
      forall k | 0 <= k < |data|
        ensures Split(ls[k + 1], '\t') == [data[k].time, data[k].event, IntText(data[k].val)]
      {
        assert ls[k + 1] == XlsLine(data[k]);
        XlsLineSplits(data[k]);
      }
    }
  }

  lemma XlsHeaderPlain()
    ensures '\n' !in XlsHeader
  {
  }

  /** Joining a head before a non-empty list puts one separator after the head. */
  lemma JoinCons(h: string, rest: seq<string>, sep: char)
    requires |rest| > 0
    ensures Join([h] + rest, sep) == h + [sep] + Join(rest, sep)
  {
    assert ([h] + rest)[1..] == rest;
  }

  /** One record's spreadsheet line holds no newline and splits back into time, event and value. */
  lemma XlsLineSplits(d: Record)
    requires PlainFields(d)
    ensures '\n' !in XlsLine(d)
    ensures Split(XlsLine(d), '\t') == [d.time, d.event, IntText(d.val)]
  {
    var fs := [d.time, d.event, IntText(d.val)];
    assert Join(fs[1..], '\t') == d.event + "\t" + IntText(d.val) by {
      assert fs[1..][1..] == [IntText(d.val)];
    }
    assert XlsLine(d) == Join(fs, '\t');
    JoinAvoids(fs, '\t', '\n');
    SplitJoin(fs, '\t');
  }

  datatype Format = Csv | Json | Xls

  /** The format radio value; anything but "csv" and "json" takes the spreadsheet branch. */
  function FormatOf(value: string): (f: Format)
    ensures f == Csv <==> value == "csv"
    ensures f == Json <==> value == "json"
  {
    if value == "csv" then Csv else if value == "json" then Json else Xls
  }

  /** What the download holds: text for CSV and the spreadsheet, the records themselves for
      JSON (whose serialisation is not modelled). */
  datatype Download = TextFile(content: string, mime: string) | JsonFile(records: seq<Record>)

  function DownloadFile(value: string, data: seq<Record>): (r: Download)
    ensures FormatOf(value) == Csv ==> r == TextFile(CsvText(data), "text/csv")
    ensures FormatOf(value) == Json ==> r == JsonFile(data)
    ensures FormatOf(value) == Xls ==> r == TextFile(XlsText(data), "application/vnd.ms-excel")
  {
    match FormatOf(value)
    case Csv => TextFile(CsvText(data), "text/csv")
    case Json => JsonFile(data)
    case Xls => TextFile(XlsText(data), "application/vnd.ms-excel")
  }

  /** One history entry. */
  datatype ExportItem = ExportItem(id: string, format: string, cat: string, date: string)

  const MaxHistory: nat := 5

  /** `addHistoryItem`: a new entry with an id "EXP-n" (n from a draw, below 1000), the format
      and category in upper case; newest first, at most five. */
  function AddHistoryItem(h: seq<ExportItem>, format: string, category: string, idDraw: real, date: string): (r: seq<ExportItem>)
    requires 0.0 <= idDraw < 1.0
    ensures 1 <= |r| <= |h| + 1
    ensures |h| <= MaxHistory ==> |r| <= MaxHistory
    ensures r[0].format == Upper(format) && r[0].cat == Upper(category) && r[0].date == date
    ensures |r[0].id| > 4 && r[0].id[..4] == "EXP-" && ParseDecimal(r[0].id[4..]).Some? && ParseDecimal(r[0].id[4..]).value < 1000
    ensures forall k :: 1 <= k < |r| ==> r[k] == h[k - 1]
  {
    var n := (idDraw * 1000.0).Floor;
    var id := "EXP-" + NatToString(n);
    assert id[4..] == NatToString(n);
    ParseNatToString(n);
    PrependCapped(h, ExportItem(id, Upper(format), Upper(category), date), MaxHistory)
  }

  /** `clearHistory`. */
  function ClearHistory(h: seq<ExportItem>): (r: seq<ExportItem>)
    ensures |r| == 0
  {
    []
  }

  /** `loadHistory`: the saved list if there is one, else the current one. */
  function LoadHistory(current: seq<ExportItem>, saved: Option<seq<ExportItem>>): (r: seq<ExportItem>)
    ensures saved.Some? ==> r == saved.value
    ensures saved.None? ==> r == current
  {
    if saved.Some? then saved.value else current
  }

  /** `startExport` through `finishExport`: refused on an empty selection, otherwise the download
      and the new history. */
  function StartExport(data: seq<Record>, format: string, category: string, h: seq<ExportItem>,
                       idDraw: real, date: string): (r: Option<(Download, seq<ExportItem>)>)
    requires 0.0 <= idDraw < 1.0
    ensures r.None? <==> |data| == 0
    ensures r.Some? ==> r.value.0 == DownloadFile(format, data)
                        && r.value.1 == AddHistoryItem(h, format, category, idDraw, date)
  {
    if |data| == 0 then None
    else Some((DownloadFile(format, data), AddHistoryItem(h, format, category, idDraw, date)))
  }

  /** A refused export leaves the history as it was; an accepted one grows it by one entry up
      to the cap of five. */
  lemma ExportHistoryGrowth(data: seq<Record>, format: string, category: string, h: seq<ExportItem>,
                            idDraw: real, date: string)
    requires 0.0 <= idDraw < 1.0
    requires |h| <= MaxHistory
    ensures var r := StartExport(data, format, category, h, idDraw, date);
            r.Some? ==> |r.value.1| == Min(|h| + 1, MaxHistory) && r.value.1[1..] == h[..|r.value.1| - 1]
  {
    var r := StartExport(data, format, category, h, idDraw, date);
    if r.Some? {
      var n := r.value.1;
      assert forall k :: 0 <= k < |n| - 1 ==> n[1..][k] == n[k + 1];
    }
  }

  datatype Colour = Red | Amber | Green

  /** `dColor`. */
  function StatusColour(s: string): (c: Colour)
    ensures c == Red <==> s == "Critical"
    ensures c == Amber <==> s == "Warning"
    ensures c == Green <==> s != "Critical" && s != "Warning"
  {
    if s == "Critical" then Red else if s == "Warning" then Amber else Green
  }

  /** Every generated record's status has the colour of its band of the status draw. */
  lemma ColourFollowsDraw(rnd: real)
    ensures StatusColour(StatusOf(rnd)) == (if rnd > 0.95 then Red else if rnd > 0.8 then Amber else Green)
  {
  }
}

=== FILE: history.dfy ===
/** The historical data page: the hourly log generator (shape and order), the
    date-range filter, the summary cards, the paged table with its search box,
    and the pagination controls. */
module History {
  import opened Common
  import opened Bounded

  /** One hourly reading; `status` is "Normal", "Warning" or "Emergency". */
  datatype Row = Row(timestamp: int, pm25: real, aqi: int, temp: real, status: string, action: string)

  /** One logged event; `severity` is "warning" or "danger". */
  datatype Event = Event(id: string, time: int, kind: string, severity: string, action: string)

  const RowsPerPage: nat := 10
  const HourMs: nat := 3600000

  /** `Math.round` on a real: halves go up. */
  function RoundHalfUp(x: real): (r: int)
    ensures r as real - 0.5 <= x < r as real + 0.5
  {
    (x + 0.5).Floor
  }

  /** `Math.round(total / n)` computed exactly: the integer nearest the mean, halves up. */
  function RoundedMean(total: int, n: nat): (avg: int)
    requires n > 0
    ensures 2 * avg * n - n <= 2 * total < 2 * avg * n + n
  {
    var q := (2 * total + n) / (2 * n);
    assert 2 * total + n == q * (2 * n) + (2 * total + n) % (2 * n);
    q
  }

  predicate IsSpike(u: real) { u > 0.97 }
  predicate IsFire(u: real) { u > 0.995 }

  /** The row generated for hour `i` back from `now`, from its three draws: the PM2.5 level
      before any spike (already including the daily cycle), the spike draw and the fire draw. */
  function HourRow(now: int, i: nat, level: real, spike: real, fire: real): (r: Row)
    ensures r.timestamp == now - i * HourMs
    ensures r.status == (if IsFire(fire) then "Emergency" else if IsSpike(spike) then "Warning" else "Normal")
    ensures r.pm25 >= 2.0 && r.aqi >= 7
    ensures IsSpike(spike) ==> r.pm25 >= 52.0 && r.aqi >= 157
  {
    var pm := if level >= 2.0 then level else 2.0;
    var aqi := pm * 3.5 + (if IsSpike(spike) then 150.0 else 0.0);
    var status := if IsFire(fire) then "Emergency" else if IsSpike(spike) then "Warning" else "Normal";
    var action := if IsFire(fire) then "Alarm + Sprinkler Standby" else if IsSpike(spike) then "Fan Boost Auto" else "-";
    Row(now - i * HourMs, pm + (if IsSpike(spike) then 50.0 else 0.0), RoundHalfUp(aqi), 22.0, status, action)
  }

  /** The events hour `i` adds, warning before danger. */
  function HourEvents(now: int, i: nat, spike: real, fire: real): (r: seq<Event>)
    ensures |r| == (if IsSpike(spike) then 1 else 0) + (if IsFire(fire) then 1 else 0)
    ensures forall k :: 0 <= k < |r| ==> r[k].time == now - i * HourMs
  {
    var t := now - i * HourMs;
    (if IsSpike(spike) then [Event("evt-" + NatToString(i), t, "High Pollution", "warning", "Auto-Purify")] else [])
    + (if IsFire(fire) then [Event("evt-crit-" + NatToString(i), t, "Smoke Detected", "danger", "Emergency Protocol")] else [])
  }

  predicate NewestFirst(events: seq<Event>)
  {
    forall i, j :: 0 <= i < j < |events| ==> events[i].time >= events[j].time
  }

  predicate OldestFirst(data: seq<Row>)
  {
    forall i, j :: 0 <= i < j < |data| ==> data[i].timestamp < data[j].timestamp
  }

  /** `generateHistoryData(days)` with its per-hour draws supplied: `days * 24` rows, oldest
      first, and the events, newest first. */
  method GenerateHistoryData(days: nat, now: int, levels: seq<real>, spikes: seq<real>, fires: seq<real>)
    returns (data: seq<Row>, events: seq<Event>)
    requires |levels| == days * 24 && |spikes| == days * 24 && |fires| == days * 24
    ensures |data| == days * 24 && OldestFirst(data) && NewestFirst(events)
    ensures |events| == CountWhere(spikes, IsSpike) + CountWhere(fires, IsFire)
  {
    data, events := GenerateHours(days * 24, now, levels, spikes, fires);
  }

  /** The generator over `n` hours: `n` rows one hour apart ending at `now`, oldest first;
      one event per spike and per fire draw, newest first (they are produced in that order,
      so the stable sort leaves them as they are), each within the span of the rows. */
  method GenerateHours(n: nat, now: int, levels: seq<real>, spikes: seq<real>, fires: seq<real>)
    returns (data: seq<Row>, events: seq<Event>)
    requires |levels| == n && |spikes| == n && |fires| == n
    ensures |data| == n
    ensures forall k :: 0 <= k < |data| ==>
              data[k] == HourRow(now, |data| - 1 - k, levels[|data| - 1 - k], spikes[|data| - 1 - k], fires[|data| - 1 - k])
    ensures OldestFirst(data)
    ensures |events| == CountWhere(spikes, IsSpike) + CountWhere(fires, IsFire)
    ensures NewestFirst(events)
    ensures |data| > 0 ==> forall k :: 0 <= k < |events| ==> data[0].timestamp <= events[k].time <= now
  {
    data := GenerateRows(n, now, levels, spikes, fires);
    events := GenerateEvents(n, now, spikes, fires);
  }

  /** The row half of the generator: the rows pushed hour by hour, then reversed. */
  method GenerateRows(n: nat, now: int, levels: seq<real>, spikes: seq<real>, fires: seq<real>)
    returns (data: seq<Row>)
    requires |levels| == n && |spikes| == n && |fires| == n
    ensures |data| == n
    ensures forall k :: 0 <= k < |data| ==>
              data[k] == HourRow(now, |data| - 1 - k, levels[|data| - 1 - k], spikes[|data| - 1 - k], fires[|data| - 1 - k])
    ensures OldestFirst(data)
    ensures |data| > 0 ==> data[0].timestamp == now - (n - 1) * HourMs
  {
    var pushed := GenerateNewestFirst(n, now, levels, spikes, fires);
    data := Reverse(pushed);
    ReversedHoursOldestFirst(pushed, now);
    var row := (i: nat) => if i < n then HourRow(now, i, levels[i], spikes[i], fires[i]) else HourRow(now, i, 0.0, 0.0, 0.0);
    assert forall k :: 0 <= k < n ==> pushed[k] == row(k);
    ReverseTabulated(pushed, row);
  }

  /** The rows in the order the loop visits the hours: hour `k` back from `now` at index `k`. */
  method GenerateNewestFirst(n: nat, now: int, levels: seq<real>, spikes: seq<real>, fires: seq<real>)
    returns (pushed: seq<Row>)
    requires |levels| == n && |spikes| == n && |fires| == n
    ensures |pushed| == n
    ensures forall k :: 0 <= k < n ==> pushed[k] == HourRow(now, k, levels[k], spikes[k], fires[k])
  {
    pushed := [];
    var i := 0;
    while i < n
      invariant 0 <= i <= n
      invariant |pushed| == i
      invariant forall k :: 0 <= k < i ==> pushed[k] == HourRow(now, k, levels[k], spikes[k], fires[k])
    {
      pushed := pushed + [HourRow(now, i, levels[i], spikes[i], fires[i])];
      i := i + 1;
    }
  }

  /** The event half of the generator: hour by hour from `now` backwards. */
  method GenerateEvents(n: nat, now: int, spikes: seq<real>, fires: seq<real>) returns (events: seq<Event>)
    requires |spikes| == n && |fires| == n
    ensures |events| == CountWhere(spikes, IsSpike) + CountWhere(fires, IsFire)
    ensures NewestFirst(events)
    ensures forall k :: 0 <= k < |events| ==> now - (n - 1) * HourMs <= events[k].time <= now
  {
    events := [];
    var i := 0;
    var t := now;
    while i < n
      invariant 0 <= i <= n
      invariant t == now - i * HourMs
      invariant |events| == CountWhere(spikes[..i], IsSpike) + CountWhere(fires[..i], IsFire)
      invariant NewestFirst(events)
      invariant forall k :: 0 <= k < |events| ==> t + HourMs <= events[k].time <= now
    {
      var more := HourEvents(now, i, spikes[i], fires[i]);
      CountWherePrefixStep(spikes, i, IsSpike);
      CountWherePrefixStep(fires, i, IsFire);
      AppendOlderEvents(events, more, t);
      events := events + more;
      i := i + 1;
      t := t - HourMs;
    }
    assert spikes[..n] == spikes && fires[..n] == fires;
  }

  /** Events of an earlier-generated (so later) hour followed by events at time `t`. */
  lemma AppendOlderEvents(events: seq<Event>, more: seq<Event>, t: int)
    requires NewestFirst(events)
    requires forall k :: 0 <= k < |events| ==> t <= events[k].time
    requires forall k :: 0 <= k < |more| ==> more[k].time == t
    ensures NewestFirst(events + more)
  {
  }

  /** Rows stamped one hour further back each, once reversed, are oldest first. */
  lemma ReversedHoursOldestFirst(pushed: seq<Row>, now: int)
    requires forall k :: 0 <= k < |pushed| ==> pushed[k].timestamp == now - k * HourMs
    ensures OldestFirst(Reverse(pushed))
  {
    var data := Reverse(pushed);
    forall i, j | 0 <= i < j < |data| ensures data[i].timestamp < data[j].timestamp {
      assert data[i] == pushed[|pushed| - 1 - i] && data[j] == pushed[|pushed| - 1 - j];
      HoursBackDecrease(now, |pushed| - 1 - j, |pushed| - 1 - i);
    }
  }

  lemma HoursBackDecrease(now: int, a: nat, b: nat)
    requires a < b
    ensures now - b * HourMs < now - a * HourMs
  {
  }

  // ---------------------------------------------------------------------------
  // Date range

  /** `filterData`: an unparseable start or end (NaN) keeps nothing; otherwise exactly the
      rows whose time lies in [start, end], in their original order. */
  function FilterRange(all: seq<Row>, start: Option<int>, end: Option<int>): (r: seq<Row>)
    ensures start.None? || end.None? ==> r == []
    ensures start.Some? && end.Some? ==>
              r == Filter(all, (d: Row) => start.value <= d.timestamp <= end.value)
    ensures forall k :: 0 <= k < |r| ==> r[k] in all
  {
    if start.None? || end.None? then []
    else
      FilterMembers(all, (d: Row) => start.value <= d.timestamp <= end.value);
      Filter(all, (d: Row) => start.value <= d.timestamp <= end.value)
  }

  /** Keeping a subsequence of an ascending list keeps it ascending. */
  lemma {:induction false} FilterKeepsOldestFirst(all: seq<Row>, p: Row -> bool)
    requires OldestFirst(all)
    ensures OldestFirst(Filter(all, p))
  {
    if |all| > 0 {
      var rest := Filter(all[1..], p);
      assert Filter(all, p) == (if p(all[0]) then [all[0]] else []) + rest;
      FilterKeepsOldestFirst(all[1..], p);
      if p(all[0]) {
        FilterMembers(all[1..], p);
        HeadBeforeRest(all[0], all[1..], rest);
        ConsOldestFirst(all[0], rest);
      } else {
        assert Filter(all, p) == rest;
      }
    }
  }

  /** The first row of an ascending list is older than every row drawn from the rest. */
  lemma HeadBeforeRest(x: Row, tail: seq<Row>, rest: seq<Row>)
    requires OldestFirst([x] + tail)
    requires forall k :: 0 <= k < |rest| ==> rest[k] in tail
    ensures forall k :: 0 <= k < |rest| ==> x.timestamp < rest[k].timestamp
  {
    var all := [x] + tail;
    forall k | 0 <= k < |rest| ensures x.timestamp < rest[k].timestamp {
      var j :| 0 <= j < |tail| && tail[j] == rest[k];
      assert all[j + 1] == tail[j];
      assert all[0] == x;
    }
  }

  /** A row older than every row of an ascending list can go in front of it. */
  lemma ConsOldestFirst(x: Row, rest: seq<Row>)
    requires OldestFirst(rest)
    requires forall k :: 0 <= k < |rest| ==> x.timestamp < rest[k].timestamp
    ensures OldestFirst([x] + rest)
  {
    var r := [x] + rest;
    assert forall k :: 0 < k < |r| ==> r[k] == rest[k - 1];
  }

  /** The range filter keeps the generator's order, and a wider range keeps every row a
      narrower one keeps. */
  lemma RangeFilterOrderAndWidening(all: seq<Row>, s: int, e: int, s2: int, e2: int)
    requires OldestFirst(all)
    requires s2 <= s && e <= e2
    ensures OldestFirst(FilterRange(all, Some(s), Some(e)))
    ensures var narrow := FilterRange(all, Some(s), Some(e));
            var wide := FilterRange(all, Some(s2), Some(e2));
            forall k :: 0 <= k < |narrow| ==> narrow[k] in wide
  {
    FilterKeepsOldestFirst(all, (d: Row) => s <= d.timestamp <= e);
    FilterMembers(all, (d: Row) => s2 <= d.timestamp <= e2);
  }

  // ---------------------------------------------------------------------------
  // Summary cards

  datatype Summary = Summary(avgAqi: int, maxTemp: real, alerts: nat)

  function SumAqi(rows: seq<Row>): int
  {
    if |rows| == 0 then 0 else rows[0].aqi + SumAqi(rows[1..])
  }

  /** `Math.max(...temps)` over a non-empty list. */
  function MaxTemp(rows: seq<Row>): (m: real)
    requires |rows| > 0
    ensures forall k :: 0 <= k < |rows| ==> rows[k].temp <= m
    ensures exists k :: 0 <= k < |rows| && rows[k].temp == m
  {
    if |rows| == 1 then rows[0].temp
    else
      var m := MaxTemp(rows[1..]);
      assert forall k :: 1 <= k < |rows| ==> rows[k] == rows[1..][k - 1];
      if rows[0].temp >= m then rows[0].temp else m
  }

  /** `updateSummaryCards`: nothing on an empty selection; otherwise the rounded mean AQI,
      the highest temperature, and the events between the first and last selected rows. */
  function SummaryCards(filtered: seq<Row>, events: seq<Event>): (r: Option<Summary>)
    ensures |filtered| == 0 <==> r.None?
    ensures r.Some? ==>
              var n := |filtered|;
              var total := SumAqi(filtered);
              2 * r.value.avgAqi * n - n <= 2 * total < 2 * r.value.avgAqi * n + n
    ensures r.Some? ==>
              (forall k :: 0 <= k < |filtered| ==> filtered[k].temp <= r.value.maxTemp)
              && (exists k :: 0 <= k < |filtered| && filtered[k].temp == r.value.maxTemp)
    ensures r.Some? ==>
              var lo := filtered[0].timestamp;
              var hi := filtered[|filtered| - 1].timestamp;
              r.value.alerts == CountWhere(events, (e: Event) => lo <= e.time <= hi)
  {
    if |filtered| == 0 then None
    else
      var n := |filtered|;
      var total := SumAqi(filtered);
      var avg := RoundedMean(total, n);
      var lo := filtered[0].timestamp;
      var hi := filtered[|filtered| - 1].timestamp;
      Some(Summary(avg, MaxTemp(filtered), CountWhere(events, (e: Event) => lo <= e.time <= hi)))
  }

  /** On a selection in time order the alert card counts exactly the events inside the
      selection's time span, so a range holding every event's time counts all of them. */
  lemma AlertCardCountsSpan(filtered: seq<Row>, events: seq<Event>)
    requires |filtered| > 0
    requires forall k :: 0 <= k < |events| ==>
               filtered[0].timestamp <= events[k].time <= filtered[|filtered| - 1].timestamp
    ensures SummaryCards(filtered, events).value.alerts == |events|
  {
    var lo := filtered[0].timestamp;
    var hi := filtered[|filtered| - 1].timestamp;
    var p := (e: Event) => lo <= e.time <= hi;
    FilterKeepsAll(events, p);
  }

  // ---------------------------------------------------------------------------
  // Table and pagination

  /** `Math.ceil(n / 10)`. */
  function TotalPages(n: nat): (p: nat)
    ensures n == 0 <==> p == 0
    ensures n > 0 ==> (p - 1) * RowsPerPage < n <= p * RowsPerPage
  {
    (n + RowsPerPage - 1) / RowsPerPage
  }

  /** `changePage(delta)`: move only when the new page exists for the filtered data. */
  function ChangePage(page: int, delta: int, filteredLen: nat): (r: int)
    ensures 1 <= page + delta <= TotalPages(filteredLen) ==> r == page + delta
    ensures !(1 <= page + delta <= TotalPages(filteredLen)) ==> r == page
    ensures page >= 1 ==> r >= 1
  {
    var newPage := page + delta;
    if newPage >= 1 && newPage <= TotalPages(filteredLen) then newPage else page
  }

  /** `renderTable(data)`: the rows of the page given by the global current page (the
      function's own page argument is never read). */
  function PageRows<T>(data: seq<T>, currentPage: nat): (r: seq<T>)
    requires currentPage >= 1
    ensures |r| <= RowsPerPage
    ensures |r| > 0 ==> (currentPage - 1) * RowsPerPage + |r| <= |data|
    ensures forall k :: 0 <= k < |r| ==> r[k] == data[(currentPage - 1) * RowsPerPage + k]
    ensures currentPage <= TotalPages(|data|) ==> |r| > 0
    ensures currentPage > TotalPages(|data|) ==> r == []
    ensures currentPage < TotalPages(|data|) ==> |r| == RowsPerPage
  {
    var start := (currentPage - 1) * RowsPerPage;
    Slice(data, start, start + RowsPerPage)
  }

  /** Each row of the data appears on exactly one page. */
  lemma PagesCoverData<T>(data: seq<T>, i: nat)
    requires i < |data|
    ensures var page := i / RowsPerPage + 1;
            1 <= page <= TotalPages(|data|)
            && PageRows(data, page)[i % RowsPerPage] == data[i]
  {
    var page := i / RowsPerPage + 1;
    assert (page - 1) * RowsPerPage + i % RowsPerPage == i;
    assert (page - 1) * RowsPerPage <= i;
  }

  /** The search box's test: the lower-cased status or action contains the lower-cased term. */
  function RowMatches(term: string): Row -> bool
  {
    (d: Row) => Contains(Lower(d.status), Lower(term)) || Contains(Lower(d.action), Lower(term))
  }

  /** The search box: rows whose lower-cased status or action contains the lower-cased term. */
  function SearchRows(rows: seq<Row>, term: string): (r: seq<Row>)
    ensures forall k :: 0 <= k < |r| ==> r[k] in rows
    ensures forall k :: 0 <= k < |r| ==>
              Contains(Lower(r[k].status), Lower(term)) || Contains(Lower(r[k].action), Lower(term))
    ensures forall k :: 0 <= k < |rows| ==>
              (Contains(Lower(rows[k].status), Lower(term)) || Contains(Lower(rows[k].action), Lower(term)) ==> rows[k] in r)
    ensures Subseq(r, rows)
    ensures |r| == CountWhere(rows, RowMatches(term))
  {
    var keep := RowMatches(term);
    FilterIsSubseq(rows, keep);
    FilterMembers(rows, keep);
    Filter(rows, keep)
  }

  /** An empty search keeps every row. */
  lemma EmptySearchKeepsAll(rows: seq<Row>)
    ensures SearchRows(rows, "") == rows
  {
    forall k | 0 <= k < |rows|
      ensures Contains(Lower(rows[k].status), Lower("")) || Contains(Lower(rows[k].action), Lower(""))
    {
      EmptyNeedleAlwaysContained(Lower(rows[k].status));
    }
    FilterKeepsAll(rows, RowMatches(""));
  }

  /** The state of the pager buttons. */
  datatype Controls = Controls(page: int, totalPages: nat, prevDisabled: bool, nextDisabled: bool)

  /** `updatePaginationControls(totalItems)` as written: a missing or zero total falls back
      to the filtered length; "next" is disabled only when the page equals the page count. */
  function PaginationControls(totalItems: nat, filteredLen: nat, page: int): (r: Controls)
    ensures r.totalPages == TotalPages(if totalItems == 0 then filteredLen else totalItems)
    ensures r.prevDisabled <==> page == 1
    ensures r.nextDisabled <==> page == r.totalPages
  {
    var n := if totalItems == 0 then filteredLen else totalItems;
    var tp := TotalPages(n);
    Controls(page, tp, page == 1, page == tp)
  }

  /** On a page that exists, the buttons are disabled exactly when clicking them would not
      move: "previous" on the first page, "next" on the last. */
  lemma ControlsMatchChangePage(n: nat, page: int)
    requires n > 0 && 1 <= page <= TotalPages(n)
    ensures var c := PaginationControls(n, n, page);
            (c.prevDisabled <==> ChangePage(page, -1, n) == page)
            && (c.nextDisabled <==> ChangePage(page, 1, n) == page)
  {
  }

  /** As written, with nothing selected the indicator reads "Page 1 of 0" and "next" stays
      enabled although clicking it cannot move. */
  lemma EmptySelectionNextEnabled()
    ensures var c := PaginationControls(0, 0, 1);
            !c.nextDisabled && c.totalPages == 0 && ChangePage(1, 1, 0) == 1
  {
  }

  /** Corrected controls: "next" is disabled whenever no later page exists. */
  function PaginationControlsFixed(totalItems: nat, filteredLen: nat, page: int): (r: Controls)
    ensures r.totalPages == TotalPages(if totalItems == 0 then filteredLen else totalItems)
    ensures r.prevDisabled <==> page <= 1
    ensures r.nextDisabled <==> page >= r.totalPages
  {
    var n := if totalItems == 0 then filteredLen else totalItems;
    var tp := TotalPages(n);
    Controls(page, tp, page <= 1, page >= tp)
  }

  /** With the correction, for every selection size (empty included) and every page the
      pager can be on, each button is disabled exactly when clicking it would not move. */
  lemma FixedControlsMatchChangePage(n: nat, page: int)
    requires 1 <= page <= Max(1, TotalPages(n))
    ensures var c := PaginationControlsFixed(n, n, page);
            (c.nextDisabled <==> ChangePage(page, 1, n) == page)
            && (c.prevDisabled <==> ChangePage(page, -1, n) == page)
  {
  }

  // ---------------------------------------------------------------------------
  // Re-filtering

  /** What the table and the page indicator show after a new range is applied. */
  datatype View = View(rows: seq<Row>, page: int, controls: Controls)

  /** `updateDashboard` as written: the table is drawn for the old current page, and only
      then is the page reset to 1 and the indicator redrawn. */
  function UpdateDashboard(filtered: seq<Row>, currentPage: nat): (r: View)
    requires currentPage >= 1
    ensures r.page == 1
    ensures r.rows == PageRows(filtered, currentPage)
    ensures r.controls == PaginationControls(0, |filtered|, 1)
  {
    View(PageRows(filtered, currentPage), 1, PaginationControls(0, |filtered|, 1))
  }

  /** Seen from page 3, a new range of five rows leaves the table empty while the indicator
      says page 1 of 1. */
  lemma UpdateDashboardShowsStalePage()
    ensures var d := Row(0, 2.0, 7, 22.0, "Normal", "-");
            var v := UpdateDashboard([d, d, d, d, d], 3);
            v.rows == [] && v.page == 1 && v.controls.totalPages == 1
  {
  }

  /** Corrected: reset the page first, then draw. */
  function UpdateDashboardFixed(filtered: seq<Row>): (r: View)
    ensures r.page == 1
    ensures r.rows == PageRows(filtered, r.page)
    ensures r.controls == PaginationControls(0, |filtered|, 1)
  {
    View(PageRows(filtered, 1), 1, PaginationControls(0, |filtered|, 1))
  }

  /** With the correction the table always shows the first page of the new selection: its
      first ten rows, or all of them when fewer. */
  lemma FixedUpdateShowsFirstPage(filtered: seq<Row>)
    ensures UpdateDashboardFixed(filtered).rows == filtered[..Min(|filtered|, RowsPerPage)]
  {
  }
}

=== FILE: login.dfy ===
/** The login form: both fields trimmed, blank input refused, the fixed
    credentials checked, and the session flags the dashboard guard reads. */
module Login {
  import opened Common
  import Dashboard

  const Username: string := "admin"
  const Password: string := "admin123"

  datatype Form = Form(username: string, password: string)

  datatype Outcome = MissingInput | InvalidCredentials | LoggedIn

  /** The decision on the trimmed fields: a blank field first, then the credential check. */
  function Check(u: string, p: string): (o: Outcome)
    ensures o == MissingInput <==> u == "" || p == ""
    ensures o == LoggedIn <==> u == Username && p == Password
  {
    if u == "" || p == "" then MissingInput
    else if u == Username && p == Password then LoggedIn
    else InvalidCredentials
  }

  /** The submit handler over the form and the session store: returns the outcome, the form as
      left on the page and the session afterwards. */
  function Submit(f: Form, s: Dashboard.Session): (r: (Outcome, Form, Dashboard.Session))
    ensures r.0 == MissingInput <==> Trim(f.username) == "" || Trim(f.password) == ""
    ensures r.0 == LoggedIn <==> Trim(f.username) == Username && Trim(f.password) == Password
    ensures r.0 != LoggedIn ==> r.2 == s
    ensures r.0 == MissingInput ==> r.1 == f
    ensures r.0 == InvalidCredentials ==> r.1 == f.(password := "")
    ensures r.0 == LoggedIn ==> r.1 == f && "isLoggedIn" in r.2 && "userRole" in r.2 && r.2["isLoggedIn"] == "true" && r.2["userRole"] == "admin"
    ensures r.0 == LoggedIn ==> forall k :: k in r.2 <==> k in s || k == "isLoggedIn" || k == "userRole"
    ensures r.0 == LoggedIn ==> forall k :: k in s && k != "isLoggedIn" && k != "userRole" ==> r.2[k] == s[k]
  {
    var o := Check(Trim(f.username), Trim(f.password));
    (o, if o == InvalidCredentials then f.(password := "") else f, SessionAfter(o, s))
  }

  /** The session after an outcome: only a login sets the two flags. */
  function SessionAfter(o: Outcome, s: Dashboard.Session): (r: Dashboard.Session)
    ensures o != LoggedIn ==> r == s
    ensures o == LoggedIn ==> "isLoggedIn" in r && "userRole" in r && r["isLoggedIn"] == "true" && r["userRole"] == "admin"
    ensures o == LoggedIn ==> forall k :: k in r <==> k in s || k == "isLoggedIn" || k == "userRole"
    ensures o == LoggedIn ==> forall k :: k in s && k != "isLoggedIn" && k != "userRole" ==> r[k] == s[k]
  {
    if o == LoggedIn then s["isLoggedIn" := "true"]["userRole" := "admin"] else s
  }

  /** A successful login passes the dashboard's guard; a failed one leaves a guarded visitor
      guarded; and a confirmed logout brings the guard back. */
  lemma LoginOpensDashboard(f: Form, s: Dashboard.Session)
    ensures Submit(f, s).0 == LoggedIn ==> !Dashboard.MustRedirect(Submit(f, s).2)
    ensures Submit(f, s).0 != LoggedIn ==> Dashboard.MustRedirect(Submit(f, s).2) == Dashboard.MustRedirect(s)
    ensures Submit(f, s).0 == LoggedIn ==> Dashboard.MustRedirect(Dashboard.Logout(Submit(f, s).2, true))
  {
  }

  /** Surrounding blanks never matter: the trimmed form gets the same outcome and session. */
  lemma TrimmedFormSameOutcome(f: Form, s: Dashboard.Session)
    ensures var g := Form(Trim(f.username), Trim(f.password));
            Submit(g, s).0 == Submit(f, s).0 && Submit(g, s).2 == Submit(f, s).2
  {
    TrimIdempotent(f.username);
    TrimIdempotent(f.password);
  }

  /** A field counts as missing exactly when it holds nothing but blanks. */
  lemma MissingIffBlank(f: Form, s: Dashboard.Session)
    ensures Submit(f, s).0 == MissingInput <==>
              (forall k :: 0 <= k < |f.username| ==> IsSpace(f.username[k]))
              || (forall k :: 0 <= k < |f.password| ==> IsSpace(f.password[k]))
  {
    TrimEmptyIffBlank(f.username);
    TrimEmptyIffBlank(f.password);
  }
}

=== FILE: realtime.dfy ===
/** The real-time monitor: the packet generator with its status rules, the
    pause switch, the 500-packet export buffer, the 50-row table and the CSV
    export of the buffer. */
module Realtime {
  import opened Common
  import opened Bounded

  datatype SensorKind = Pm25 | Co2 | Temp | Smoke | Voc

  /** A reading as the page holds it: one-decimal text for PM2.5 and temperature (kept here
      as a count of tenths), a whole number otherwise. */
  datatype Value = Tenths(t: nat) | Whole(n: nat)

  datatype Status = Normal | Warn | Critical

  datatype Packet = Packet(timestamp: string, id: string, kind: SensorKind, value: Value, unit: string, status: Status)

  /** The random draws behind one packet, each in [0, 1). */
  datatype PacketDraws = PacketDraws(kind: real, id: real, value: real, spike: real)

  predicate ValidDraws(d: PacketDraws)
  {
    0.0 <= d.kind < 1.0 && 0.0 <= d.id < 1.0 && 0.0 <= d.value < 1.0 && 0.0 <= d.spike < 1.0
  }

  const Kinds: seq<SensorKind> := [Pm25, Co2, Temp, Smoke, Voc]

  function KindName(k: SensorKind): string
  {
    match k
    case Pm25 => "PM2.5"
    case Co2 => "CO2"
    case Temp => "TEMP"
    case Smoke => "SMOKE"
    case Voc => "VOC"
  }

  function Unit(k: SensorKind): string
  {
    match k
    case Pm25 => "\U{B5}g/m\U{B3}"
    case Co2 => "ppm"
    case Temp => "\U{B0}C"
    case Smoke => "%"
    case Voc => "ppb"
  }

  /** `Number(x.toFixed(1))` for `x` in [0, 10 * scale), as tenths (rounded half up). */
  function OneDecimal(u: real, scale: real): (t: nat)
    requires 0.0 <= u < 1.0 && scale >= 0.0
    ensures t as real <= u * scale * 10.0 + 0.5 < t as real + 1.0
  {
    (u * scale * 10.0 + 0.5).Floor
  }

  /** The value and status for a sensor kind: PM2.5 (0 to 50) warns above 35; CO2
      (400 to 1199) warns above 1000; smoke (0 to 4, or 45 on a spike) is critical above
      20; temperature and VOC are always OK. */
  function Reading(k: SensorKind, u: real, spike: real): (r: (Value, Status))
    requires 0.0 <= u < 1.0
    ensures k == Pm25 ==> r.0.Tenths? && r.0.t <= 500 && (r.1 == Warn <==> r.0.t > 350) && r.1 != Critical
    ensures k == Co2 ==> r.0.Whole? && 400 <= r.0.n <= 1199 && (r.1 == Warn <==> r.0.n > 1000) && r.1 != Critical
    ensures k == Temp ==> r.0.Tenths? && 200 <= r.0.t <= 300 && r.1 == Normal
    ensures k == Smoke ==> r.0.Whole? && (r.0.n <= 4 || r.0.n == 45) && (r.1 == Critical <==> r.0.n > 20) && r.1 != Warn
    ensures k == Smoke ==> (r.0.n == 45 <==> spike > 0.95)
    ensures k == Voc ==> r.0.Whole? && r.0.n <= 299 && r.1 == Normal
  {
    match k
    case Pm25 =>
      var t := OneDecimal(u, 50.0);
      (Tenths(t), if t > 350 then Warn else Normal)
    case Co2 =>
      var n := (400.0 + u * 800.0).Floor;
      (Whole(n), if n > 1000 then Warn else Normal)
    case Temp =>
      var t := (200.0 + u * 100.0 + 0.5).Floor;
      (Tenths(t), Normal)
    case Smoke =>
      var n := if spike > 0.95 then 45 else (u * 5.0).Floor;
      (Whole(n), if n > 20 then Critical else Normal)
    case Voc =>
      (Whole((u * 300.0).Floor), Normal)
  }

  /** The sensor id: "SENS-" and a number below 100 zero-padded to three digits. */
  function SensorId(u: real): (r: string)
    requires 0.0 <= u < 1.0
    ensures |r| == 8 && r[..5] == "SENS-"
    ensures (forall k :: 5 <= k < 8 ==> IsDigit(r[k])) && ParseNat(r[5..]) < 100
  {
    var n := (u * 100.0).Floor;
    ThreeDigitRoundTrip(n);
    var p := PadStart(NatToString(n), 3, '0');
    assert ("SENS-" + p)[5..] == p;
    "SENS-" + p
  }

  /** `s.replace(c, d)` with a character pattern: only the first occurrence is replaced. */
  function ReplaceFirst(s: string, c: char, d: char): (r: string)
    ensures |r| == |s|
    ensures c !in s ==> r == s
  {
    if |s| == 0 then s
    else if s[0] == c then [d] + s[1..]
    else [s[0]] + ReplaceFirst(s[1..], c, d)
  }

  /** The table's clock text from an ISO time: the first 'T' becomes a space and everything
      from the first '.' on is dropped. */
  function StampOf(iso: string): (r: string)
  {
    Split(ReplaceFirst(iso, 'T', ' '), '.')[0]
  }

  /** The date and time-of-day parts of an ISO time hold no 'T' and no '.'. */
  predicate IsoParts(date: string, time: string)
  {
    'T' !in date && '.' !in date && '.' !in time
  }

  /** For an ISO time `date 'T' time '.' millis 'Z'` the clock text is the date, a space and
      the time of day. */
  lemma StampOfIso(date: string, time: string, millis: string)
    requires IsoParts(date, time)
    ensures StampOf(date + "T" + time + "." + millis + "Z") == date + " " + time
  {
    var rest := time + "." + millis + "Z";
    IsoShape(date, time, millis);
    ReplaceDateSeparator(date, rest);
    var head := date + " " + time;
    DottedShape(date, time, millis);
    assert '.' !in head;
    SplitAtSep(head, millis + "Z", '.');
  }

  /** How the ISO text is put together, seen as date, 'T' and the rest. */
  lemma IsoShape(date: string, time: string, millis: string)
    ensures date + "T" + time + "." + millis + "Z" == date + "T" + (time + "." + millis + "Z")
  {
  }

  /** The stamp with its space, seen as the date-and-time head, the dot and the rest. */
  lemma DottedShape(date: string, time: string, millis: string)
    ensures date + " " + (time + "." + millis + "Z") == (date + " " + time) + ['.'] + (millis + "Z")
  {
  }

  /** The first 'T' after a date without one becomes a space. */
  lemma ReplaceDateSeparator(date: string, rest: string)
    requires 'T' !in date
    ensures ReplaceFirst(date + "T" + rest, 'T', ' ') == date + " " + rest
  {
    assert date + "T" + rest == date + ("T" + rest);
    ReplaceFirstAfter(date, "T" + rest, 'T', ' ');
    assert ReplaceFirst("T" + rest, 'T', ' ') == " " + rest by {
      assert ("T" + rest)[1..] == rest;
    }
    assert date + (" " + rest) == date + " " + rest;
  }

  /** The replacement skips a prefix without the pattern. */
  lemma {:induction false} ReplaceFirstAfter(a: string, b: string, c: char, d: char)
    requires c !in a
    ensures ReplaceFirst(a + b, c, d) == a + ReplaceFirst(b, c, d)
    decreases |a|
  {
    if |a| > 0 {
      assert (a + b)[1..] == a[1..] + b;
      assert (a + b)[0] == a[0] && a[0] != c;
      assert ReplaceFirst(a + b, c, d) == [a[0]] + ReplaceFirst(a[1..] + b, c, d);
      ReplaceFirstAfter(a[1..], b, c, d);
      assert a == [a[0]] + a[1..];
      assert [a[0]] + (a[1..] + ReplaceFirst(b, c, d)) == a + ReplaceFirst(b, c, d);
    } else {
      assert a + b == b;
    }
  }

  /** `generatePacket()` at the ISO time `iso`. */
  function GeneratePacket(d: PacketDraws, iso: string): (p: Packet)
    requires ValidDraws(d)
    ensures p.unit == Unit(p.kind) && p.timestamp == StampOf(iso)
    ensures p.kind == Kinds[(d.kind * 5.0).Floor]
    ensures (p.value, p.status) == Reading(p.kind, d.value, d.spike)
    ensures p.status == Critical ==> p.kind == Smoke
    ensures p.status == Warn ==> p.kind == Pm25 || p.kind == Co2
    ensures p.id == SensorId(d.id)
  {
    var kind := Kinds[(d.kind * 5.0).Floor];
    var vs := Reading(kind, d.value, d.spike);
    Packet(StampOf(iso), SensorId(d.id), kind, vs.0, Unit(kind), vs.1)
  }

  const MaxBuffer: nat := 500
  const MaxRows: nat := 50

  /** The page: the pause switch, the export buffer (oldest first) and the table (newest on top). */
  datatype Stream = Stream(streaming: bool, buffer: seq<Packet>, rows: seq<Packet>)

  /** `streamCycle` with the packet it would generate: nothing while paused, otherwise the
      packet is pushed on the buffer (dropping the oldest past 500) and on top of the table
      (dropping the bottom row past 50). */
  function StreamCycle(s: Stream, p: Packet): (r: Stream)
    ensures !s.streaming ==> r == s
    ensures s.streaming ==> r.streaming && r.buffer == AppendCapped(s.buffer, p, MaxBuffer)
                            && r.rows == PrependCapped(s.rows, p, MaxRows)
  {
    if !s.streaming then s
    else Stream(true, AppendCapped(s.buffer, p, MaxBuffer), PrependCapped(s.rows, p, MaxRows))
  }

  /** `toggleStream`. */
  function ToggleStream(s: Stream): (r: Stream)
    ensures r.streaming == !s.streaming && r.buffer == s.buffer && r.rows == s.rows
  {
    s.(streaming := !s.streaming)
  }

  /** Pausing and resuming gives back the same page. */
  lemma ToggleTwice(s: Stream)
    ensures ToggleStream(ToggleStream(s)) == s
  {
  }

  /** `clearTable`: the table and the buffer are emptied; the switch is kept. */
  function ClearTable(s: Stream): (r: Stream)
    ensures r.buffer == [] && r.rows == [] && r.streaming == s.streaming
  {
    Stream(s.streaming, [], [])
  }

  /** Cycles in a row with their packets. */
  function Cycles(s: Stream, ps: seq<Packet>): Stream
    decreases |ps|
  {
    if |ps| == 0 then s else Cycles(StreamCycle(s, ps[0]), ps[1..])
  }

  /** While streaming, the buffer holds exactly the 500 most recent packets, oldest first,
      and the table the 50 most recent, newest on top. */
  lemma {:induction false} CyclesKeepNewest(s: Stream, ps: seq<Packet>)
    requires s.streaming && |s.buffer| <= MaxBuffer && |s.rows| <= MaxRows
    ensures var r := Cycles(s, ps);
            var all := s.buffer + ps;
            var top := Reverse(ps) + s.rows;
            r.buffer == all[if |all| <= MaxBuffer then 0 else |all| - MaxBuffer..]
            && r.rows == top[..if |top| <= MaxRows then |top| else MaxRows]
  {
    CyclesAreAppends(s, ps);
    AppendAllKeepsNewest(s.buffer, ps, MaxBuffer);
    PrependAllKeepsNewest(s.rows, ps, MaxRows);
  }

  lemma {:induction false} CyclesAreAppends(s: Stream, ps: seq<Packet>)
    requires s.streaming
    ensures Cycles(s, ps) == Stream(true, AppendAll(s.buffer, ps, MaxBuffer), PrependAll(s.rows, ps, MaxRows))
    decreases |ps|
  {
    if |ps| > 0 {
      CyclesAreAppends(StreamCycle(s, ps[0]), ps[1..]);
    }
  }

  /** While paused no number of cycles changes anything. */
  lemma {:induction false} PausedCyclesChangeNothing(s: Stream, ps: seq<Packet>)
    requires !s.streaming
    ensures Cycles(s, ps) == s
    decreases |ps|
  {
    if |ps| > 0 {
      PausedCyclesChangeNothing(s, ps[1..]);
    }
  }

  /** The value's text: one decimal place for tenths, plain digits otherwise. */
  function ValueText(v: Value): (r: string)
    ensures ',' !in r && '\n' !in r
    ensures v.Whole? ==> (forall k :: 0 <= k < |r| ==> IsDigit(r[k])) && ParseNat(r) == v.n
  {
    match v
    case Tenths(t) => NatToString(t / 10) + "." + [DigitChar(t % 10)]
    case Whole(n) => ParseNatToString(n); NatToString(n)
  }

  function StatusText(s: Status): string
  {
    match s
    case Normal => "OK"
    case Warn => "WARN"
    case Critical => "CRITICAL"
  }

  const CsvPrefix: string := "data:text/csv;charset=utf-8,"
  const CsvHeader: string := "TIMESTAMP,ID,TYPE,VALUE,UNIT,STATUS"

  function CsvFields(p: Packet): seq<string>
  {
    [p.timestamp, p.id, KindName(p.kind), ValueText(p.value), p.unit, StatusText(p.status)]
  }

  function CsvLines(buffer: seq<Packet>): (r: seq<string>)
    ensures |r| == |buffer|
    ensures forall k :: 0 <= k < |r| ==> r[k] == Join(CsvFields(buffer[k]), ',')
  {
    seq(|buffer|, (k: int) requires 0 <= k < |buffer| => Join(CsvFields(buffer[k]), ','))
  }

  /** `exportCSV`: refused on an empty buffer, otherwise the data-URI prefix and the header
      and one newline-terminated line per buffered packet, oldest first. */
  function ExportCsv(buffer: seq<Packet>): (r: Option<string>)
    ensures r.None? <==> |buffer| == 0
    ensures r.Some? ==> |r.value| >= |CsvPrefix| && r.value[..|CsvPrefix|] == CsvPrefix
  {
    if |buffer| == 0 then None
    else Some(CsvPrefix + Terminated([CsvHeader] + CsvLines(buffer), '\n'))
  }

  /** A packet as the generator makes it, whose timestamp and id hold no comma or newline. */
  predicate Exportable(p: Packet)
  {
    p.unit == Unit(p.kind) && ',' !in p.timestamp && '\n' !in p.timestamp && ',' !in p.id && '\n' !in p.id
  }

  /** One packet's line holds no newline and splits back into its six fields. */
  lemma CsvLineRoundTrip(x: Packet)
    requires Exportable(x)
    ensures '\n' !in Join(CsvFields(x), ',')
    ensures Split(Join(CsvFields(x), ','), ',') == CsvFields(x)
  {
    var fs := CsvFields(x);
    UnitPlain(x.kind);
    KindNamePlain(x.kind);
    StatusTextPlain(x.status);
    JoinAvoids(fs, ',', '\n');
    SplitJoin(fs, ',');
  }

  lemma UnitPlain(k: SensorKind)
    ensures ',' !in Unit(k) && '\n' !in Unit(k)
  {
    match k
    case Pm25 => assert Unit(k) == "\U{B5}g/m\U{B3}";
    case Co2 => assert Unit(k) == "ppm";
    case Temp => assert Unit(k) == "\U{B0}C";
    case Smoke => assert Unit(k) == "%";
    case Voc => assert Unit(k) == "ppb";
  }

  lemma KindNamePlain(k: SensorKind)
    ensures ',' !in KindName(k) && '\n' !in KindName(k)
  {
  }

  lemma StatusTextPlain(s: Status)
    ensures ',' !in StatusText(s) && '\n' !in StatusText(s)
  {
  }

  /** After the prefix, the export splits at newlines into the header, one line per packet
      and an empty tail; each line splits at commas into the packet's six fields. */
  lemma ExportCsvRoundTrip(buffer: seq<Packet>)
    requires |buffer| > 0
    requires forall k :: 0 <= k < |buffer| ==> Exportable(buffer[k])
    ensures var body := ExportCsv(buffer).value[|CsvPrefix|..];
            var lines := Split(body, '\n');
            |lines| == |buffer| + 2 && lines[0] == CsvHeader && lines[|buffer| + 1] == ""
            && forall k :: 0 <= k < |buffer| ==> Split(lines[k + 1], ',') == CsvFields(buffer[k])
  {
    var ls := [CsvHeader] + CsvLines(buffer);
    var body := Terminated(ls, '\n');
    assert ExportCsv(buffer).value[|CsvPrefix|..] == body;
    TerminatedIsJoin(ls, '\n');
    var lines := CsvLines(buffer);
    forall k | 0 <= k < |lines|
      ensures '\n' !in lines[k]
      ensures Split(lines[k], ',') == CsvFields(buffer[k])
    {
      CsvLineRoundTrip(buffer[k]);
    }
    CsvHeaderPlain();
    AvoidsCons(CsvHeader, lines, '\n');
    AvoidsSnoc(ls, "", '\n');
    var all := ls + [""];
    SplitJoin(all, '\n');
    forall k | 0 <= k < |buffer| ensures all[k + 1] == lines[k] {
      assert all[k + 1] == ls[k + 1];
    }
  }

  lemma CsvHeaderPlain()
    ensures '\n' !in CsvHeader
  {
  }

  /** The status cell's style class. */
  datatype StatusClass = StatusOk | StatusWarn | StatusErr

  function ClassOf(s: Status): (c: StatusClass)
    ensures c == StatusOk <==> s == Normal
    ensures c == StatusWarn <==> s == Warn
    ensures c == StatusErr <==> s == Critical
  {
    match s
    case Normal => StatusOk
    case Warn => StatusWarn
    case Critical => StatusErr
  }
}

=== FILE: reports.dfy ===
/** The reports page: chart labels for the chosen range, the mock trend and
    the aggregate cards computed from it, the mock log rows, the insight text,
    the type labels and the five-entry recent-reports list. */
module Reports {
  import opened Common
  import opened Bounded

  const Weekdays: seq<string> := ["Mon", "Tue", "Wed", "Thu", "Fri", "Sat", "Sun"]

  /** The chart labels: "0:00" to "23:00" for "today", otherwise the seven weekdays. */
  function Labels(range: string): (r: seq<string>)
    ensures range == "today" ==> |r| == 24
    ensures range != "today" ==> r == Weekdays
    ensures range == "today" ==> forall k :: 0 <= k < 24 ==> r[k] == NatToString(k) + ":00"
  {
    if range == "today" then seq(24, (k: int) requires 0 <= k => NatToString(k) + ":00") else Weekdays
  }

  /** Each hourly label reads back as its own hour, so the 24 labels are pairwise distinct. */
  lemma {:induction false} HourLabelsReadBack(k: nat)
    requires k < 24
    ensures var l := Labels("today")[k];
            var h := l[..|l| - 3];
            l[|l| - 3..] == ":00" && (forall j :: 0 <= j < |h| ==> IsDigit(h[j])) && ParseNat(h) == k
  {
    var l := Labels("today")[k];
    assert l == NatToString(k) + ":00";
    assert l[..|l| - 3] == NatToString(k);
    ParseNatToString(k);
  }

  function Sum(xs: seq<int>): int
  {
    if |xs| == 0 then 0 else xs[0] + Sum(xs[1..])
  }

  /** `Math.max(...xs)` over a non-empty list. */
  function MaxOf(xs: seq<int>): (m: int)
    requires |xs| > 0
    ensures forall k :: 0 <= k < |xs| ==> xs[k] <= m
    ensures exists k :: 0 <= k < |xs| && xs[k] == m
  {
    if |xs| == 1 then xs[0]
    else
      var m := MaxOf(xs[1..]);
      assert forall k :: 1 <= k < |xs| ==> xs[k] == xs[1..][k - 1];
      if xs[0] >= m then xs[0] else m
  }

  /** The summary cards; a key the report type does not produce is `None`. */
  datatype Stats = Stats(avgAqi: Option<int>, peakAqi: Option<int>, incidents: Option<int>,
                         smokeEvents: Option<int>, fireIncidents: Option<int>)

  datatype Report = Report(labels: seq<string>, trend: seq<int>, stats: Stats)

  /** One trend value per label from its draw in [0, 1): an AQI from 40 to 89 for air and
      full reports, an incident flag for fire reports, nothing for an unknown type. */
  function Trend(kind: string, draws: seq<real>): (r: seq<int>)
    requires forall k :: 0 <= k < |draws| ==> 0.0 <= draws[k] < 1.0
    ensures kind == "air" || kind == "full" || kind == "fire" ==> |r| == |draws|
    ensures !(kind == "air" || kind == "full" || kind == "fire") ==> r == []
    ensures kind == "air" || kind == "full" ==> forall k :: 0 <= k < |r| ==> 40 <= r[k] <= 89
    ensures kind == "fire" ==> forall k :: 0 <= k < |r| ==> r[k] == (if draws[k] > 0.8 then 1 else 0)
  {
    if kind == "air" || kind == "full" then
      seq(|draws|, (k: int) requires 0 <= k < |draws| => 40 + (draws[k] * 50.0).Floor)
    else if kind == "fire" then
      seq(|draws|, (k: int) requires 0 <= k < |draws| => if draws[k] > 0.8 then 1 else 0)
    else []
  }

  /** A fire-report draw counts as an incident above 0.8. */
  predicate IsIncident(u: real) { u > 0.8 }

  /** The incident count is the number of draws above 0.8. */
  lemma {:induction false} FireTrendSum(draws: seq<real>)
    requires forall k :: 0 <= k < |draws| ==> 0.0 <= draws[k] < 1.0
    ensures Sum(Trend("fire", draws)) == CountWhere(draws, IsIncident)
    ensures 0 <= Sum(Trend("fire", draws)) <= |draws|
  {
    if |draws| > 0 {
      FireTrendSum(draws[1..]);
      assert Trend("fire", draws)[1..] == Trend("fire", draws[1..]);
    }
  }

  /** `a` is the mean of a sum `s` over `n` entries, rounded down. */
  predicate IsFloorMean(a: int, s: int, n: nat)
  {
    a * n <= s < (a + 1) * n
  }

  /** The air cards: `Math.floor` of the mean and the maximum of a non-empty trend. */
  function AirStats(trend: seq<int>): (r: Stats)
    requires |trend| > 0
    ensures r.avgAqi.Some? && r.peakAqi.Some? && r.incidents.None? && r.smokeEvents.None? && r.fireIncidents.None?
    ensures IsFloorMean(r.avgAqi.value, Sum(trend), |trend|)
    ensures forall k :: 0 <= k < |trend| ==> trend[k] <= r.peakAqi.value
    ensures exists k :: 0 <= k < |trend| && trend[k] == r.peakAqi.value
  {
    Stats(Some(Sum(trend) / |trend|), Some(MaxOf(trend)), None, None, None)
  }

  /** The fire cards: the incident count, repeated as smoke events when positive. */
  function FireStats(trend: seq<int>): (r: Stats)
    ensures r.incidents == Some(Sum(trend)) && r.avgAqi.None? && r.peakAqi.None? && r.fireIncidents.None?
    ensures Sum(trend) >= 0 ==> r.smokeEvents == r.incidents
  {
    var incidents := Sum(trend);
    Stats(None, None, Some(incidents), Some(if incidents > 0 then incidents else 0), None)
  }

  /** `fetchMockData(type, range)` with one draw per label. The payload's `rawLogs`, ten rows
      of `generateMockLogs(type, 10)`, are drawn independently of the rest and are modelled
      by `GenerateMockLogs` on their own. */
  function FetchMockData(kind: string, range: string, draws: seq<real>): (r: Report)
    requires |draws| == |Labels(range)|
    requires forall k :: 0 <= k < |draws| ==> 0.0 <= draws[k] < 1.0
    ensures r.labels == Labels(range)
    ensures kind == "air" || kind == "full" || kind == "fire" ==> |r.trend| == |r.labels|
    ensures kind == "air" || kind == "full" ==>
              var n := |r.trend|;
              r.stats.avgAqi.Some? && r.stats.peakAqi.Some?
              && IsFloorMean(r.stats.avgAqi.value, Sum(r.trend), n)
              && (forall k :: 0 <= k < n ==> r.trend[k] <= r.stats.peakAqi.value)
              && (exists k :: 0 <= k < n && r.trend[k] == r.stats.peakAqi.value)
    ensures kind == "fire" ==>
              r.stats.incidents == Some(CountWhere(draws, IsIncident))
              && r.stats.smokeEvents == r.stats.incidents && r.stats.avgAqi.None?
    ensures r.stats.fireIncidents == (if kind == "full" then Some(0) else None)
    ensures !(kind == "air" || kind == "full" || kind == "fire") ==> r.trend == [] && r.stats == Stats(None, None, None, None, None)
  {
    var trend := Trend(kind, draws);
    var base :=
      if kind == "air" || kind == "full" then AirStats(trend)
      else if kind == "fire" then FireTrendSum(draws); FireStats(trend)
      else Stats(None, None, None, None, None);
    Report(Labels(range), trend, if kind == "full" then base.(fireIncidents := Some(0)) else base)
  }

  /** The peak card of an air report lies in the trend's range [40, 89], and the mean card
      never exceeds it. */
  lemma AirCardsInRange(kind: string, range: string, draws: seq<real>)
    requires kind == "air" || kind == "full"
    requires |draws| == |Labels(range)|
    requires forall k :: 0 <= k < |draws| ==> 0.0 <= draws[k] < 1.0
    ensures var r := FetchMockData(kind, range, draws);
            40 <= r.stats.avgAqi.value <= r.stats.peakAqi.value <= 89
  {
    var r := FetchMockData(kind, range, draws);
    var t := r.trend;
    var a := r.stats.avgAqi.value;
    var p := r.stats.peakAqi.value;
    SumBounds(t, 40, p);
    FloorMeanBetween(a, Sum(t), |t|, 40, p);
  }

  /** A floored mean of entries between `lo` and `hi` lies between them too. */
  lemma FloorMeanBetween(a: int, s: int, n: nat, lo: int, hi: int)
    requires n > 0 && IsFloorMean(a, s, n)
    requires lo * n <= s <= hi * n
    ensures lo <= a <= hi
  {
    FloorMeanBelow(a, s, n, lo);
    FloorMeanBelow(a, s, n, hi + 1);
  }

  /** Bounds on every entry bound the sum. */
  lemma {:induction false} SumBounds(xs: seq<int>, lo: int, hi: int)
    requires forall k :: 0 <= k < |xs| ==> lo <= xs[k] <= hi
    ensures lo * |xs| <= Sum(xs) <= hi * |xs|
  {
    if |xs| > 0 {
      SumBounds(xs[1..], lo, hi);
    }
  }

  /** One mock log row. */
  datatype LogRow = LogRow(time: string, event: string, val: int, status: string)

  function EventPool(kind: string): (r: seq<string>)
    ensures |r| == 4
  {
    if kind == "fire" then ["System Check", "Smoke Sensor Low", "Temp Normal", "Heartbeat"]
    else ["Fan Speed High", "AQI Spike", "Filter Check", "Mode: Auto"]
  }

  /** `generateMockLogs(type, count)` with two draws per row: `count` rows at hours 10, 11, ...
      of a fixed day, each event from the type's pool, each value in [0, 99], each status "OK". */
  function GenerateMockLogs(kind: string, eventDraws: seq<real>, valueDraws: seq<real>): (r: seq<LogRow>)
    requires |eventDraws| == |valueDraws|
    requires forall k :: 0 <= k < |eventDraws| ==> 0.0 <= eventDraws[k] < 1.0 && 0.0 <= valueDraws[k] < 1.0
    ensures |r| == |eventDraws|
    ensures forall k :: 0 <= k < |r| ==>
              r[k].status == "OK" && 0 <= r[k].val <= 99 && r[k].event in EventPool(kind)
              && r[k].time == "2025-12-28 " + NatToString(10 + k) + ":00"
  {
    seq(|eventDraws|, (k: int) requires 0 <= k < |eventDraws| =>
      LogRow("2025-12-28 " + NatToString(10 + k) + ":00",
             EventPool(kind)[(eventDraws[k] * 4.0).Floor],
             (valueDraws[k] * 100.0).Floor,
             "OK"))
  }

  /** `getTypeLabel`. */
  function TypeLabel(t: string): (r: string)
    ensures t == "air" <==> r == "Air Quality"
    ensures t == "fire" <==> r == "Fire Safety"
    ensures t != "air" && t != "fire" <==> r == "Full System"
  {
    if t == "air" then "Air Quality" else if t == "fire" then "Fire Safety" else "Full System"
  }

  datatype InsightStatus = Good | Moderate | Secure | Stable

  /** The headline of `renderInsights`: only air reports look at the average. */
  function InsightFor(kind: string, avg: Option<int>): (r: InsightStatus)
    ensures kind == "air" && avg.Some? ==> (r == Good <==> avg.value < 50)
    ensures kind == "air" ==> r == Good || r == Moderate
    ensures kind == "fire" ==> r == Secure
    ensures kind != "air" && kind != "fire" ==> r == Stable
  {
    if kind == "air" then
      (if avg.Some? && avg.value < 50 then Good else Moderate)
    else if kind == "fire" then Secure
    else Stable
  }

  /** An air report is "Good" exactly when the mean of its trend, rounded down, is below 50. */
  lemma AirInsightFromTrend(range: string, draws: seq<real>)
    requires |draws| == |Labels(range)|
    requires forall k :: 0 <= k < |draws| ==> 0.0 <= draws[k] < 1.0
    ensures var r := FetchMockData("air", range, draws);
            InsightFor("air", r.stats.avgAqi) == Good <==> Sum(r.trend) < 50 * |r.trend|
  {
    var r := FetchMockData("air", range, draws);
    FloorMeanBelow(r.stats.avgAqi.value, Sum(r.trend), |r.trend|, 50);
  }

  /** The floor `a` of a mean `s / n` is below a bound `b` exactly when `s` is below `b * n`. */
  lemma FloorMeanBelow(a: int, s: int, n: nat, b: int)
    requires IsFloorMean(a, s, n)
    ensures a < b <==> s < b * n
  {
    if a < b {
      assert (a + 1) * n <= b * n by { MulMonotone(a + 1, b, n); }
    } else {
      assert b * n <= a * n by { MulMonotone(b, a, n); }
    }
  }

  lemma MulMonotone(x: int, y: int, n: nat)
    requires x <= y
    ensures x * n <= y * n
  {
  }

  datatype HistoryItem = HistoryItem(kind: string, range: string, date: string)

  const MaxHistory: nat := 5

  /** `addToHistory`: newest first, at most five. */
  function AddToHistory(h: seq<HistoryItem>, item: HistoryItem): (r: seq<HistoryItem>)
    ensures 1 <= |r| <= |h| + 1 && r[0] == item
    ensures |h| <= MaxHistory ==> |r| <= MaxHistory
    ensures |r| == Min(|h| + 1, MaxHistory) || |h| > MaxHistory
    ensures forall k :: 1 <= k < |r| ==> r[k] == h[k - 1]
  {
    PrependCapped(h, item, MaxHistory)
  }

  /** `loadHistory`: the saved list when there is one, else the list is left empty. */
  function LoadHistory(saved: Option<seq<HistoryItem>>): (r: seq<HistoryItem>)
    ensures saved.Some? ==> r == saved.value
    ensures saved.None? ==> r == []
  {
    if saved.Some? then saved.value else []
  }

  /** The list shows the five most recent reports, newest first. */
  lemma {:induction false} HistoryKeepsNewest(h: seq<HistoryItem>, items: seq<HistoryItem>)
    requires |h| <= MaxHistory
    ensures var all := Reverse(items) + h;
            PrependAll(h, items, MaxHistory) == all[..Min(|all|, MaxHistory)]
  {
    PrependAllKeepsNewest(h, items, MaxHistory);
  }
}

=== FILE: schedule.dfy ===
/** The task scheduler page: validated task creation with the fire-alarm safety
    rule, confirmation-gated deletion of critical tasks, the time-sorted list,
    the timeline marker, the simulated clock offset and the once-per-minute
    check that runs every second. */
module Schedule {
  import opened Common

  /** A scheduled task.  Device, action, repeat and priority are the form's option texts. */
  datatype Task = Task(id: string, name: string, device: string, action: string,
                       time: string, repeat: string, priority: string, lastRun: Option<int>)

  datatype TaskError = MissingField | SafetyViolation

  const DefaultTasks: seq<Task> :=
    [Task("t1", "Morning Purge", "fan", "on", "08:00", "daily", "low", None),
     Task("t2", "Night Silent Mode", "purifier", "silent", "22:00", "daily", "high", None)]

  /** `loadTasks`: the saved list when there is one, otherwise the two default tasks. */
  function LoadTasks(saved: Option<seq<Task>>): (r: seq<Task>)
    ensures saved.Some? ==> r == saved.value
    ensures saved.None? ==> |r| == 2 && r[0].time == "08:00" && r[1].time == "22:00"
  {
    match saved
    case Some(ts) => ts
    case None => DefaultTasks
  }

  /** The one combination that may never be scheduled: switching the fire alarm off. */
  predicate IsAlarmOff(t: Task)
  {
    t.device == "alarm" && t.action == "off"
  }

  /** Every task in the list respects the safety rule. */
  predicate SafeSchedule(ts: seq<Task>)
  {
    forall k :: 0 <= k < |ts| ==> !IsAlarmOff(ts[k])
  }

  /** Deleting these needs confirmation. */
  predicate IsCritical(t: Task)
  {
    t.device == "alarm" || t.priority == "high"
  }

  /** `addTask` at clock reading `now` (ms): an empty name or time is refused first, then a
      fire-alarm-off task is refused; otherwise exactly one task, never run, with id
      "tsk-<now>", is appended. */
  function AddTask(tasks: seq<Task>, now: nat, name: string, device: string, action: string,
                   time: string, repeat: string, priority: string): (r: Result<seq<Task>, TaskError>)
    ensures (name == "" || time == "") ==> r == Err(MissingField)
    ensures name != "" && time != "" && device == "alarm" && action == "off" ==> r == Err(SafetyViolation)
    ensures r.Ok? <==> name != "" && time != "" && !(device == "alarm" && action == "off")
    ensures r.Ok? ==>
              |r.value| == |tasks| + 1 && r.value[..|tasks|] == tasks
              && var t := r.value[|tasks|];
                 t.id == "tsk-" + NatToString(now) && t.name == name && t.device == device && t.action == action
                 && t.time == time && t.repeat == repeat && t.priority == priority && t.lastRun.None?
    ensures SafeSchedule(tasks) && r.Ok? ==> SafeSchedule(r.value)
  {
    if name == "" || time == "" then Err(MissingField)
    else if device == "alarm" && action == "off" then Err(SafetyViolation)
    else Ok(tasks + [Task("tsk-" + NatToString(now), name, device, action, time, repeat, priority, None)])
  }

  /** `deleteTask(id)`: an unknown id changes nothing; a critical task stays unless the
      user confirmed; otherwise exactly the first task with that id is removed. */
  function DeleteTask(tasks: seq<Task>, id: string, confirmed: bool): (r: seq<Task>)
    ensures (forall k :: 0 <= k < |tasks| ==> tasks[k].id != id) ==> r == tasks
    ensures var i := FindIndex(tasks, (t: Task) => t.id == id);
            i >= 0 ==>
              (IsCritical(tasks[i]) && !confirmed ==> r == tasks)
              && (!IsCritical(tasks[i]) || confirmed ==> r == tasks[..i] + tasks[i+1..])
    ensures SafeSchedule(tasks) ==> SafeSchedule(r)
  {
    var i := FindIndex(tasks, (t: Task) => t.id == id);
    if i == -1 then tasks
    else if IsCritical(tasks[i]) && !confirmed then tasks
    else SpliceOne(tasks, i)
  }

  // ---------------------------------------------------------------------------
  // The list order: `tasks.sort((a, b) => a.time.localeCompare(b.time))`

  /** Code-unit lexicographic order on texts; on "HH:MM" texts it agrees with `localeCompare`. */
  predicate LexLeq(a: string, b: string)
    decreases |a|
  {
    |a| == 0 || (|b| > 0 && (a[0] < b[0] || (a[0] == b[0] && LexLeq(a[1..], b[1..]))))
  }

  lemma {:induction false} LexLeqTotal(a: string, b: string)
    ensures LexLeq(a, b) || LexLeq(b, a)
    decreases |a|
  {
    if |a| > 0 && |b| > 0 && a[0] == b[0] {
      LexLeqTotal(a[1..], b[1..]);
    }
  }

  lemma {:induction false} LexLeqTrans(a: string, b: string, c: string)
    requires LexLeq(a, b) && LexLeq(b, c)
    ensures LexLeq(a, c)
    decreases |a|
  {
    if |a| > 0 && a[0] == b[0] && b[0] == c[0] {
      LexLeqTrans(a[1..], b[1..], c[1..]);
    }
  }

  lemma {:induction false} LexLeqRefl(a: string)
    ensures LexLeq(a, a)
    decreases |a|
  {
    if |a| > 0 {
      LexLeqRefl(a[1..]);
    }
  }

  lemma TailSorted(ts: seq<Task>)
    requires TimeSorted(ts) && |ts| > 0
    ensures TimeSorted(ts[1..])
  {
  }

  predicate TimeSorted(ts: seq<Task>)
  {
    forall i, j :: 0 <= i < j < |ts| ==> LexLeq(ts[i].time, ts[j].time)
  }

  /** Insert `t` before the first task it does not come after (so earlier tasks stay first among equals). */
  function InsertByTime(t: Task, ts: seq<Task>): (r: seq<Task>)
    requires TimeSorted(ts)
    ensures TimeSorted(r)
    ensures multiset(r) == multiset(ts) + multiset{t}
  {
    if |ts| == 0 then [t]
    else if LexLeq(t.time, ts[0].time) then
      HeadBelowSorted(t, ts);
      ConsSorted(t, ts);
      [t] + ts
    else
      LexLeqTotal(t.time, ts[0].time);
      var rest := InsertByTime(t, ts[1..]);
      assert ts == [ts[0]] + ts[1..];
      HeadBelowInserted(ts, t, rest);
      ConsSorted(ts[0], rest);
      [ts[0]] + rest
  }

  /** A task placed in front of a sorted list that it precedes elementwise keeps it sorted. */
  lemma ConsSorted(x: Task, rest: seq<Task>)
    requires TimeSorted(rest)
    requires forall j :: 0 <= j < |rest| ==> LexLeq(x.time, rest[j].time)
    ensures TimeSorted([x] + rest)
  {
    var r := [x] + rest;
    forall i, j | 0 <= i < j < |r| ensures LexLeq(r[i].time, r[j].time) {
      assert r[j] == rest[j - 1];
      if i > 0 { assert r[i] == rest[i - 1]; }
    }
  }

  /** A time not after the head of a sorted list is not after any of its entries. */
  lemma HeadBelowSorted(t: Task, ts: seq<Task>)
    requires TimeSorted(ts) && |ts| > 0 && LexLeq(t.time, ts[0].time)
    ensures forall j :: 0 <= j < |ts| ==> LexLeq(t.time, ts[j].time)
  {
    forall j | 0 < j < |ts| ensures LexLeq(t.time, ts[j].time) {
      LexLeqTrans(t.time, ts[0].time, ts[j].time);
    }
  }

  /** The head of a sorted list precedes every entry of its tail with `t` inserted, when it
      precedes `t`. */
  lemma HeadBelowInserted(ts: seq<Task>, t: Task, rest: seq<Task>)
    requires TimeSorted(ts) && |ts| > 0 && LexLeq(ts[0].time, t.time)
    requires multiset(rest) == multiset(ts[1..]) + multiset{t}
    ensures forall j :: 0 <= j < |rest| ==> LexLeq(ts[0].time, rest[j].time)
  {
    forall j | 0 <= j < |rest| ensures LexLeq(ts[0].time, rest[j].time) {
      assert rest[j] in multiset(rest);
      if rest[j] != t {
        assert rest[j] in multiset(ts[1..]);
        var m :| 0 <= m < |ts[1..]| && ts[1..][m] == rest[j];
        assert ts[m + 1] == rest[j];
      }
    }
  }

  /** The order `renderTasks` leaves the list in: ascending by time, a permutation of the input. */
  function SortByTime(ts: seq<Task>): (r: seq<Task>)
    ensures TimeSorted(r)
    ensures multiset(r) == multiset(ts)
    ensures |r| == |ts|
  {
    if |ts| == 0 then []
    else
      assert ts == [ts[0]] + ts[1..];
      InsertByTime(ts[0], SortByTime(ts[1..]))
  }

  /** Re-sorting never brings in an unsafe task. */
  lemma SortKeepsSafe(ts: seq<Task>)
    requires SafeSchedule(ts)
    ensures SafeSchedule(SortByTime(ts))
  {
    var r := SortByTime(ts);
    forall k | 0 <= k < |r| ensures !IsAlarmOff(r[k]) {
      assert r[k] in multiset(ts);
    }
  }

  // ---------------------------------------------------------------------------
  // Clock texts and the timeline

  function Pad2(n: nat): (r: string)
    ensures n < 100 ==> |r| == 2
  {
    var d := NatToString(n);
    assert n < 100 ==> |d| <= 2;
    PadStart(d, 2, '0')
  }

  /** The "HH:MM" text `toLocaleTimeString('en-GB', {hour: '2-digit', minute: '2-digit'})`
      gives for a minute of the day. */
  function FormatHm(minuteOfDay: nat): (r: string)
    requires minuteOfDay < 1440
    ensures |r| == 5 && r[2] == ':'
  {
    var a := Pad2(minuteOfDay / 60);
    var b := Pad2(minuteOfDay % 60);
    assert |a| == 2 && |b| == 2;
    ColonAfterTwo(a, b);
    a + ":" + b
  }

  lemma ColonAfterTwo(a: string, b: string)
    requires |a| == 2 && |b| == 2
    ensures var r := a + ":" + b; |r| == 5 && r[2] == ':'
  {
    var r := a + ":" + b;
    assert r[2] == (a + ":")[2];
  }

  /** `time.split(':').map(Number)` for a text of two digit groups. */
  function ParseHm(t: string): Option<(nat, nat)>
  {
    var parts := Split(t, ':');
    if |parts| == 2
       && (forall k :: 0 <= k < |parts[0]| ==> IsDigit(parts[0][k]))
       && (forall k :: 0 <= k < |parts[1]| ==> IsDigit(parts[1][k]))
    then Some((ParseNat(parts[0]), ParseNat(parts[1])))
    else None
  }

  lemma TwoDigitParts(n: nat)
    requires n < 100
    ensures var p := Pad2(n);
            |p| == 2 && (forall k :: 0 <= k < 2 ==> IsDigit(p[k])) && ParseNat(p) == n
            && ':' !in p
  {
    PadDigitsRoundTrip(n, 2);
    var p := Pad2(n);
    assert forall k :: 0 <= k < 2 ==> p[k] != ':';
  }

  /** Reading back a formatted minute gives its hour and minute, so two different minutes
      of the day never share a key. */
  lemma {:induction false} ParseFormatHm(x: nat)
    requires x < 1440
    ensures ParseHm(FormatHm(x)) == Some((x / 60, x % 60))
  {
    var h := Pad2(x / 60);
    var m := Pad2(x % 60);
    TwoDigitParts(x / 60);
    TwoDigitParts(x % 60);
    assert FormatHm(x) == h + [':'] + m;
    SplitAtSep(h, m, ':');
    SplitNoSep(m, ':');
  }

  lemma FormatHmInjective(x: nat, y: nat)
    requires x < 1440 && y < 1440
    requires FormatHm(x) == FormatHm(y)
    ensures x == y
  {
    ParseFormatHm(x);
    ParseFormatHm(y);
  }

  /** Horizontal position of a marker on the 24-hour timeline, in percent. */
  function MarkerPercent(h: int, m: int): (r: real)
    ensures 0 <= h < 24 && 0 <= m < 60 ==> 0.0 <= r < 100.0
    ensures 0 <= h * 60 + m ==> 0.0 <= r
  {
    ((h * 60 + m) as real / 1440.0) * 100.0
  }

  /** A stored task time in clock format places its marker on the track. */
  lemma {:induction false} FormattedTimeMarkerOnTrack(x: nat)
    requires x < 1440
    ensures var p := ParseHm(FormatHm(x));
            p.Some? && 0.0 <= MarkerPercent(p.value.0, p.value.1) < 100.0
  {
    ParseFormatHm(x);
  }

  // ---------------------------------------------------------------------------
  // Simulated clock

  /** Whether "time travel" has been used and the offset added to the real clock, in ms. */
  datatype SimClock = SimClock(simMode: bool, offset: int)

  const HourMs: int := 3600000

  /** `toggleSim`: both branches add one hour; the first also switches simulation on. */
  function ToggleSim(c: SimClock): (r: SimClock)
    ensures r.simMode
    ensures r.offset == c.offset + HourMs
    ensures r.offset > c.offset
  {
    if !c.simMode then SimClock(true, c.offset + HourMs)
    else c.(offset := c.offset + HourMs)
  }

  function ToggleTimes(c: SimClock, n: nat): SimClock
    decreases n
  {
    if n == 0 then c else ToggleTimes(ToggleSim(c), n - 1)
  }

  /** The offset only grows: `n` presses add exactly `n` hours. */
  lemma {:induction false} ToggleTimesOffset(c: SimClock, n: nat)
    ensures ToggleTimes(c, n).offset == c.offset + n * HourMs
    ensures ToggleTimes(c, n).offset >= c.offset
    decreases n
  {
    if n > 0 {
      ToggleTimesOffset(ToggleSim(c), n - 1);
    }
  }

  /** `getSimulatedTime`: the real time shifted by the offset. */
  function SimulatedNow(c: SimClock, realNow: int): int
  {
    realNow + c.offset
  }

  /** Local minute of the day of an instant, for a zone `zoneMs` ahead of UTC. */
  function LocalMinute(instant: int, zoneMs: int): (m: nat)
    ensures m < 1440
  {
    ((instant + zoneMs) / 60000) % 1440
  }

  /** Local day number of an instant. */
  function LocalDay(instant: int, zoneMs: int): int
  {
    (instant + zoneMs) / 86400000
  }

  // ---------------------------------------------------------------------------
  // The once-per-minute check

  /** Scheduler state: the tasks, the pause switch and the "HH:MM" keys already checked
      in this browser session. */
  datatype Scheduler = Scheduler(tasks: seq<Task>, active: bool, checked: set<string>)

  /** `pauseAll` flips the pause switch and nothing else. */
  function PauseAll(s: Scheduler): (r: Scheduler)
    ensures r.active == !s.active && r.tasks == s.tasks && r.checked == s.checked
  {
    s.(active := !s.active)
  }

  /** The tasks of a list whose time equals `hm`, in list order. */
  function DueAt(tasks: seq<Task>, hm: string): (r: seq<Task>)
    ensures |r| == CountWhere(tasks, At(hm))
    ensures forall k :: 0 <= k < |r| ==> r[k].time == hm && r[k] in tasks
    ensures forall k :: 0 <= k < |tasks| && tasks[k].time == hm ==> tasks[k] in r
    ensures Subseq(r, tasks)
  {
    FilterIsSubseq(tasks, At(hm));
    FilterMembers(tasks, At(hm));
    Filter(tasks, At(hm))
  }

  /** The test for tasks set to the minute `hm`. */
  function At(hm: string): Task -> bool
  {
    (t: Task) => t.time == hm
  }

  /** Inserting a task into a sorted list adds it to the tasks due at its own minute, in front
      of the ones already there. */
  lemma {:induction false} DueAtInsert(t: Task, ts: seq<Task>, hm: string)
    requires TimeSorted(ts)
    ensures Filter(InsertByTime(t, ts), At(hm)) == (if t.time == hm then [t] else []) + Filter(ts, At(hm))
  {
    var p := At(hm);
    if |ts| == 0 {
      FilterCons(t, [], p);
    } else if LexLeq(t.time, ts[0].time) {
      assert InsertByTime(t, ts) == [t] + ts;
      FilterCons(t, ts, p);
    } else {
      TailSorted(ts);
      DueAtInsert(t, ts[1..], hm);
      DueAtInsertBehind(t, ts, hm);
    }
  }

  /** The step of `DueAtInsert` where the task goes behind the head of the list. */
  lemma DueAtInsertBehind(t: Task, ts: seq<Task>, hm: string)
    requires TimeSorted(ts) && |ts| > 0 && !LexLeq(t.time, ts[0].time)
    requires Filter(InsertByTime(t, ts[1..]), At(hm)) == (if t.time == hm then [t] else []) + Filter(ts[1..], At(hm))
    ensures Filter(InsertByTime(t, ts), At(hm)) == (if t.time == hm then [t] else []) + Filter(ts, At(hm))
  {
    LexLeqRefl(t.time);
    InsertBehindHead(t, ts);
    FilterPassesFront(t, ts, InsertByTime(t, ts[1..]), InsertByTime(t, ts), At(hm));
  }

  lemma InsertBehindHead(t: Task, ts: seq<Task>)
    requires TimeSorted(ts) && |ts| > 0 && !LexLeq(t.time, ts[0].time)
    ensures InsertByTime(t, ts) == [ts[0]] + InsertByTime(t, ts[1..])
  {
    LexLeqTotal(t.time, ts[0].time);
  }

  /** The render sort is stable for each minute: the tasks due at any minute, and their order,
      are the same before and after sorting. */
  lemma {:induction false} SortKeepsDue(ts: seq<Task>, hm: string)
    ensures Filter(SortByTime(ts), At(hm)) == Filter(ts, At(hm))
  {
    if |ts| > 0 {
      SortKeepsDue(ts[1..], hm);
      DueAtInsert(ts[0], SortByTime(ts[1..]), hm);
    }
  }

  /** `checkSchedule` for the current "HH:MM" text: nothing while paused; nothing for a key
      already checked this session; otherwise every task at that time runs, in list order,
      and the key is recorded even when no task matched.  The `repeat` field is never read. */
  function CheckSchedule(s: Scheduler, hm: string): (r: (Scheduler, seq<Task>))
    ensures !s.active ==> r.0 == s && r.1 == []
    ensures s.active && hm in s.checked ==> r.0 == s && r.1 == []
    ensures s.active && hm !in s.checked ==>
              r.0 == s.(checked := s.checked + {hm}) && r.1 == DueAt(s.tasks, hm)
    ensures r.0.tasks == s.tasks && r.0.active == s.active && s.checked <= r.0.checked
  {
    if !s.active then (s, [])
    else if hm in s.checked then (s, [])
    else (s.(checked := s.checked + {hm}), DueAt(s.tasks, hm))
  }

  /** One second-tick: the key is the local "HH:MM" of the simulated time. */
  function Tick(s: Scheduler, c: SimClock, realNow: int, zoneMs: int): (r: (Scheduler, seq<Task>))
    ensures var hm := FormatHm(LocalMinute(SimulatedNow(c, realNow), zoneMs));
            r == CheckSchedule(s, hm)
  {
    CheckSchedule(s, FormatHm(LocalMinute(SimulatedNow(c, realNow), zoneMs)))
  }

  /** A run of checks; returns the keys whose check actually ran, in order. */
  function RunChecks(s: Scheduler, keys: seq<string>): (r: (Scheduler, seq<string>))
    decreases |keys|
  {
    if |keys| == 0 then (s, [])
    else
      var ran := s.active && keys[0] !in s.checked;
      var (s1, _) := CheckSchedule(s, keys[0]);
      var (s2, rest) := RunChecks(s1, keys[1..]);
      (s2, if ran then [keys[0]] + rest else rest)
  }

  /** At most once per key per session: over any run of checks, the keys that ran are
      pairwise distinct, none was checked before, and all are recorded afterwards. */
  lemma {:induction false} RunChecksAtMostOnce(s: Scheduler, keys: seq<string>)
    ensures var (s', ran) := RunChecks(s, keys);
            (forall i, j :: 0 <= i < j < |ran| ==> ran[i] != ran[j])
            && (forall i :: 0 <= i < |ran| ==> ran[i] !in s.checked && ran[i] in s'.checked)
            && s.checked <= s'.checked
    decreases |keys|
  {
    if |keys| > 0 {
      var (s1, _) := CheckSchedule(s, keys[0]);
      RunChecksAtMostOnce(s1, keys[1..]);
      var (s2, rest) := RunChecks(s1, keys[1..]);
      var ran := s.active && keys[0] !in s.checked;
      if ran {
        assert keys[0] in s1.checked;
        var all := [keys[0]] + rest;
        assert forall i :: 0 < i < |all| ==> all[i] == rest[i - 1];
      }
    }
  }

  /** As written: a daily task that ran at 22:00 does not run at 22:00 the next day in the
      same session, because the recorded key carries no date. */
  lemma DailyTaskSkipsNextDay()
    ensures var t := Task("t2", "Night Silent Mode", "purifier", "silent", "22:00", "daily", "high", None);
            var s0 := Scheduler([t], true, {});
            var (s1, first) := CheckSchedule(s0, "22:00");
            var (s2, nextDay) := CheckSchedule(s1, "22:00");
            first == [t] && nextDay == []
  {
  }

  // ---------------------------------------------------------------------------
  // Corrected check: the recorded key names the day as well as the minute

  datatype DatedScheduler = DatedScheduler(tasks: seq<Task>, active: bool, checked: set<(int, string)>)

  function CheckScheduleDated(s: DatedScheduler, day: int, hm: string): (r: (DatedScheduler, seq<Task>))
    ensures !s.active ==> r.0 == s && r.1 == []
    ensures s.active && (day, hm) in s.checked ==> r.0 == s && r.1 == []
    ensures s.active && (day, hm) !in s.checked ==>
              r.0 == s.(checked := s.checked + {(day, hm)}) && r.1 == DueAt(s.tasks, hm)
  {
    if !s.active then (s, [])
    else if (day, hm) in s.checked then (s, [])
    else (s.(checked := s.checked + {(day, hm)}), DueAt(s.tasks, hm))
  }

  /** Corrected: a task runs at its time on every day it is reached, still at most once per
      minute: a second check in the same minute of the same day runs nothing. */
  lemma {:induction false} DatedRunsEveryDayOncePerMinute(s: DatedScheduler, k: nat, day: int)
    requires s.active && k < |s.tasks|
    requires forall d :: (d, s.tasks[k].time) !in s.checked
    ensures var hm := s.tasks[k].time;
            var (s1, first) := CheckScheduleDated(s, day, hm);
            var (s2, again) := CheckScheduleDated(s1, day, hm);
            var (s3, nextDay) := CheckScheduleDated(s2, day + 1, hm);
            s.tasks[k] in first && again == [] && s.tasks[k] in nextDay
  {
    var hm := s.tasks[k].time;
    var (s1, first) := CheckScheduleDated(s, day, hm);
    var (s2, again) := CheckScheduleDated(s1, day, hm);
    assert (day + 1, hm) !in s2.checked;
  }
}
